=== FILE: README.md ===
# weatherdesk rules, modelled in Dafny

weatherdesk is a weather dashboard. The front end is Next.js and the back end is Ktor over
SQLite. This project models the self-contained rules inside it and proves properties of them:

- **Mock weather.** The synthetic generator (season, base-temperature table, WMO weather-code
  ladder, seven-day forecast loop) and the city search over its fixed table.
- **Display.** Unit conversion and the conversions on the current-weather card.
- **Classifiers.** The two recommendation engines, the "feels like" caption, the icon switch, the
  OpenWeather-to-WMO code map and the back end's condition and description tables.
- **Back-end shaping.** The back end's five-minute weather cache and the way it shapes an
  Open-Meteo response.
- **The weather API route.** Parameter validation and the time-zone guess.
- **Client state.** The preferences and favourites store, the favourite toggle, the rating
  widget, and the theme provider and toggle.
- **Persistence.** The three SQLite services, as in-memory tables, and the `toMap`/`fromMap`
  serialisers of the back-end models.

One module per source file; the city search of the mock service has a module of its own,
`CitySearch`. Shared helpers live in `common.dfy`:

- `Wrappers` holds `Option` and `Result`.
- `Sequences` holds `slice(0, n)` and the optional push shared by both recommendation engines.
- `Numeric` holds `Round`, which is JavaScript's `Math.round` on exact reals:
  `Floor(x + 0.5)`.
- `Text` holds ASCII lower-casing, `trim`, `includes`, `indexOf` and decimal rendering.

Numbers are exact reals or unbounded integers. Kotlin's `Int` is written out where its width
matters (`BackendTypes.ToInt`).

The following are parameters of the operations that use them:

- clocks and dates;
- `Math.sin` and `Math.random`;
- `parseFloat`;
- the geocoder and the forecast HTTP request;
- date parsing and formatting;
- the apparent-temperature formula.

Code that works on state is modelled as classes whose methods are specified against functions.
This covers the favourites store, the rating widget, the theme state, the weather cache and the
three tables. Those functions carry the lemmas.

## Model

| member | source | states |
|---|---|---|
| Numeric.Round | src/lib/unit-conversions.ts:10-22 | `Math.round(x)` lies within half a unit of x: n - 0.5 <= x < n + 0.5 |
| Numeric.RoundUnique | src/lib/unit-conversions.ts:10-22 | `Math.round(x)` is the one integer n with n - 0.5 <= x < n + 0.5 |
| Sequences.Take | src/components/weather-recommendations.tsx:102 | `slice(0, n)`: the first min(n, length) elements, a prefix |
| Text.TrimLower | src/main/kotlin/service/WeatherService.kt:37 | trimming and lower-casing commute, so the cache key does not depend on their order |
| Text.ContainsIff | src/components/weather-recommendations.tsx:49-63 | `includes` holds iff the word occurs at some position of the text |
| Text.Trim | src/main/kotlin/service/WeatherService.kt:37 | the result is a slice `s[i..j]` of the input with only white space outside it, and it neither starts nor ends with white space |
| Text.IndexOf | src/main/kotlin/service/WeatherService.kt:130 | `indexOf` is -1 iff the element is absent, and otherwise the position of its first occurrence |
| MockWeather.SeasonOf | src/lib/mock-weather-service.ts:162-181 | latitude >= 0 takes the northern season; south of the equator it is the opposite one (winter and summer, spring and fall swapped) |
| MockWeather.NorthernSeasonMonths | src/lib/mock-weather-service.ts:166-181 | months 11, 0, 1 are winter; 2-4 spring; 5-7 summer; 8-10 fall (each an iff) |
| MockWeather.SeasonalBaseTemp | src/lib/mock-weather-service.ts:161-229 | every base temperature lies in [-18, 30] |
| MockWeather.BaseTempIsTablePlusNovemberAdjustment | src/lib/mock-weather-service.ts:188-227 | the base temperature is the band-by-season table value, moved by -3 (north) or +3 (south) only in November when abs(latitude) > 35 |
| MockWeather.NovemberBoundaryAt35 | src/lib/mock-weather-service.ts:221-227 | latitude 35 exactly is not adjusted; 35.5 is, in both hemispheres |
| MockWeather.WeatherCode | src/lib/mock-weather-service.ts:236-349 | for every draw the code is one of 0, 1, 2, 3, 61, 71, 73, 75, 80, 95, and every code is a key of `WEATHER_CODES` |
| MockWeather.TropicalCodeIgnoresSeason | src/lib/mock-weather-service.ts:262-267 | in the tropics the code depends on the draw only, not on month or hemisphere |
| MockWeather.NovemberSnowOnlyAbove45 | src/lib/mock-weather-service.ts:289-296 | in the temperate band of either hemisphere in November the early-snow code appears iff latitude > 45 and the draw is in [0.8, 0.95); the southern ladder never gives it |
| MockWeather.UvIndex | src/lib/mock-weather-service.ts:415-418 | the UV index is never negative |
| MockWeather.HighLowSpread | src/lib/mock-weather-service.ts:405-406 | `round(x + 5) - round(x - 5)` is exactly 10 for every x |
| MockWeather.GatedAmount | src/lib/mock-weather-service.ts:409-410 | an amount gated on a code range is 0 outside that range |
| MockWeather.ForecastLoop | src/lib/mock-weather-service.ts:384-419 | the loop builds seven entries in every daily array: the dates; the day codes; max - min = 10; no precipitation for codes < 51; non-negative UV |
| MockWeather.DayCode | src/lib/mock-weather-service.ts:402-403 | each day's code is one the ladder can produce and a key of `WEATHER_CODES` |
| MockWeather.GenerateMockWeatherData | src/lib/mock-weather-service.ts:354-462 | see the list after this table |
| MockWeather.LondonNovemberBase | src/lib/mock-weather-service.ts:188-227 | London in November has base temperature 7 (10 from the table, -3 for November) |
| CitySearch.FirstPartialMatch | src/lib/mock-weather-service.ts:477-482 | some entry whose key contains the query or is contained in it; None iff there is none |
| CitySearch.FirstPartialMatchIsLeast | src/lib/mock-weather-service.ts:477-482 | `find` returns the entry at the least index whose key relates to the query |
| CitySearch.LookupKey | src/lib/mock-weather-service.ts:472-475 | an entry stored under exactly the key, None iff no key equals it |
| CitySearch.Search | src/lib/mock-weather-service.ts:472-482 | whatever is found is an entry of the table |
| CitySearch.SearchResult | src/lib/mock-weather-service.ts:472-482 | an exact key gives its own entry; with none, the entry at the least related index; None iff no key equals or relates to the query |
| CitySearch.SearchCity | src/lib/mock-weather-service.ts:469-483 | the result is an entry of `CITY_DATABASE`; which one is `SearchResult` for the lower-cased, trimmed query |
| CitySearch.SearchCityIgnoresCase | src/lib/mock-weather-service.ts:470 | the search does not depend on letter case |
| CitySearch.SearchCityBlankFindsACity | src/lib/mock-weather-service.ts:469-483 | a query that is blank once trimmed finds the first entry, New York (see Findings) |
| CitySearch.TableKeys | src/lib/mock-weather-service.ts:66-123 | no key of the table is empty, "constructor" or "__proto__" |
| CitySearch.SearchCityAsWritten | src/lib/mock-weather-service.ts:469-483 | the plain-object read: a query normalising to "constructor" or "__proto__" yields the inherited value, any other query the table search |
| CitySearch.InheritedNameIsNotACity | src/lib/mock-weather-service.ts:473-474 | "Constructor" and "__proto__" return an inherited non-city value (see Findings) |
| CitySearch.SearchCityNonEmpty | src/lib/mock-weather-service.ts:469-483 | corrected search: a blank query gives None, any other query the search result |
| CitySearch.SearchCityNonEmptyFound | src/lib/mock-weather-service.ts:469-483 | what the corrected search finds is an entry whose key equals or relates to a non-blank query |
| UnitConversions.ConvertTemperature | src/lib/unit-conversions.ts:5-23 | the result is the rounding of the exact conversion (C to F, F to C, or the value itself) |
| UnitConversions.TemperatureSameUnitIdentity | src/lib/unit-conversions.ts:10 | a whole number converted to its own unit is unchanged |
| UnitConversions.CelsiusRoundTrip | src/lib/unit-conversions.ts:14-19 | whole Celsius to Fahrenheit and back is exactly the start value |
| UnitConversions.FahrenheitRoundTripWithinOne | src/lib/unit-conversions.ts:14-19 | whole Fahrenheit to Celsius and back is within one degree |
| UnitConversions.FahrenheitRoundTripNotExact | src/lib/unit-conversions.ts:14-19 | 33 F goes to 1 C, which comes back as 34 F |
| UnitConversions.ConvertWindSpeed | src/lib/unit-conversions.ts:26-59 | the result is the rounding of the exact conversion through km/h, or of the value for the same unit |
| UnitConversions.WindThroughKmhIsExact | src/lib/unit-conversions.ts:33-58 | every unit pair rounds the exact value only once |
| UnitConversions.WindSameUnitIdentity | src/lib/unit-conversions.ts:31 | a whole number converted to its own unit is unchanged |
| UnitConversions.TemperatureSymbol | src/lib/unit-conversions.ts:61-63 | "°C" iff Celsius, "°F" otherwise |
| UnitConversions.WindSpeedSymbol | src/lib/unit-conversions.ts:65-74 | km/h, mph and m/s, each iff its unit |
| ShippedRecommendations.TemperatureEntry | src/components/weather-recommendations.tsx:25-46 | "Stay Cool" iff t > 27, "Bundle Up" iff t < 4, "Perfect Weather" iff 15 <= t <= 24, none iff t is in [4, 15) or (24, 27] |
| ShippedRecommendations.ConditionEntry | src/components/weather-recommendations.tsx:49-70 | umbrella iff rain or drizzle; snow iff snow and not rain; sunny iff clear or sun and neither of the others; none otherwise |
| ShippedRecommendations.GetWeatherRecommendations | src/components/weather-recommendations.tsx:18-103 | the pushes, the general fallback and the cut to three give exactly `Recommendations` |
| ShippedRecommendations.ShownCount | src/components/weather-recommendations.tsx:93-102 | one to three entries are shown |
| ShippedRecommendations.GeneralAdviceIffNothingElse | src/components/weather-recommendations.tsx:93-100 | "General Advice" is shown iff no other entry applied, and then alone |
| ShippedRecommendations.TemperatureShownFirst | src/components/weather-recommendations.tsx:25-46 | a temperature entry, when present, is shown first |
| ShippedRecommendations.ConditionAlwaysShown | src/components/weather-recommendations.tsx:49-70 | a condition entry, when present, is always shown |
| ShippedRecommendations.WindyIff | src/components/weather-recommendations.tsx:22 | "Windy Conditions" is shown iff mps × 3.6 > 32 (lines 73-80) |
| ShippedRecommendations.HumidityShownIff | src/components/weather-recommendations.tsx:83-102 | "High Humidity" is shown iff humidity > 70 and not all three earlier kinds applied (the cut drops it) |
| ShippedRecommendations.ShownIsPrefix | src/components/weather-recommendations.tsx:102 | what is shown is a prefix of the pushed entries |
| NineBandRecommendations.SafetyEntries | test-recommendations-FIXED.js:15-31 | thunder warning iff thunder, visibility warning iff fog or mist; thunder comes first; both can appear |
| NineBandRecommendations.TemperatureEntry | test-recommendations-FIXED.js:34-97 | the nine bands, each an iff on its interval |
| NineBandRecommendations.TemperatureBandsCover | test-recommendations-FIXED.js:34-97 | every temperature yields a temperature entry |
| NineBandRecommendations.TemperatureTestVectors | test-recommendations-FIXED.js:238-256 | 0, 4, 27, 28, 30, 32 give Very Cold, Cool, Warm Day, Hot, Hot, Very Hot |
| NineBandRecommendations.ConditionEntry | test-recommendations-FIXED.js:100-148 | at most one entry, and it is a condition-category one |
| NineBandRecommendations.ConditionEntryPrecipitation | test-recommendations-FIXED.js:100-126 | heavy rain iff wet and heavy; rainy iff wet and not heavy; heavy snow / snowy iff snow, not wet, heavy or not; overcast iff overcast and neither |
| NineBandRecommendations.ConditionEntrySkies | test-recommendations-FIXED.js:127-148 | partly cloudy iff none of the above and "partly cloudy" or "partial"; cloudy iff none of those and "cloudy"; clear iff none of those and "clear" or "sun"; no entry iff no word matches |
| NineBandRecommendations.PartlyCloudyBeforeCloudy | test-recommendations-FIXED.js:127-140 | "Partly cloudy" mentions "cloudy" yet gives Partly Cloudy, not Cloudy Day |
| NineBandRecommendations.WindEntry | test-recommendations-FIXED.js:151-167 | very windy iff > 30, windy iff in (20, 30], none otherwise |
| NineBandRecommendations.HumidityEntry | test-recommendations-FIXED.js:170-189 | very humid iff > 85, humid iff in (70, 85], dry iff < 30, none otherwise |
| NineBandRecommendations.CombinationEntries | test-recommendations-FIXED.js:192-217 | hypothermia iff t < 4 and wet; heat index iff t > 27 and humidity > 70; storm iff wind > 20 with rain or snow |
| NineBandRecommendations.Entries | test-recommendations-FIXED.js:15-217 | the single-factor entries come first, in push order, and every entry after them is a combination warning |
| NineBandRecommendations.GetWeatherRecommendations | test-recommendations-FIXED.js:9-229 | the guarded pushes and the cut give exactly `Recommendations` |
| NineBandRecommendations.FallbackUnreachable | test-recommendations-FIXED.js:220-227 | "Typical November Day" is never shown; one to three entries are shown |
| NineBandRecommendations.SafetyFirst | test-recommendations-FIXED.js:15-31 | thunder is shown first; fog first without thunder, second with it |
| NineBandRecommendations.SafetyShownInOrder | test-recommendations-FIXED.js:15-31 | the safety warnings are shown first in push order, and at least one entry follows them |
| NineBandRecommendations.HypothermiaShownOnlyAlone | test-recommendations-FIXED.js:192-229 | a shown hypothermia warning means no safety, wind or humidity entry: it is third after temperature and condition |
| NineBandRecommendations.ShownHypothermiaWasPushed | test-recommendations-FIXED.js:192-229 | a shown hypothermia warning was pushed, after at most two single-factor entries |
| NineBandRecommendations.HypothermiaCutOff | test-recommendations-FIXED.js:397-420 | at 2 °C, "Heavy rain", humidity 75, wind 15 the hypothermia warning is pushed fourth and cut off |
| NineBandRecommendations.CutOffSingleFactors | test-recommendations-FIXED.js:397-409 | the heavy-rain case pushes Very Cold, Heavy Rain Alert and High Humidity before any combination |
| NineBandRecommendations.StormNeverShown | test-recommendations-FIXED.js:210-229 | "Storm Conditions" is never shown, for any weather (see Findings) |
| NineBandRecommendations.StormHasThreeBefore | test-recommendations-FIXED.js:34-217 | whenever the storm warning is pushed, temperature, condition and wind entries precede it |
| NineBandRecommendations.CriticalEntries | test-recommendations-FIXED.js:15-217 | the safety and combination warnings, all critical, at most four |
| NineBandRecommendations.RecommendationsCriticalFirst | test-recommendations-FIXED.js:9-229 | corrected engine: one to three shown; all critical warnings shown when at most three; a critical one first whenever any exists |
| NineBandRecommendations.StormShownWhenCriticalFirst | test-recommendations-FIXED.js:396-420 | with critical warnings first, the storm warning is shown unless both safety warnings also apply |
| FeelsLike.Describe | src/components/feels-like-weather.tsx:21-232 | a heat caption iff t > 85; a pleasant caption iff 65 <= t <= 75; a cold caption iff t < 40 |
| FeelsLike.HeatBands | src/components/feels-like-weather.tsx:26-64 | above 95: sauna or pizza oven by humidity; in (85, 95]: soup or hairdryer; a heat caption iff t > 85 |
| FeelsLike.PleasantBand | src/components/feels-like-weather.tsx:67-85 | in [65, 75] only "clear" decides; these two captions iff t is in that band |
| FeelsLike.ColdBands | src/components/feels-like-weather.tsx:88-126 | below 20 only the wind decides; snow globe iff 20 <= t < 32 with snow; refrigerator for every other t < 40 |
| FeelsLike.WeatherWordsOnlyInTheMiddle | src/components/feels-like-weather.tsx:118-201 | rain, drizzle, storm, wind, cloud and humid captions need 40 <= t <= 85 outside [65, 75] |
| FeelsLike.DescribeIgnoresCase | src/components/feels-like-weather.tsx:67 | the caption does not depend on letter case in the condition |
| FeelsLike.CelsiusInputMisread | src/components/feels-like-weather.tsx:21-23 | the caption is fed Celsius (line 240) but thresholds are Fahrenheit (see Findings) |
| FeelsLike.CelsiusToFahrenheit | src/components/feels-like-weather.tsx:240 | the inverse of the Fahrenheit-to-Celsius conversion |
| FeelsLike.DescribeCelsiusBands | src/components/feels-like-weather.tsx:21-232 | corrected caption: the pleasant band is about 18.3-23.9 °C, refrigerator below 40/9 °C, heat above 35 °C |
| WeatherIcon.IconFor | src/components/weather-icon.tsx:10-37 | CloudSun iff the lower-cased condition is not a case name or is "few clouds" |
| WeatherIcon.DefaultIcon | src/components/weather-icon.tsx:33-35 | a condition not among the cases gives CloudSun |
| WeatherIcon.IconIgnoresCase | src/components/weather-icon.tsx:12 | conditions equal after lower-casing give the same icon |
| WeatherIcon.IconTable | src/components/weather-icon.tsx:13-32 | the nine cases and their icons |
| WeatherIcon.WholeStringOnly | src/components/weather-icon.tsx:12 | matching is whole-string: "light rain" gives the default |
| WeatherIcon.BackendSingleWordNames | src/main/kotlin/service/WeatherService.kt:181-193 | CLEAR, RAIN, SNOW, THUNDERSTORM and MIST hit their cases |
| WeatherIcon.BackendUnderscoredNames | src/main/kotlin/service/WeatherService.kt:181-193 | FEW_CLOUDS, SCATTERED_CLOUDS, BROKEN_CLOUDS, SHOWER_RAIN and UNKNOWN fall to the default |
| OpenWeatherCodes.ToWmo | src/lib/real-weather-service.ts:297-338 | every result is a key of `WEATHER_CODES` |
| OpenWeatherCodes.WholeCodeRanges | src/lib/real-weather-service.ts:299-337 | the range table for whole codes (thunderstorm 95, drizzle 51/53/55, rain 61/63/65, snow 71/73/75, atmosphere 45, clouds 0-3, else 0) |
| OpenWeatherCodes.UnreachableBranches | src/lib/real-weather-service.ts:309-324 | 67, 77, 80 and 85 are never returned for whole codes |
| OpenWeatherCodes.FractionalCodesReachShowers | src/lib/real-weather-service.ts:309-324 | only non-integer codes such as 500.5 and 600.5 reach 80 and 85 |
| OpenWeatherCodes.FreezingCodesShadowed | src/lib/real-weather-service.ts:309-324 | 511 maps to 65 and 611/612 to 75 (see Findings) |
| OpenWeatherCodes.ToWmoIntended | src/lib/real-weather-service.ts:297-338 | corrected map: 511 to 67, 611/612 to 77, the rain showers 520-531 to 80, the snow showers 613-622 to 85, every other code as before |
| OpenWeatherCodes.IntendedFamilies | src/lib/real-weather-service.ts:309-324 | corrected rain and snow codes stay in their families and 511 differs from the original |
| WeatherService.ConditionOf | src/main/kotlin/service/WeatherService.kt:181-193 | each condition iff the code is in its list |
| WeatherService.KnownIffListed | src/main/kotlin/service/WeatherService.kt:181-193 | the condition is known iff the code is a WMO code of the generator's table |
| WeatherService.Description | src/main/kotlin/service/WeatherService.kt:195-225 | "Unknown" iff the condition table does not know the code: the two back-end tables list the same codes |
| WeatherService.DescriptionsAgree | src/main/kotlin/service/WeatherService.kt:195-225 | the description equals the generator's table text for listed codes and "Unknown" otherwise |
| WeatherService.CurrentHumidity | src/main/kotlin/service/WeatherService.kt:130-133 | humidity at the first index of the current time, 0 when absent or out of range |
| WeatherService.Forecast | src/main/kotlin/service/WeatherService.kt:136-144 | one forecast day per element of `daily.time` |
| WeatherService.ForecastDefaults | src/main/kotlin/service/WeatherService.kt:136-144 | the date is the parsed day or today; a present high, low or code is read at the day's index; missing highs/lows read as 0.0, a missing code as "UNKNOWN"/"No data" |
| WeatherService.WeatherByCoordinates | src/main/kotlin/service/WeatherService.kt:62-167 | the forecast is non-empty iff the request succeeded with a complete response that has days; then it is `Forecast` of the daily block, one entry per day |
| WeatherService.FailedRequestPlaceholder | src/main/kotlin/service/WeatherService.kt:71-98 | a failed request gives the placeholder weather |
| WeatherService.IncompleteResponse | src/main/kotlin/service/WeatherService.kt:105-127 | a response lacking current or daily data gives the incomplete placeholder |
| WeatherService.CompleteResponse | src/main/kotlin/service/WeatherService.kt:147-166 | a complete response gives its temperature, the city name or its own coordinates, the parsed date, the humidity at the current hour, wind in m/s = km/h ÷ 3.6 (lines 153, 159), and `Forecast` of the daily block |
| WeatherService.NamesDistinct | src/main/kotlin/service/WeatherService.kt:181-193 | only the unknown condition is named "UNKNOWN" |
| WeatherService.CacheKey | src/main/kotlin/service/WeatherService.kt:37 | the key has no upper-case letter and no leading or trailing white space |
| WeatherService.CacheKeyIgnoresCase | src/main/kotlin/service/WeatherService.kt:37 | the cache key ignores letter case |
| WeatherService.WeatherCache.GetWeatherByCity | src/main/kotlin/service/WeatherService.kt:35-59 | a fresh hit (age < 300000 ms) returns the stored data, cache unchanged; otherwise a found place is fetched, stored and returned; else None with the cache unchanged; no key is removed |
| WeatherRoute.Validate | src/app/api/weather/route.ts:17-40 | 400 for missing or empty, for NaN, and for out-of-range coordinates, each an iff |
| WeatherRoute.BoundsAccepted | src/app/api/weather/route.ts:35-40 | latitude ±90 and longitude ±180 are accepted |
| WeatherRoute.ZoneName | src/app/api/weather/route.ts:76-105 | a zone exists iff the offset is in [-12, 12] |
| WeatherRoute.OffsetHours | src/app/api/weather/route.ts:76 | the offset is `round(lon / 15)` |
| WeatherRoute.TimezoneFor | src/app/api/weather/route.ts:72-107 | "UTC" iff the offset has no table entry |
| WeatherRoute.AcceptedLongitudeHasZone | src/app/api/weather/route.ts:35-107 | every accepted longitude has a zone, so "UTC" is never returned |
| WeatherRoute.HalfHourMeridians | src/app/api/weather/route.ts:72-107 | -7.5 gives London and 7.5 gives Paris (halves round up) |
| WeatherRoute.Get | src/app/api/weather/route.ts:9-59 | 400 with the rejection message, or 200 with `public, max-age=300` and the generated weather |
| UserPreferences.Apply | src/contexts/user-preferences-context.tsx:65-67 | each supplied field is overwritten, each omitted field kept |
| UserPreferences.ApplyLaws | src/contexts/user-preferences-context.tsx:65-67 | the empty patch changes nothing, a patch is idempotent, two patches compose into one |
| Text.NatToString | src/contexts/user-preferences-context.tsx:70 | the decimal text of the id's time: digits only, no leading zero, denoting the number |
| UserPreferences.NewFavorite | src/contexts/user-preferences-context.tsx:69-76 | the new entry holds the city, country and time; its id starts with the city |
| UserPreferences.WithFavorite | src/contexts/user-preferences-context.tsx:69-85 | unchanged if the city is already there ignoring case, else the entry is appended |
| UserPreferences.WithFavoriteKeepsInvariant | src/contexts/user-preferences-context.tsx:69-85 | after adding, the city is a favourite, and cities stay unique ignoring case |
| UserPreferences.WithoutId | src/contexts/user-preferences-context.tsx:87-89 | exactly the entries whose id differs remain |
| UserPreferences.WithoutUnknownId | src/contexts/user-preferences-context.tsx:87-89 | an unknown id changes nothing |
| UserPreferences.WithoutIdAppend | src/contexts/user-preferences-context.tsx:87-89 | removal keeps the order: it distributes over concatenation |
| UserPreferences.WithoutIdKeepsInvariant | src/contexts/user-preferences-context.tsx:87-89 | removal keeps the cities unique |
| UserPreferences.FindByCity | src/components/current-weather-card.tsx:39-41 | the first favourite matching ignoring case, None iff there is none |
| UserPreferences.PreferencesStore.constructor | src/contexts/user-preferences-context.tsx:6-15 | the defaults and no favourites |
| UserPreferences.PreferencesStore.Load | src/contexts/user-preferences-context.tsx:35-48 | parsed settings are adopted, missing parts read as defaults or an empty list; nothing stored or unparsable keeps the state |
| UserPreferences.PreferencesStore.UpdatePreferences | src/contexts/user-preferences-context.tsx:65-67 | preferences become `Apply(old, patch)`, favourites unchanged |
| UserPreferences.PreferencesStore.AddFavorite | src/contexts/user-preferences-context.tsx:69-85 | favourites become `WithFavorite`; the city is then a favourite; uniqueness kept |
| UserPreferences.PreferencesStore.RemoveFavorite | src/contexts/user-preferences-context.tsx:87-89 | favourites become `WithoutId`; uniqueness kept |
| UserPreferences.PreferencesStore.ClearAllFavorites | src/contexts/user-preferences-context.tsx:97-99 | the list is empty and no city is a favourite |
| CurrentWeatherCard.DisplayTemperature | src/components/current-weather-card.tsx:28 | the shown temperature is the rounding of the exact conversion from Celsius |
| CurrentWeatherCard.DisplayWindSpeed | src/components/current-weather-card.tsx:31-33 | the detour through km/h equals a direct conversion from m/s; km/h shows `round(mps × 3.6)`, m/s shows `round(mps)` |
| CurrentWeatherCard.ReportedKmhShownUnchanged | src/components/current-weather-card.tsx:32-33 | a speed divided by 3.6 on the back end comes back in km/h as its rounding |
| CurrentWeatherCard.Toggled | src/components/current-weather-card.tsx:36-48 | a non-favourite is appended as a new favourite; for a favourite the result is the list without the id of its first case-insensitive match, so every other entry stays in order |
| CurrentWeatherCard.ToggleFlips | src/components/current-weather-card.tsx:36-48 | toggling flips whether the city is a favourite and keeps uniqueness |
| CurrentWeatherCard.ToggleTwiceRestores | src/components/current-weather-card.tsx:36-48 | from a non-favourite with a fresh id, toggling twice restores the list |
| CurrentWeatherCard.HandleToggleFavorite | src/components/current-weather-card.tsx:36-48 | the store's favourites become `Toggled`, and the favourite status flips |
| RatingWidget.HighlightIsPrefix | src/components/rating.tsx:55 | star k is lit iff k <= max(hover, rating) |
| RatingWidget.Rating.constructor | src/components/rating.tsx:16-19 | rating 0, hover 0, not submitting, not submitted |
| RatingWidget.Rating.Render | src/components/rating.tsx:34-66 | thank-you text iff submitted; otherwise five stars lit by the highlight rule, the button enabled iff not submitting and rating != 0 |
| RatingWidget.Rating.ClickStar | src/components/rating.tsx:45-50 | the rating becomes k unless the star is disabled; it stays in 0..5 |
| RatingWidget.Rating.MouseEnter | src/components/rating.tsx:46 | hover becomes k |
| RatingWidget.Rating.MouseLeave | src/components/rating.tsx:47 | hover resets to 0 |
| RatingWidget.Rating.HandleRate | src/components/rating.tsx:22-32 | nothing while rating = 0 or already submitting; otherwise the rating is sent and submitting starts |
| RatingWidget.Rating.RatingSent | src/components/rating.tsx:26-27 | a finished submission sets `submitted` |
| RatingWidget.SubmittedIsTerminal | src/components/rating.tsx:34-36 | once submitted, clicks, hovers and presses change nothing and the thank-you text stays |
| ThemeProvider.ThemeFromTime | src/components/providers/ThemeProvider.tsx:23-28 | "light" iff 7 <= hour < 19, else "dark" |
| ThemeProvider.ParseMode | src/components/providers/ThemeProvider.tsx:34-37 | only "light", "dark" and "auto" are accepted |
| ThemeProvider.ParseModeName | src/components/providers/ThemeProvider.tsx:34-37 | every mode's stored name is accepted back |
| ThemeProvider.Resolve | src/components/providers/ThemeProvider.tsx:53-59 | auto follows the clock; other modes are their own theme |
| ThemeProvider.ThemeState.constructor | src/components/providers/ThemeProvider.tsx:18-19 | mode and theme start "dark" |
| ThemeProvider.ThemeState.LoadSaved | src/components/providers/ThemeProvider.tsx:31-45 | an accepted stored mode is adopted; the theme follows the stored value or the clock |
| ThemeProvider.ThemeState.SetMode | src/components/providers/ThemeProvider.tsx:48-60 | the mode is stored and the theme is `Resolve(mode, hour)` |
| ThemeProvider.ThemeState.ModeEffect | src/components/providers/ThemeProvider.tsx:48-60 | the rendered mode is stored and the theme resolved from it; the mode is unchanged |
| ThemeProvider.MountedMode | src/components/providers/ThemeProvider.tsx:34-37 | an accepted stored mode, otherwise the initial dark |
| ThemeProvider.Mount | src/components/providers/ThemeProvider.tsx:30-60 | after mount, mode, stored text and theme agree; with nothing, an empty or an unknown text stored, mode, theme and stored text are all dark whatever the hour |
| ThemeProvider.ThemeState.Tick | src/components/providers/ThemeProvider.tsx:64-75 | in auto mode the theme follows the clock; otherwise nothing changes |
| ThemeProvider.ReloadAfterSetMode | src/components/providers/ThemeProvider.tsx:31-60 | a mode set, stored and reloaded later comes back, resolved at the later hour |
| ThemeToggle.CycleMode | src/components/theme-toggle.tsx:12-18 | never auto; dark iff the mode was light |
| ThemeToggle.CycleTwice | src/components/theme-toggle.tsx:12-18 | two toggles from light or dark return to the start; from auto they give dark |
| ThemeToggle.IconFor | src/components/theme-toggle.tsx:21 | Sun iff light |
| ThemeToggle.Label | src/components/theme-toggle.tsx:24-27 | "Light mode" iff light, "Dark mode" otherwise |
| ThemeToggle.Click | src/components/theme-toggle.tsx:12-18 | the mode cycles and is stored, and the theme equals it |
| BackendTypes.ValueOfName | src/main/kotlin/model/User.kt:42-43 | `valueOf(name)` inverts each enum's name |
| BackendTypes.TruncateTowardZero | src/main/kotlin/model/Rating.kt:26 | Kotlin's `toInt` on a Double truncates toward zero |
| BackendTypes.ToInt | src/main/kotlin/model/Rating.kt:26 | `Number.toInt` gives a 32-bit value: a whole number is congruent to it modulo 2^32 (exact in range); a decimal is truncated toward zero and clamped to the `Int` range |
| BackendTypes.ToIntExamples | src/main/kotlin/model/Rating.kt:26 | 4.9 gives 4, -4.9 gives -4, 2^32 + 3 wraps to 3, 1e10 saturates |
| BackendTypes.ToLong | src/main/kotlin/model/Location.kt:10 | whole numbers unchanged, decimals truncated |
| UserModel.ToModel | src/main/kotlin/model/User.kt:13-19 | all five fields are copied |
| UserModel.ToModelInjective | src/main/kotlin/model/User.kt:13-19 | distinct DTOs give distinct users |
| UserModel.ToMap | src/main/kotlin/model/User.kt:29-35 | exactly the five keys, units stored by enum name |
| UserModel.RoundTrip | src/main/kotlin/model/User.kt:29-44 | `fromMap(toMap(u)) == u` |
| UserModel.FromMap | src/main/kotlin/model/User.kt:38-44 | a text city and numeric coordinates are read back, wrong-typed ones as null; unit names are read by `valueOf`, missing units as defaults; an unknown temperature-unit name fails with that name, and so does an unknown wind-unit name once the temperature unit is accepted; with no unit entries it succeeds |
| UserModel.DefaultUnitsAgree | src/main/kotlin/model/User.kt:6-44 | a DTO without units and a stored map without unit entries give the same user: CELSIUS and KILOMETERS_PER_HOUR |
| LocationModel.ToMap | src/main/kotlin/model/Location.kt:8 | exactly latitude, longitude, name, timestamp |
| LocationModel.FromMap | src/main/kotlin/model/Location.kt:10 | succeeds iff latitude and longitude are numbers and name is text; then the coordinates are the numbers as doubles, the name is the text, and the timestamp is `toLong` of a number, else now |
| LocationModel.TimestampReadings | src/main/kotlin/model/Location.kt:10 | a timestamp of 5.7 reads as 5, and a text timestamp reads as now |
| LocationModel.RoundTrip | src/main/kotlin/model/Location.kt:8-10 | `fromMap(toMap(l)) == l` |
| LocationModel.MissingTimestampIsNow | src/main/kotlin/model/Location.kt:10 | a missing timestamp becomes now |
| RatingModel.ToMap | src/main/kotlin/model/Rating.kt:14-20 | userId, city, rating, date, timestamp; no id |
| RatingModel.FromMap | src/main/kotlin/model/Rating.kt:23-29 | succeeds iff userId and city are text and rating a number; id is always null; the rating is `toInt` of the number, with no range check; a missing date is today and a missing timestamp now |
| RatingModel.RoundTrip | src/main/kotlin/model/Rating.kt:14-29 | `fromMap(toMap(r))` is r with a null id |
| RatingModel.RatingNotValidated | src/main/kotlin/model/Rating.kt:26 | 4.7 reads as 4 and 9 is accepted: no range check |
| RatingService.RatingCount | src/main/kotlin/service/RatingService.kt:44-52 | the count of a city's rows is at most the table size |
| RatingService.AverageExistsIff | src/main/kotlin/service/RatingService.kt:41-55 | the average exists iff some row has exactly that city |
| RatingService.SumBounds | src/main/kotlin/service/RatingService.kt:44-52 | ratings in [lo, hi] give a sum within count × lo and count × hi |
| RatingService.AverageBounds | src/main/kotlin/service/RatingService.kt:41-55 | the average of ratings in [lo, hi] is in [lo, hi] |
| RatingService.AppendRow | src/main/kotlin/service/RatingService.kt:26-55 | a row of another city leaves the average unchanged; a row of the city adds to its sum and count |
| RatingService.FirstRatingIsAverage | src/main/kotlin/service/RatingService.kt:26-55 | the first rating of a city is its average |
| RatingService.RatingsTable.SaveRating | src/main/kotlin/service/RatingService.kt:26-39 | one row appended, with a missing date read as today; no other city's average changes |
| RatingService.RatingsTable.GetAverageRating | src/main/kotlin/service/RatingService.kt:41-55 | the loop computes `Average(rows, city)` |
| PreferencesService.Encode | src/main/kotlin/service/PreferencesService.kt:59-86 | the stored row reads back as the saved preferences (lines 44-52), stamped with the save time |
| PreferencesService.Decode | src/main/kotlin/service/PreferencesService.kt:44-52 | NULL or unknown enum names read as CELSIUS, KILOMETERS_PER_HOUR and AUTO |
| PreferencesService.PreferencesTable.GetPreferences | src/main/kotlin/service/PreferencesService.kt:37-57 | None iff the email has no row, else the decoded row |
| PreferencesService.PreferencesTable.SavePreferences | src/main/kotlin/service/PreferencesService.kt:59-86 | upsert by email: get then returns the saved preferences, other emails unchanged |
| PreferencesService.LastWriteWins | src/main/kotlin/service/PreferencesService.kt:62-73 | a second save overwrites every field |
| LocationService.UserRows | src/main/kotlin/service/DatabaseLocationService.kt:16 | exactly one user's rows |
| LocationService.Unflag | src/main/kotlin/service/DatabaseLocationService.kt:16 | the user's rows lose the flag; other rows are kept |
| LocationService.UnflagOtherUsers | src/main/kotlin/service/DatabaseLocationService.kt:16 | unflagging touches no other user's rows |
| LocationService.LastLocation | src/main/kotlin/service/DatabaseLocationService.kt:21-27 | a flagged row of the user, None iff there is none |
| LocationService.LocationsTable.GetLastLocation | src/main/kotlin/service/DatabaseLocationService.kt:21-27 | None iff no row of the user is flagged; with at most one flagged row per user, that row's location |
| LocationService.Unflagged | src/main/kotlin/service/DatabaseLocationService.kt:36-41 | exactly the locations of the user's unflagged rows |
| LocationService.InsertSorted | src/main/kotlin/service/DatabaseLocationService.kt:38-40 | insertion keeps the list newest first |
| LocationService.InsertPermutes | src/main/kotlin/service/DatabaseLocationService.kt:38-40 | insertion adds exactly the new location |
| LocationService.SortNewestFirstSpec | src/main/kotlin/service/DatabaseLocationService.kt:38-40 | the sort is newest first and a permutation |
| LocationService.WithoutName | src/main/kotlin/service/DatabaseLocationService.kt:44-46 | exactly the rows not of the user with that name remain |
| LocationService.WithoutNameOtherUsers | src/main/kotlin/service/DatabaseLocationService.kt:44-46 | removal touches no other user's rows |
| LocationService.WithoutNameKeepsInvariant | src/main/kotlin/service/DatabaseLocationService.kt:44-46 | removal keeps at most one flagged row per user |
| LocationService.LastAfterUnflag | src/main/kotlin/service/DatabaseLocationService.kt:14-19 | after unflagging, the appended flagged row is the last location |
| LocationService.LastLocationAppendUnflagged | src/main/kotlin/service/DatabaseLocationService.kt:29-34 | an unflagged row leaves the last location unchanged |
| LocationService.PreviousLastBecomesSaved | src/main/kotlin/service/DatabaseLocationService.kt:14-41 | the previous last location is afterwards among the saved locations |
| LocationService.LocationsTable.SaveLastLocation | src/main/kotlin/service/DatabaseLocationService.kt:14-19 | unflag, then append: the user's only flagged row is the new one; others untouched; invariant kept |
| LocationService.LocationsTable.AddToSavedLocations | src/main/kotlin/service/DatabaseLocationService.kt:29-34 | nothing if any row of the user has the name, else an unflagged row appended; last location unchanged |
| LocationService.LocationsTable.GetSavedLocations | src/main/kotlin/service/DatabaseLocationService.kt:36-41 | the user's unflagged rows, newest first, as a permutation |
| LocationService.LocationsTable.RemoveSavedLocation | src/main/kotlin/service/DatabaseLocationService.kt:44-46 | every row of the user with the name goes, the flagged one included; others untouched |

`MockWeather.GenerateMockWeatherData` (src/lib/mock-weather-service.ts:354-462) ensures:

- `is_day` is 1 iff 6 <= hour < 19.
- The code comes from the ladder.
- Feels-like is the temperature - 2.
- Precipitation, rain, showers and snow are 0 outside their code ranges.
- Gusts are `round(wind × 1.5)`.
- Every daily array has seven entries, with the loop's properties.
- Sunrise and sunset are fixed.

## Left out

- Network calls are parameters: geocoding, the Open-Meteo request and the route's delay. So are the random and sine textures of the generator (humidity, wind, pressures, amounts). The `precipSums.indexOf` sums at mock-weather-service.ts:453-455 are not modelled.
- The 500 response of the weather route is left out: the generator is total here. `WeatherRoute.Get` does not model the artificial delay.
- Floating point: numbers are exact reals. There is no NaN and no Infinity, so `parseFloat` is a parameter returning None for NaN. IEEE rounding of 1.60934 and 3.6 is not modelled.
- The Steadman apparent-temperature formula (`exp`) is a host parameter of `WeatherService`. Date parsing and formatting, `LocalDate.now()` and `System.currentTimeMillis()` are also parameters.
- `WeatherService.WeatherCache.GetWeatherByCity`: the cache is sequential. The unguarded concurrent writers are not modelled.
- `UserPreferences.PreferencesStore.Load`: localStorage is a parameter (`StoredSettings`), and JSON parsing is left out. A patch whose field is explicitly `undefined` is not distinguished from an absent one.
- `ThemeProvider.ThemeState`: the one-minute `setInterval` as a separate process and the DOM class changes are reduced to explicit `Tick` calls. React's scheduling is reduced to the order `ThemeProvider.Mount` fixes: the load effect, then the mode effect with the first render's mode, then the mode effect again if the mode changed.
- `RatingWidget.Rating.HandleRate`: the `rateForecast` call and the toast are left out. `RatingSent` stands for the call's return, and a call that throws is not modelled.
- `BackendTypes.ToLong`: does not model `Long` saturation for decimals beyond 2^63.
- `LocationService.LocationsTable.GetSavedLocations`: SQL gives no order to equal timestamps, so the insertion sort picks one valid order. The contract states only "newest first" and "a permutation".
- Database mechanics (SQL, JDBC, Exposed transactions, schema creation, auto-increment ids) are left out. The tables are a sequence or a map.
- `LocationService.LocationsTable.GetLastLocation` returns the first flagged row of the user in table order. The source's `firstNotNullOfOrNull` (DatabaseLocationService.kt:23) takes the first row the unordered SELECT yields, so the model names which row only when the user has at most one flagged row, which every save keeps.
- Letter case and white space are ASCII-only: `Text.Lower` maps A-Z only and `Text.Trim` strips space, tab, line feed, carriage return, vertical tab and form feed. JavaScript's `toLowerCase`/`trim` and Kotlin's `lowercase()`/`trim()` are Unicode-aware (they also strip U+00A0, for instance), so non-ASCII input is not modelled.
- Authentication, HTTP routing and the other UI components are left out, since they sit outside the rules modelled here.

## Findings

| source | as written | input that shows it | evidently intended | confidence | as-written member | corrected member |
|---|---|---|---|---|---|---|
| src/lib/mock-weather-service.ts:469-483 | a blank query normalises to "", which every key contains, so the first table entry is returned | `searchCity("")` returns New York | no city for a blank query (test-api-integration.js:21 expects null) | high, not executed | CitySearch.SearchCityBlankFindsACity | CitySearch.SearchCityNonEmpty |
| src/lib/mock-weather-service.ts:473-474 | the exact-match test reads the plain object `CITY_DATABASE`, which inherits `Object.prototype`'s properties | `searchCity("Constructor")` returns the `Object` function and `searchCity("__proto__")` returns `Object.prototype`: truthy values that are not cities | only the table's own keys match: both queries give null | high, not executed | CitySearch.InheritedNameIsNotACity | CitySearch.SearchCity |
| src/components/feels-like-weather.tsx:21-23 | the thresholds are Fahrenheit, but the caption is fed the Celsius temperature (line 240 converts it from Celsius for display) | a clear 22 °C day (72 °F) gets "Like a very aggressive refrigerator" | convert to Fahrenheit first: 22 °C is "nature's perfect thermostat" | high, not executed | FeelsLike.CelsiusInputMisread | FeelsLike.DescribeCelsiusBands |
| src/lib/real-weather-service.ts:309-324 | `owCode >= 503` and `owCode >= 602` are tested before 511 and 611/612, and nothing below them is left for the shower branches, so the freezing-rain, sleet and shower returns (67, 77, 80, 85) are dead for whole codes | code 511 gives 65 (heavy rain), 611 gives 75 (heavy snow), 520 gives 65 and 620 gives 75 | 511 gives 67 (freezing rain), 611/612 give 77 (snow grains), the shower codes 520-531 give 80 and 613-622 give 85 | medium, not executed | OpenWeatherCodes.FreezingCodesShadowed | OpenWeatherCodes.ToWmoIntended |
| test-recommendations-FIXED.js:210-229 | the storm warning needs wind > 20, which always pushes a wind entry, and rain or snow, which always pushes a condition entry; with the temperature entry that every weather gets, three entries precede it and `slice(0, 3)` drops it | "Moderate snow" at 5 °C, wind 35, humidity 75 (line 400) shows Cool November Weather, Heavy Snow Warning and Very Windy, and no critical entry | the critical warnings, "always show first" (line 14), come before the other entries | high, not executed | NineBandRecommendations.StormNeverShown | NineBandRecommendations.RecommendationsCriticalFirst |

=== FILE: backend_types.dfy ===
/** The back end's shared types (src/main/kotlin/model/DTO.kt) and the values a Kotlin
    `Map<String, Any?>` holds, with the `Number` conversions the models read them through. */
module BackendTypes {
  import opened Wrappers

  datatype TemperatureUnit = Celsius | Fahrenheit {
    /** The enum constant's `name`. */
    function Name(): string {
      match this
      case Celsius => "CELSIUS"
      case Fahrenheit => "FAHRENHEIT"
    }
  }

  datatype WindSpeedUnit = KilometersPerHour | MetersPerSecond | MilesPerHour {
    function Name(): string {
      match this
      case KilometersPerHour => "KILOMETERS_PER_HOUR"
      case MetersPerSecond => "METERS_PER_SECOND"
      case MilesPerHour => "MILES_PER_HOUR"
    }
  }

  datatype ThemeMode = LightMode | DarkMode | AutoMode {
    function Name(): string {
      match this
      case LightMode => "LIGHT"
      case DarkMode => "DARK"
      case AutoMode => "AUTO"
    }
  }

  /** `TemperatureUnit.valueOf`: None where Kotlin throws. */
  function TemperatureUnitValueOf(name: string): (u: Option<TemperatureUnit>)
    ensures u.Some? ==> u.value.Name() == name
  {
    if name == "CELSIUS" then Some(Celsius)
    else if name == "FAHRENHEIT" then Some(Fahrenheit)
    else None
  }

  function WindSpeedUnitValueOf(name: string): (u: Option<WindSpeedUnit>)
    ensures u.Some? ==> u.value.Name() == name
  {
    if name == "KILOMETERS_PER_HOUR" then Some(KilometersPerHour)
    else if name == "METERS_PER_SECOND" then Some(MetersPerSecond)
    else if name == "MILES_PER_HOUR" then Some(MilesPerHour)
    else None
  }

  function ThemeModeValueOf(name: string): (m: Option<ThemeMode>)
    ensures m.Some? ==> m.value.Name() == name
  {
    if name == "LIGHT" then Some(LightMode)
    else if name == "DARK" then Some(DarkMode)
    else if name == "AUTO" then Some(AutoMode)
    else None
  }

  /** `valueOf(name)` gives back every constant, so each name fails only when it names
      no constant. */
  lemma ValueOfName(t: TemperatureUnit, w: WindSpeedUnit, m: ThemeMode)
    ensures TemperatureUnitValueOf(t.Name()) == Some(t)
    ensures WindSpeedUnitValueOf(w.Name()) == Some(w)
    ensures ThemeModeValueOf(m.Name()) == Some(m)
  {
  }

  /** `UserPreferences`, with its defaults in `DefaultUserPreferences`. */
  datatype UserPreferences = UserPreferences(
    preferredTempUnit: TemperatureUnit, preferredWindUnit: WindSpeedUnit, theme: ThemeMode,
    lastSearchedCity: Option<string>, lastSearchedLatitude: Option<real>, lastSearchedLongitude: Option<real>)

  const DefaultUserPreferences := UserPreferences(Celsius, KilometersPerHour, AutoMode, None, None, None)

  // ---------------------------------------------------------------------------
  // Map values

  /** What an entry of a `Map<String, Any?>` holds: null, a string, a whole number
      (`Int` or `Long`), a `Double`, or anything else. */
  datatype Value = Null | Text(s: string) | Whole(i: int) | Decimal(r: real) | Other

  type ValueMap = map<string, Value>

  /** `map[key]`: an absent key reads as null. */
  function Get(m: ValueMap, key: string): Value {
    if key in m then m[key] else Null
  }

  predicate IsNumber(v: Value) { v.Whole? || v.Decimal? }

  /** `Number.toDouble()`. */
  function ToDouble(v: Value): real
    requires IsNumber(v)
  {
    if v.Whole? then v.i as real else v.r
  }

  /** Truncation toward zero, as Kotlin converts a `Double` to a whole number. */
  function TruncateTowardZero(r: real): (n: int)
    ensures 0.0 <= r ==> n as real <= r < n as real + 1.0
    ensures r < 0.0 ==> n as real - 1.0 < r <= n as real
  {
    if r >= 0.0 then r.Floor else -((-r).Floor)
  }

  /** Kotlin `Int`: 32-bit two's complement. */
  const IntMin: int := -0x8000_0000
  const IntMax: int := 0x7FFF_FFFF

  predicate IsInt(n: int) { IntMin <= n <= IntMax }

  type KotlinInt = n: int | IntMin <= n <= IntMax

  /** `Number.toInt()`: a whole number keeps its low 32 bits; a `Double` is truncated
      toward zero and clamped to the `Int` range. */
  function ToInt(v: Value): (n: int)
    requires IsNumber(v)
    ensures IsInt(n)
    ensures v.Whole? && IsInt(v.i) ==> n == v.i
    ensures v.Whole? ==> (n - v.i) % 0x1_0000_0000 == 0
    ensures v.Decimal? && IsInt(TruncateTowardZero(v.r)) ==> n == TruncateTowardZero(v.r)
    ensures v.Decimal? && TruncateTowardZero(v.r) < IntMin ==> n == IntMin
    ensures v.Decimal? && TruncateTowardZero(v.r) > IntMax ==> n == IntMax
  {
    if v.Whole? then (v.i - IntMin) % 0x1_0000_0000 + IntMin
    else
      var t := TruncateTowardZero(v.r);
      if t < IntMin then IntMin else if t > IntMax then IntMax else t
  }

  /** `Number.toLong()`: a whole number is kept; a `Double` is truncated toward zero. */
  function ToLong(v: Value): (n: int)
    requires IsNumber(v)
    ensures v.Whole? ==> n == v.i
    ensures v.Decimal? ==> n == TruncateTowardZero(v.r)
  {
    if v.Whole? then v.i else TruncateTowardZero(v.r)
  }

  /** `(value as? String)`. */
  function AsString(v: Value): (s: Option<string>)
    ensures s.Some? <==> v.Text?
  {
    if v.Text? then Some(v.s) else None
  }

  /** `(value as? Number)?.toDouble()`. */
  function AsDouble(v: Value): (d: Option<real>)
    ensures d.Some? <==> IsNumber(v)
  {
    if IsNumber(v) then Some(ToDouble(v)) else None
  }

  /** A nullable `Double` as it is put into a map. */
  function OptionalDouble(d: Option<real>): (v: Value)
    ensures AsDouble(v) == d
  {
    if d.Some? then Decimal(d.value) else Null
  }

  /** A nullable `String` as it is put into a map. */
  function OptionalText(s: Option<string>): (v: Value)
    ensures AsString(v) == s
  {
    if s.Some? then Text(s.value) else Null
  }

  /** Rating-style truncations: 4.9 reads as 4, -4.9 as -4, and 2^32 + 3 as 3. */
  lemma ToIntExamples()
    ensures ToInt(Decimal(4.9)) == 4 && ToInt(Decimal(-4.9)) == -4
    ensures ToInt(Whole(0x1_0000_0003)) == 3
    ensures ToInt(Decimal(1.0e10)) == IntMax
  {
  }
}

=== FILE: city_search.dfy ===
/** The fixed city table of src/lib/mock-weather-service.ts and the `searchCity` lookup
    over it: case-insensitive, exact key first, then the first partial match. */
module CitySearch {
  import opened Text
  import opened Wrappers

  datatype CityCoordinates = City(name: string, latitude: real, longitude: real, timezone: string, country: string)

  /** `CITY_DATABASE`, in the order its keys were written (the order `Object.entries` yields),
      region by region as the source groups it. */
  const CityDatabase: seq<(string, CityCoordinates)> :=
    NorthAmerica + Europe + Asia + Oceania + SouthAmerica + Africa

  const NorthAmerica: seq<(string, CityCoordinates)> := [
      ("new york", City("New York", 40.7128, -74.0060, "America/New_York", "USA")),
      ("los angeles", City("Los Angeles", 34.0522, -118.2437, "America/Los_Angeles", "USA")),
      ("chicago", City("Chicago", 41.8781, -87.6298, "America/Chicago", "USA")),
      ("toronto", City("Toronto", 43.6532, -79.3832, "America/Toronto", "Canada")),
      ("vancouver", City("Vancouver", 49.2827, -123.1207, "America/Vancouver", "Canada")),
      ("mexico city", City("Mexico City", 19.4326, -99.1332, "America/Mexico_City", "Mexico")),
      ("miami", City("Miami", 25.7617, -80.1918, "America/New_York", "USA")),
      ("san francisco", City("San Francisco", 37.7749, -122.4194, "America/Los_Angeles", "USA")),
      ("seattle", City("Seattle", 47.6062, -122.3321, "America/Los_Angeles", "USA")),
      ("thunder bay", City("Thunder Bay", 48.3809, -89.2477, "America/Thunder_Bay", "Canada"))
    ]

  const Europe: seq<(string, CityCoordinates)> := [
      ("london", City("London", 51.5074, -0.1278, "Europe/London", "UK")),
      ("paris", City("Paris", 48.8566, 2.3522, "Europe/Paris", "France")),
      ("berlin", City("Berlin", 52.5200, 13.4050, "Europe/Berlin", "Germany")),
      ("madrid", City("Madrid", 40.4168, -3.7038, "Europe/Madrid", "Spain")),
      ("rome", City("Rome", 41.9028, 12.4964, "Europe/Rome", "Italy")),
      ("amsterdam", City("Amsterdam", 52.3676, 4.9041, "Europe/Amsterdam", "Netherlands")),
      ("barcelona", City("Barcelona", 41.3851, 2.1734, "Europe/Madrid", "Spain")),
      ("vienna", City("Vienna", 48.2082, 16.3738, "Europe/Vienna", "Austria")),
      ("prague", City("Prague", 50.0755, 14.4378, "Europe/Prague", "Czech Republic")),
      ("dublin", City("Dublin", 53.3498, -6.2603, "Europe/Dublin", "Ireland"))
    ]

  const Asia: seq<(string, CityCoordinates)> := [
      ("tokyo", City("Tokyo", 35.6762, 139.6503, "Asia/Tokyo", "Japan")),
      ("beijing", City("Beijing", 39.9042, 116.4074, "Asia/Shanghai", "China")),
      ("shanghai", City("Shanghai", 31.2304, 121.4737, "Asia/Shanghai", "China")),
      ("hong kong", City("Hong Kong", 22.3193, 114.1694, "Asia/Hong_Kong", "China")),
      ("singapore", City("Singapore", 1.3521, 103.8198, "Asia/Singapore", "Singapore")),
      ("seoul", City("Seoul", 37.5665, 126.9780, "Asia/Seoul", "South Korea")),
      ("mumbai", City("Mumbai", 19.0760, 72.8777, "Asia/Kolkata", "India")),
      ("delhi", City("Delhi", 28.6139, 77.2090, "Asia/Kolkata", "India")),
      ("bangkok", City("Bangkok", 13.7563, 100.5018, "Asia/Bangkok", "Thailand")),
      ("dubai", City("Dubai", 25.2048, 55.2708, "Asia/Dubai", "UAE"))
    ]

  const Oceania: seq<(string, CityCoordinates)> := [
      ("sydney", City("Sydney", -33.8688, 151.2093, "Australia/Sydney", "Australia")),
      ("melbourne", City("Melbourne", -37.8136, 144.9631, "Australia/Melbourne", "Australia")),
      ("auckland", City("Auckland", -36.8485, 174.7633, "Pacific/Auckland", "New Zealand")),
      ("brisbane", City("Brisbane", -27.4698, 153.0251, "Australia/Brisbane", "Australia")),
      ("perth", City("Perth", -31.9505, 115.8605, "Australia/Perth", "Australia"))
    ]

  const SouthAmerica: seq<(string, CityCoordinates)> := [
      ("sao paulo", City("São Paulo", -23.5505, -46.6333, "America/Sao_Paulo", "Brazil")),
      ("rio de janeiro", City("Rio de Janeiro", -22.9068, -43.1729, "America/Sao_Paulo", "Brazil")),
      ("buenos aires", City("Buenos Aires", -34.6037, -58.3816, "America/Argentina/Buenos_Aires", "Argentina")),
      ("santiago", City("Santiago", -33.4489, -70.6693, "America/Santiago", "Chile")),
      ("lima", City("Lima", -12.0464, -77.0428, "America/Lima", "Peru"))
    ]

  const Africa: seq<(string, CityCoordinates)> := [
      ("cairo", City("Cairo", 30.0444, 31.2357, "Africa/Cairo", "Egypt")),
      ("lagos", City("Lagos", 6.5244, 3.3792, "Africa/Lagos", "Nigeria")),
      ("johannesburg", City("Johannesburg", -26.2041, 28.0473, "Africa/Johannesburg", "South Africa")),
      ("nairobi", City("Nairobi", -1.2921, 36.8219, "Africa/Nairobi", "Kenya")),
      ("casablanca", City("Casablanca", 33.5731, -7.5898, "Africa/Casablanca", "Morocco"))
    ]

  /** The first entry of the table whose key contains the query or is contained in it. */
  function FirstPartialMatch(table: seq<(string, CityCoordinates)>, query: string): (r: Option<CityCoordinates>)
    ensures r.None? <==> forall i :: 0 <= i < |table| ==> !PartialMatch(table[i].0, query)
    ensures r.Some? ==> exists i :: 0 <= i < |table| && table[i].1 == r.value && PartialMatch(table[i].0, query)
                                   && forall j :: 0 <= j < i ==> !PartialMatch(table[j].0, query)
  {
    if table == [] then None
    else if PartialMatch(table[0].0, query) then Some(table[0].1)
    else
      var r := FirstPartialMatch(table[1..], query);
      if r.Some? then
        ghost var i :| 0 <= i < |table[1..]| && table[1..][i].1 == r.value && PartialMatch(table[1..][i].0, query)
                       && forall j :: 0 <= j < i ==> !PartialMatch(table[1..][j].0, query);
        assert table[i + 1].1 == r.value && PartialMatch(table[i + 1].0, query);
        r
      else r
  }

  predicate PartialMatch(key: string, query: string) {
    Contains(key, query) || Contains(query, key)
  }

  /** The entry stored under exactly this key, if any. */
  function LookupKey(table: seq<(string, CityCoordinates)>, key: string): (r: Option<CityCoordinates>)
    ensures r.None? <==> forall i :: 0 <= i < |table| ==> table[i].0 != key
    ensures r.Some? ==> exists i :: 0 <= i < |table| && table[i] == (key, r.value)
  {
    if table == [] then None
    else if table[0].0 == key then Some(table[0].1)
    else
      var r := LookupKey(table[1..], key);
      if r.Some? then
        ghost var i :| 0 <= i < |table[1..]| && table[1..][i] == (key, r.value);
        assert table[i + 1] == (key, r.value);
        r
      else r
  }

  function Normalize(cityName: string): string {
    Trim(Lower(cityName))
  }

  /** The first related entry of a table is the one at the least related index. */
  lemma {:induction false} FirstPartialMatchIsLeast(table: seq<(string, CityCoordinates)>, query: string, j: nat)
    requires j < |table| && PartialMatch(table[j].0, query)
    requires forall k :: 0 <= k < j ==> !PartialMatch(table[k].0, query)
    ensures FirstPartialMatch(table, query) == Some(table[j].1)
    decreases j
  {
    if j > 0 {
      assert !PartialMatch(table[0].0, query);
      assert forall k :: 0 <= k < j - 1 ==> table[1..][k] == table[k + 1];
      FirstPartialMatchIsLeast(table[1..], query, j - 1);
    }
  }

  /** The search over a table's own entries for an already normalised query: the
      exact-key entry if there is one, else the first partial match in table order, else
      nothing. What it returns is an entry of the table related to the query. */
  function Search(table: seq<(string, CityCoordinates)>, q: string): (r: Option<CityCoordinates>)
    ensures r.Some? ==> exists i :: 0 <= i < |table| && table[i].1 == r.value
                                    && (table[i].0 == q || PartialMatch(table[i].0, q))
  {
    var exact := LookupKey(table, q);
    if exact.Some? then exact else FirstPartialMatch(table, q)
  }

  /** Exact key wins; otherwise the entry at the least related index; nothing only when
      no key relates. */
  lemma SearchResult(table: seq<(string, CityCoordinates)>, q: string)
    ensures (exists i :: 0 <= i < |table| && table[i].0 == q) ==>
      Search(table, q).Some? && exists i :: 0 <= i < |table| && table[i] == (q, Search(table, q).value)
    ensures (forall i :: 0 <= i < |table| ==> table[i].0 != q) ==>
      forall j :: 0 <= j < |table| && PartialMatch(table[j].0, q)
                  && (forall k :: 0 <= k < j ==> !PartialMatch(table[k].0, q)) ==>
        Search(table, q) == Some(table[j].1)
    ensures Search(table, q).None? <==> forall i :: 0 <= i < |table| ==> table[i].0 != q && !PartialMatch(table[i].0, q)
  {
    if forall i :: 0 <= i < |table| ==> table[i].0 != q {
      forall j | 0 <= j < |table| && PartialMatch(table[j].0, q)
                 && (forall k :: 0 <= k < j ==> !PartialMatch(table[k].0, q))
        ensures Search(table, q) == Some(table[j].1)
      {
        FirstPartialMatchIsLeast(table, q, j);
      }
    }
  }

  /** `searchCity` over the table's own entries: lower-case and trim the query, then search. */
  function SearchCity(cityName: string): (r: Option<CityCoordinates>)
    ensures r.Some? ==> exists i :: 0 <= i < |CityDatabase| && CityDatabase[i].1 == r.value
  {
    Search(CityDatabase, Normalize(cityName))
  }

  /** The search ignores case: a query and its lower-cased form find the same city. */
  lemma SearchCityIgnoresCase(cityName: string)
    ensures SearchCity(Lower(cityName)) == SearchCity(cityName)
  {
    LowerIdempotent(cityName);
  }

  /** As written, a query that is empty once trimmed is contained in every key and is no
      key itself, so the search returns the first entry, New York, instead of null. */
  lemma SearchCityBlankFindsACity(cityName: string)
    requires Normalize(cityName) == ""
    ensures SearchCity(cityName) == Some(CityDatabase[0].1)
    ensures CityDatabase[0].1.name == "New York"
  {
    assert PartialMatch(CityDatabase[0].0, "");
    TableKeys();
    KeysAvoidAll(CityDatabase, {"constructor", "__proto__", ""});
    SearchResult(CityDatabase, "");
  }

  /** What the plain-object read `CITY_DATABASE[key]` yields: an entry of the table, or a
      property every object inherits from Object.prototype. */
  datatype Lookup = Entry(city: CityCoordinates) | Inherited(name: string)

  /** The inherited property names that are already lower case, so that a lower-cased
      query can reach them: `constructor` (the Object function) and `__proto__`
      (Object.prototype itself). Both values are truthy and neither is a city. */
  const InheritedNames: set<string> := {"constructor", "__proto__"}

  /** No key of the table is one of `names`. */
  predicate KeysAvoid(table: seq<(string, CityCoordinates)>, names: set<string>) {
    table == [] || (table[0].0 !in names && KeysAvoid(table[1..], names))
  }

  lemma {:induction false} KeysAvoidAppend(a: seq<(string, CityCoordinates)>, b: seq<(string, CityCoordinates)>, names: set<string>)
    requires KeysAvoid(a, names) && KeysAvoid(b, names)
    ensures KeysAvoid(a + b, names)
  {
    if a == [] {
      assert a + b == b;
    } else {
      assert (a + b)[0] == a[0];
      assert (a + b)[1..] == a[1..] + b;
      KeysAvoidAppend(a[1..], b, names);
    }
  }

  lemma KeysAvoidRegions(a: seq<(string, CityCoordinates)>, b: seq<(string, CityCoordinates)>,
                         c: seq<(string, CityCoordinates)>, d: seq<(string, CityCoordinates)>,
                         e: seq<(string, CityCoordinates)>, f: seq<(string, CityCoordinates)>, names: set<string>)
    requires KeysAvoid(a, names) && KeysAvoid(b, names) && KeysAvoid(c, names)
    requires KeysAvoid(d, names) && KeysAvoid(e, names) && KeysAvoid(f, names)
    ensures KeysAvoid(a + b + c + d + e + f, names)
  {
    KeysAvoidAppend(a, b, names);
    KeysAvoidAppend(a + b, c, names);
    KeysAvoidAppend(a + b + c, d, names);
    KeysAvoidAppend(a + b + c + d, e, names);
    KeysAvoidAppend(a + b + c + d + e, f, names);
  }

  lemma {:induction false} KeysAvoidAll(table: seq<(string, CityCoordinates)>, names: set<string>)
    requires KeysAvoid(table, names)
    ensures forall i :: 0 <= i < |table| ==> table[i].0 !in names
  {
    if table != [] {
      KeysAvoidAll(table[1..], names);
      assert forall i :: 1 <= i < |table| ==> table[i] == table[1..][i - 1];
    }
  }

  lemma NorthAmericaKeys()
    ensures KeysAvoid(NorthAmerica, {"constructor", "__proto__", ""})
  {
  }

  lemma EuropeKeys()
    ensures KeysAvoid(Europe, {"constructor", "__proto__", ""})
  {
  }

  lemma AsiaKeys()
    ensures KeysAvoid(Asia, {"constructor", "__proto__", ""})
  {
  }

  lemma OceaniaKeys()
    ensures KeysAvoid(Oceania, {"constructor", "__proto__", ""})
  {
  }

  lemma SouthAmericaKeys()
    ensures KeysAvoid(SouthAmerica, {"constructor", "__proto__", ""})
  {
  }

  lemma AfricaKeys()
    ensures KeysAvoid(Africa, {"constructor", "__proto__", ""})
  {
  }

  /** No key of the table is an inherited name or empty. */
  lemma TableKeys()
    ensures KeysAvoid(CityDatabase, {"constructor", "__proto__", ""})
  {
    NorthAmericaKeys();
    EuropeKeys();
    AsiaKeys();
    OceaniaKeys();
    SouthAmericaKeys();
    AfricaKeys();
    KeysAvoidRegions(NorthAmerica, Europe, Asia, Oceania, SouthAmerica, Africa, {"constructor", "__proto__", ""});
  }

  function AsLookup(r: Option<CityCoordinates>): Option<Lookup> {
    if r.Some? then Some(Entry(r.value)) else None
  }

  /** `searchCity` as written: the exact-match test reads through the prototype chain,
      so an inherited name is "found" and returned although it is no city; every other
      query gets what the search over the table's own entries gets. */
  function SearchCityAsWritten(cityName: string): (r: Option<Lookup>)
    ensures Normalize(cityName) in InheritedNames ==> r == Some(Inherited(Normalize(cityName)))
    ensures Normalize(cityName) !in InheritedNames ==> r == AsLookup(SearchCity(cityName))
  {
    var normalizedSearch := Normalize(cityName);
    TableKeys();
    KeysAvoidAll(CityDatabase, {"constructor", "__proto__", ""});
    var own := LookupKey(CityDatabase, normalizedSearch);
    if own.Some? then Some(Entry(own.value))
    else if normalizedSearch in InheritedNames then Some(Inherited(normalizedSearch))
    else AsLookup(FirstPartialMatch(CityDatabase, normalizedSearch))
  }

  /** "Constructor" and "__proto__" return a value that is not a city: its `latitude`
      is undefined for the caller that reads it. */
  lemma InheritedNameIsNotACity()
    ensures SearchCityAsWritten("Constructor") == Some(Inherited("constructor"))
    ensures SearchCityAsWritten("__proto__") == Some(Inherited("__proto__"))
  {
    ConstructorNormalizes();
    ProtoNormalizes();
  }

  lemma ConstructorNormalizes()
    ensures Normalize("Constructor") == "constructor"
  {
    assert Lower("Constructor") == "constructor";
    TrimUntouched("constructor");
  }

  lemma ProtoNormalizes()
    ensures Normalize("__proto__") == "__proto__"
  {
    assert Lower("__proto__") == "__proto__";
    TrimUntouched("__proto__");
  }

  /** The search with an empty (or all-blank) query rejected up front, as the
      integration test's expectation of null for "" asks. */
  function SearchCityNonEmpty(cityName: string): (r: Option<CityCoordinates>)
    ensures Normalize(cityName) == "" ==> r.None?
    ensures Normalize(cityName) != "" ==> r == SearchCity(cityName)
  {
    if Normalize(cityName) == "" then None else SearchCity(cityName)
  }

  /** With the empty query rejected, any city found shares a non-empty substring relation with the query. */
  lemma SearchCityNonEmptyFound(cityName: string)
    ensures var q := Normalize(cityName);
      SearchCityNonEmpty(cityName).Some? ==>
        q != [] && exists i :: 0 <= i < |CityDatabase| && CityDatabase[i].1 == SearchCityNonEmpty(cityName).value
                                 && (CityDatabase[i].0 == q || PartialMatch(CityDatabase[i].0, q))
  {
    var q := Normalize(cityName);
    if SearchCityNonEmpty(cityName).Some? && LookupKey(CityDatabase, q).Some? {
      var i :| 0 <= i < |CityDatabase| && CityDatabase[i] == (q, LookupKey(CityDatabase, q).value);
      assert CityDatabase[i].0 == q;
    }
  }
}

=== FILE: common.dfy ===
/** Option and Result: the "value or nothing" and "value or error" shapes the
    TypeScript (`T | null`) and Kotlin (`T?`, thrown exceptions) sources use. */
module Wrappers {
  datatype Option<+T> = None | Some(value: T) {
    function GetOr(default: T): T {
      match this
      case Some(v) => v
      case None => default
    }
  }

  datatype Result<+T, +E> = Ok(value: T) | Err(error: E)
}

/** `slice(0, n)` and the zero-or-one entry an optional push adds. */
module Sequences {
  import opened Wrappers

  function OptionSeq<T>(o: Option<T>): (s: seq<T>)
    ensures |s| <= 1
    ensures o.Some? ==> s == [o.value]
    ensures o.None? ==> s == []
  {
    if o.Some? then [o.value] else []
  }

  /** The first `n` elements, as `slice(0, n)` gives them. */
  function Take<T>(s: seq<T>, n: nat): (r: seq<T>)
    ensures |r| == if |s| < n then |s| else n
    ensures r == s[..|r|]
  {
    if |s| <= n then s else s[..n]
  }

  /** The cut keeps only elements of the list. */
  lemma TakeSubset<T>(s: seq<T>, n: nat)
    ensures forall y :: y in Take(s, n) ==> y in s
  {
    forall y | y in Take(s, n) ensures y in s {
      var r := Take(s, n);
      var i :| 0 <= i < |r| && r[i] == y;
      assert s[i] == y;
    }
  }

  /** A cut no longer than the first part never reaches the second. */
  lemma TakeWithinFirst<T>(a: seq<T>, b: seq<T>, n: nat)
    requires n <= |a|
    ensures Take(a + b, n) == Take(a, n)
  {
    assert (a + b)[..n] == a[..n];
  }

  /** The cut keeps a prefix shorter than both the cut and the list. */
  lemma TakeKeepsPrefix<T>(s: seq<T>, p: seq<T>, n: nat)
    requires |p| < n && |p| < |s| && s[..|p|] == p
    ensures |p| < |Take(s, n)| && Take(s, n)[..|p|] == p
  {
    assert Take(s, n)[..|p|] == s[..|p|];
  }

  /** An element kept by the cut that is not in the first part came from the second,
      and the first part was shorter than the cut. */
  lemma TakeAppendMember<T>(a: seq<T>, b: seq<T>, n: nat, x: T)
    requires x in Take(a + b, n) && x !in a
    ensures x in b && |a| < n
  {
    var r := Take(a + b, n);
    var i :| 0 <= i < |r| && r[i] == x;
    assert r[i] == (a + b)[i];
    assert i >= |a|;
    assert (a + b)[i] == b[i - |a|];
  }
}

module Numeric {
  /** JavaScript's `Math.round` over exact reals: the nearest integer, halves
      rounded up (towards +infinity), which is `floor(x + 0.5)`. */
  function Round(x: real): (n: int)
    ensures n as real - 0.5 <= x < n as real + 0.5
  {
    (x + 0.5).Floor
  }

  /** The integer within half a unit (closed below, open above) is the rounding. */
  lemma RoundUnique(x: real, n: int)
    requires n as real - 0.5 <= x < n as real + 0.5
    ensures Round(x) == n
  {
  }

  lemma RoundOfInt(n: int)
    ensures Round(n as real) == n
  {
    RoundUnique(n as real, n);
  }

  /** Shifting by a whole number shifts the rounding by the same amount. */
  lemma RoundShift(x: real, k: int)
    ensures Round(x + k as real) == Round(x) + k
  {
    var n := Round(x);
    RoundUnique(x + k as real, n + k);
  }

  function Max(a: int, b: int): int { if a >= b then a else b }
}

/** The string operations the sources use: `toLowerCase`/`lowercase`, `trim`,
    `includes`, `indexOf`, and decimal rendering of a non-negative integer.
    Case mapping and whitespace are the ASCII ones. */
module Text {
  predicate IsUpper(c: char) { 'A' <= c <= 'Z' }

  function LowerChar(c: char): (d: char)
    ensures !IsUpper(d)
    ensures IsUpper(c) ==> d as int == c as int + 32
    ensures !IsUpper(c) ==> d == c
  {
    if IsUpper(c) then (c as int + 32) as char else c
  }

  function Lower(s: string): (r: string)
    ensures |r| == |s|
    ensures forall i :: 0 <= i < |s| ==> r[i] == LowerChar(s[i])
  {
    seq(|s|, i requires 0 <= i < |s| => LowerChar(s[i]))
  }

  lemma LowerIdempotent(s: string)
    ensures Lower(Lower(s)) == Lower(s)
  {
  }

  predicate IsSpace(c: char) {
    c == ' ' || c == '\t' || c == '\n' || c == '\r' || c == '\U{000B}' || c == '\U{000C}'
  }

  /** Every character of `s` outside `s[i..j]` is white space. */
  predicate SpaceOutside(s: string, i: int, j: int) {
    forall k :: 0 <= k < |s| && !(i <= k < j) ==> IsSpace(s[k])
  }

  function TrimStart(s: string): (r: string)
    ensures |r| <= |s| && r == s[|s| - |r|..]
    ensures r == [] || !IsSpace(r[0])
    ensures forall k :: 0 <= k < |s| - |r| ==> IsSpace(s[k])
  {
    if s != [] && IsSpace(s[0]) then TrimStart(s[1..]) else s
  }

  function TrimEnd(s: string): (r: string)
    ensures |r| <= |s| && r == s[..|r|]
    ensures r == [] || !IsSpace(r[|r| - 1])
    ensures forall k :: |r| <= k < |s| ==> IsSpace(s[k])
  {
    if s != [] && IsSpace(s[|s| - 1]) then TrimEnd(s[..|s| - 1]) else s
  }

  /** A prefix `r` of a suffix `start` of `s`, with white space before `start` and after
      `r` inside `start`, is the slice `s[i..i + |r|]` with only white space outside. */
  lemma TrimSlice(s: string, start: string, r: string)
    requires |start| <= |s| && start == s[|s| - |start|..]
    requires forall k :: 0 <= k < |s| - |start| ==> IsSpace(s[k])
    requires |r| <= |start| && r == start[..|r|]
    requires forall k :: |r| <= k < |start| ==> IsSpace(start[k])
    ensures r == s[|s| - |start|..|s| - |start| + |r|]
    ensures SpaceOutside(s, |s| - |start|, |s| - |start| + |r|)
  {
    var i := |s| - |start|;
    forall k | 0 <= k < |s| && !(i <= k < i + |r|) ensures IsSpace(s[k]) {
      if k >= i + |r| {
        assert start[k - i] == s[k];
      }
    }
  }

  /** `String.prototype.trim`: the slice of `s` left once the white space at both ends
      is removed. */
  function Trim(s: string): (r: string)
    ensures r == [] || (!IsSpace(r[0]) && !IsSpace(r[|r| - 1]))
    ensures exists i, j :: 0 <= i <= j <= |s| && r == s[i..j] && SpaceOutside(s, i, j)
    ensures forall c :: c in r ==> c in s
  {
    var start := TrimStart(s);
    var r := TrimEnd(start);
    TrimSlice(s, start, r);
    var i := |s| - |start|;
    assert r == s[i..i + |r|];
    r
  }

  /** A string without white space at either end is its own trimming. */
  lemma TrimUntouched(s: string)
    requires s == [] || (!IsSpace(s[0]) && !IsSpace(s[|s| - 1]))
    ensures Trim(s) == s
  {
  }

  lemma LowerKeepsSpace(c: char)
    ensures IsSpace(LowerChar(c)) <==> IsSpace(c)
  {
  }

  lemma {:induction false} TrimStartLower(s: string)
    ensures TrimStart(Lower(s)) == Lower(TrimStart(s))
  {
    if s != [] {
      var t := Lower(s);
      LowerKeepsSpace(s[0]);
      assert t[0] == LowerChar(s[0]);
      assert t[1..] == Lower(s[1..]);
      if IsSpace(s[0]) {
        assert TrimStart(t) == TrimStart(t[1..]);
        TrimStartLower(s[1..]);
      } else {
        assert TrimStart(t) == t;
      }
    }
  }

  lemma {:induction false} TrimEndLower(s: string)
    ensures TrimEnd(Lower(s)) == Lower(TrimEnd(s))
  {
    if s != [] {
      var t := Lower(s);
      LowerKeepsSpace(s[|s| - 1]);
      assert t[|s| - 1] == LowerChar(s[|s| - 1]);
      assert t[..|s| - 1] == Lower(s[..|s| - 1]);
      if IsSpace(s[|s| - 1]) {
        assert TrimEnd(t) == TrimEnd(t[..|s| - 1]);
        TrimEndLower(s[..|s| - 1]);
      } else {
        assert TrimEnd(t) == t;
      }
    }
  }

  /** Lower-casing never touches white space, so the two steps commute. */
  lemma TrimLower(s: string)
    ensures Trim(Lower(s)) == Lower(Trim(s))
  {
    TrimStartLower(s);
    TrimEndLower(TrimStart(s));
  }

  predicate MatchesAt(s: string, sub: string, i: nat, j: nat)
    requires i + |sub| <= |s|
    decreases |sub| - j
  {
    j >= |sub| || (s[i + j] == sub[j] && MatchesAt(s, sub, i, j + 1))
  }

  predicate ContainsFrom(s: string, sub: string, i: nat)
    decreases |s| - i
  {
    i + |sub| <= |s| && (MatchesAt(s, sub, i, 0) || ContainsFrom(s, sub, i + 1))
  }

  /** `s.includes(sub)`: sub occurs somewhere in s (the empty string occurs in every string). */
  predicate Contains(s: string, sub: string) { ContainsFrom(s, sub, 0) }

  lemma {:induction false} MatchesAtSlice(s: string, sub: string, i: nat, j: nat)
    requires i + |sub| <= |s| && j <= |sub|
    ensures MatchesAt(s, sub, i, j) <==> s[i + j..i + |sub|] == sub[j..]
    decreases |sub| - j
  {
    if j < |sub| {
      MatchesAtSlice(s, sub, i, j + 1);
      assert s[i + j..i + |sub|] == [s[i + j]] + s[i + j + 1..i + |sub|];
      assert sub[j..] == [sub[j]] + sub[j + 1..];
    }
  }

  /** sub occurs in s starting at position k. */
  predicate OccursAt(s: string, sub: string, k: int) {
    0 <= k && k + |sub| <= |s| && s[k..k + |sub|] == sub
  }

  lemma {:induction false} ContainsFromWitness(s: string, sub: string, i: nat)
    ensures ContainsFrom(s, sub, i) <==> exists k :: i <= k && OccursAt(s, sub, k)
    decreases |s| - i
  {
    if i + |sub| <= |s| {
      MatchesAtSlice(s, sub, i, 0);
      ContainsFromWitness(s, sub, i + 1);
      assert sub[0..] == sub;
      if MatchesAt(s, sub, i, 0) { assert OccursAt(s, sub, i); }
      if exists k :: i <= k && OccursAt(s, sub, k) {
        var k :| i <= k && OccursAt(s, sub, k);
        if k != i { assert i + 1 <= k; }
      }
    }
  }

  /** `Contains` is exactly "some slice of s equals sub". */
  lemma ContainsIff(s: string, sub: string)
    ensures Contains(s, sub) <==> exists k :: OccursAt(s, sub, k)
  {
    ContainsFromWitness(s, sub, 0);
  }

  /** A word holding a character the text lacks does not occur in it. */
  lemma MissingCharNotContained(s: string, sub: string, c: char)
    requires c in sub && c !in s
    ensures !Contains(s, sub)
  {
    ContainsIff(s, sub);
  }

  /** `s.indexOf(x)` over a list: the first position holding x, or -1. */
  function IndexOf<T(==)>(s: seq<T>, x: T): (i: int)
    ensures -1 <= i < |s|
    ensures i == -1 <==> x !in s
    ensures 0 <= i ==> s[i] == x && forall j :: 0 <= j < i ==> s[j] != x
  {
    if s == [] then -1
    else if s[0] == x then 0
    else var k := IndexOf(s[1..], x); if k == -1 then -1 else k + 1
  }

  function DigitChar(d: int): (c: char)
    requires 0 <= d < 10
    ensures '0' <= c <= '9' && c as int - '0' as int == d
  {
    "0123456789"[d]
  }

  /** The number a string of decimal digits denotes, most significant digit first. */
  function DigitsValue(s: string): nat
    requires forall i :: 0 <= i < |s| ==> '0' <= s[i] <= '9'
  {
    if s == [] then 0 else DigitsValue(s[..|s| - 1]) * 10 + (s[|s| - 1] as int - '0' as int)
  }

  /** Decimal rendering of a natural number, as `${n}` does for a whole number: digits
      only, denoting n, with no leading zero. */
  function NatToString(n: nat): (r: string)
    ensures |r| >= 1
    ensures forall i :: 0 <= i < |r| ==> '0' <= r[i] <= '9'
    ensures DigitsValue(r) == n
    ensures r[0] == '0' ==> r == "0"
  {
    if n < 10 then [DigitChar(n)]
    else
      var prefix := NatToString(n / 10);
      var r := prefix + [DigitChar(n % 10)];
      assert r[..|r| - 1] == prefix;
      r
  }
}

=== FILE: current_weather_card.dfy ===
/** The current-weather card (src/components/current-weather-card.tsx): the displayed
    temperature and wind in the preferred units, and the favourite toggle. */
module CurrentWeatherCard {
  import opened Wrappers
  import opened Numeric
  import opened UnitConversions
  import opened UserPreferences

  /** The displayed temperature: the Celsius reading converted to the preferred unit. */
  function DisplayTemperature(temperatureCelsius: real, unit: TemperatureUnit): (shown: int)
    ensures shown as real - 0.5 <= TemperatureExact(temperatureCelsius, Celsius, unit) < shown as real + 0.5
  {
    ConvertTemperature(temperatureCelsius, Celsius, unit)
  }

  /** The displayed wind: metres per second times 3.6, then converted from km/h. The
      detour through km/h is exact: the card shows what a direct conversion from metres
      per second shows, and with km/h selected that is `round(mps * 3.6)`. */
  function DisplayWindSpeed(windSpeedMps: real, unit: WindSpeedUnit): (shown: int)
    ensures shown == ConvertWindSpeed(windSpeedMps, Ms, unit)
    ensures unit == Kmh ==> shown == Round(windSpeedMps * 3.6)
    ensures unit == Ms ==> shown == Round(windSpeedMps)
  {
    WindThroughKmhIsExact(windSpeedMps * 3.6, Kmh, unit);
    WindThroughKmhIsExact(windSpeedMps, Ms, unit);
    ConvertWindSpeed(windSpeedMps * 3.6, Kmh, unit)
  }

  /** A wind the back end received in km/h and sent as km/h / 3.6 is displayed in km/h
      as the rounded original. */
  lemma ReportedKmhShownUnchanged(kmh: real)
    ensures DisplayWindSpeed(kmh / 3.6, Kmh) == Round(kmh)
  {
    assert kmh / 3.6 * 3.6 == kmh;
  }

  /** The favourites after `handleToggleFavorite` for `city`: a favourite city loses the
      entries carrying the id of its first case-insensitive match; any other city is added. */
  function Toggled(favorites: seq<Favorite>, city: string, nowMillis: nat, addedAt: string): (r: seq<Favorite>)
    ensures !IsFavoriteIn(favorites, city) ==> r == favorites + [NewFavorite(city, None, nowMillis, addedAt)]
    ensures IsFavoriteIn(favorites, city) ==> r == WithoutId(favorites, FindByCity(favorites, city).value.id)
    ensures IsFavoriteIn(favorites, city) ==>
      (forall f :: f in r ==> f in favorites) && FindByCity(favorites, city).value !in r
  {
    if IsFavoriteIn(favorites, city) then
      match FindByCity(favorites, city)
      case Some(fav) => WithoutId(favorites, fav.id)
      case None => favorites
    else WithFavorite(favorites, NewFavorite(city, None, nowMillis, addedAt))
  }

  /** With unique cities, a toggle flips whether the city is a favourite and keeps the
      cities unique. */
  lemma ToggleFlips(favorites: seq<Favorite>, city: string, nowMillis: nat, addedAt: string)
    requires UniqueCities(favorites)
    ensures IsFavoriteIn(Toggled(favorites, city, nowMillis, addedAt), city) <==> !IsFavoriteIn(favorites, city)
    ensures UniqueCities(Toggled(favorites, city, nowMillis, addedAt))
  {
    var r := Toggled(favorites, city, nowMillis, addedAt);
    if IsFavoriteIn(favorites, city) {
      var fav := FindByCity(favorites, city).value;
      var i :| 0 <= i < |favorites| && favorites[i] == fav && SameCity(fav.city, city);
      WithoutIdKeepsInvariant(favorites, fav.id);
      forall k | 0 <= k < |r| ensures !SameCity(r[k].city, city) {
        assert r[k] in favorites && r[k].id != fav.id;
        var m :| 0 <= m < |favorites| && favorites[m] == r[k];
        assert m != i;
      }
    } else {
      WithFavoriteKeepsInvariant(favorites, NewFavorite(city, None, nowMillis, addedAt));
    }
  }

  /** Toggling a non-favourite twice restores the list, provided the new entry's id
      (`${city}-${Date.now()}`) is not already in use. */
  lemma ToggleTwiceRestores(favorites: seq<Favorite>, city: string, nowMillis: nat, addedAt: string,
                            laterMillis: nat, laterAddedAt: string)
    requires !IsFavoriteIn(favorites, city)
    requires forall f :: f in favorites ==> f.id != NewFavorite(city, None, nowMillis, addedAt).id
    ensures Toggled(Toggled(favorites, city, nowMillis, addedAt), city, laterMillis, laterAddedAt) == favorites
  {
    var fav := NewFavorite(city, None, nowMillis, addedAt);
    var once := Toggled(favorites, city, nowMillis, addedAt);
    assert once == favorites + [fav];
    assert SameCity(once[|favorites|].city, city);
    var found := FindByCity(once, city);
    var i :| 0 <= i < |once| && once[i] == found.value && SameCity(found.value.city, city)
      && forall j :: 0 <= j < i ==> !SameCity(once[j].city, city);
    assert i == |favorites|;
    assert found.value == fav;
    WithoutIdAppend(favorites, [fav], fav.id);
    WithoutUnknownId(favorites, fav.id);
    assert WithoutId([fav], fav.id) == [];
    assert favorites + [] == favorites;
  }

  /** `handleToggleFavorite`, on the shared store. */
  method HandleToggleFavorite(store: PreferencesStore, city: string, nowMillis: nat, addedAt: string)
    modifies store
    ensures store.favorites == Toggled(old(store.favorites), city, nowMillis, addedAt)
    ensures store.preferences == old(store.preferences)
    ensures old(store.Valid()) ==> store.Valid() && (store.IsFavorite(city) <==> !old(store.IsFavorite(city)))
  {
    ghost var before := store.favorites;
    if old(store.Valid()) {
      ToggleFlips(before, city, nowMillis, addedAt);
    }
    var favorite := store.IsFavorite(city);
    if favorite {
      var favToRemove := FindByCity(store.favorites, city);
      if favToRemove.Some? {
        store.RemoveFavorite(favToRemove.value.id);
      }
    } else {
      store.AddFavorite(city, None, nowMillis, addedAt);
    }
  }
}

=== FILE: feels_like.dfy ===
/** The "feels like" caption (src/components/feels-like-weather.tsx): one ladder of
    guarded early returns choosing a humorous description from temperature,
    humidity, wind speed and case-insensitive words of the condition. */
module FeelsLike {
  import opened Text

  /** The descriptions the ladder can return, in source order. */
  datatype Feeling =
    | Sauna | PizzaOven | HotSoup | Hairdryer
    | PerfectThermostat | PerfectDream
    | FrozenNinjas | FreezersFreezer | SnowGlobe | AggressiveRefrigerator
    | CarWash | SkyCrying | CloudMist | SkyMeltdown | WindTunnel | MoodRing
    | WarmWetTowel | LukewarmHug | SunshineHighFive | WeatherHappening
  {
    function Title(): string {
      match this
      case Sauna => "Like a sauna wearing a wool sweater"
      case PizzaOven => "Like standing inside a pizza oven"
      case HotSoup => "Like swimming through hot soup"
      case Hairdryer => "Like a hairdryer on full blast"
      case PerfectThermostat => "Like nature's perfect thermostat"
      case PerfectDream => "Like being inside a perfect dream"
      case FrozenNinjas => "Like being slapped by frozen ninjas"
      case FreezersFreezer => "Like living in a freezer's freezer"
      case SnowGlobe => "Like being inside a snow globe"
      case AggressiveRefrigerator => "Like a very aggressive refrigerator"
      case CarWash => "Like being in a car wash without the car"
      case SkyCrying => "Like the sky is crying... aggressively"
      case CloudMist => "Like walking through a cloud's mist"
      case SkyMeltdown => "Like the sky is having a meltdown"
      case WindTunnel => "Like being in nature's wind tunnel"
      case MoodRing => "Like living inside a mood ring"
      case WarmWetTowel => "Like wearing a warm wet towel"
      case LukewarmHug => "Like a lukewarm hug from nature"
      case SunshineHighFive => "Like sunshine gave you a high-five"
      case WeatherHappening => "Like... weather is happening"
    }
  }

  /** The fields of the current weather the caption reads. */
  datatype Weather = Weather(condition: string, temperature: real, humidity: real, windSpeed: real)

  predicate Says(condition: string, word: string) { Contains(Lower(condition), word) }

  /** `getFeelsLikeDescription`, with `temperature` read on the scale the thresholds assume.
      The heat, pleasant and cold captions each belong to exactly one temperature band. */
  function Describe(w: Weather): (f: Feeling)
    ensures f in {Sauna, PizzaOven, HotSoup, Hairdryer} <==> w.temperature > 85.0
    ensures f in {PerfectThermostat, PerfectDream} <==> 65.0 <= w.temperature <= 75.0
    ensures f in {FrozenNinjas, FreezersFreezer, SnowGlobe, AggressiveRefrigerator} <==> w.temperature < 40.0
  {
    var temp := w.temperature;
    var c := w.condition;
    if temp > 95.0 && w.humidity > 70.0 then Sauna
    else if temp > 95.0 then PizzaOven
    else if temp > 85.0 && w.humidity > 70.0 then HotSoup
    else if temp > 85.0 then Hairdryer
    else if temp >= 65.0 && temp <= 75.0 && Says(c, "clear") then PerfectThermostat
    else if temp >= 65.0 && temp <= 75.0 then PerfectDream
    else if temp < 20.0 && w.windSpeed > 15.0 then FrozenNinjas
    else if temp < 20.0 then FreezersFreezer
    else if temp < 32.0 && Says(c, "snow") then SnowGlobe
    else if temp < 40.0 then AggressiveRefrigerator
    else if Says(c, "rain") && w.windSpeed > 15.0 then CarWash
    else if Says(c, "rain") then SkyCrying
    else if Says(c, "drizzle") then CloudMist
    else if Says(c, "thunder") || Says(c, "storm") then SkyMeltdown
    else if w.windSpeed > 25.0 then WindTunnel
    else if Says(c, "cloud") || Says(c, "overcast") then MoodRing
    else if w.humidity > 80.0 && temp > 70.0 then WarmWetTowel
    else if temp >= 50.0 && temp < 65.0 then LukewarmHug
    else if Says(c, "clear") || Says(c, "sun") then SunshineHighFive
    else WeatherHappening
  }

  /** Above 85 degrees the humidity alone decides, whatever the sky or wind. */
  lemma HeatBands(w: Weather)
    ensures w.temperature > 95.0 ==> Describe(w) == (if w.humidity > 70.0 then Sauna else PizzaOven)
    ensures 85.0 < w.temperature <= 95.0 ==> Describe(w) == (if w.humidity > 70.0 then HotSoup else Hairdryer)
  {
  }

  /** Between 65 and 75 only "clear" matters, whatever the wind or rain. */
  lemma PleasantBand(w: Weather)
    ensures 65.0 <= w.temperature <= 75.0 ==>
      Describe(w) == (if Says(w.condition, "clear") then PerfectThermostat else PerfectDream)
  {
  }

  /** Below 20 the wind decides before any condition word is read; the snow globe needs
      20 <= t < 32; every other temperature below 40 is the refrigerator. */
  lemma ColdBands(w: Weather)
    ensures w.temperature < 20.0 ==> Describe(w) == (if w.windSpeed > 15.0 then FrozenNinjas else FreezersFreezer)
    ensures Describe(w) == SnowGlobe <==> 20.0 <= w.temperature < 32.0 && Says(w.condition, "snow")
    ensures Describe(w) == AggressiveRefrigerator <==>
      20.0 <= w.temperature < 40.0 && !(w.temperature < 32.0 && Says(w.condition, "snow"))
  {
  }

  /** The rain, drizzle, storm, wind, cloud and humidity descriptions are reachable only
      between 40 and 85 degrees, outside [65, 75]. */
  lemma WeatherWordsOnlyInTheMiddle(w: Weather)
    requires Describe(w) in {CarWash, SkyCrying, CloudMist, SkyMeltdown, WindTunnel, MoodRing, WarmWetTowel}
    ensures 40.0 <= w.temperature <= 85.0 && !(65.0 <= w.temperature <= 75.0)
  {
  }

  /** Upper and lower case in the condition make no difference. */
  lemma DescribeIgnoresCase(w: Weather)
    ensures Describe(w.(condition := Lower(w.condition))) == Describe(w)
  {
    LowerIdempotent(w.condition);
  }

  /** As written, the caption reads the stored temperature, which is in Celsius
      (the card beside it converts it from Celsius for display): a 22 °C clear day,
      72 °F, is captioned as the refrigerator, and no Celsius temperature below 40 °C
      (104 °F) gets a warm description. */
  lemma CelsiusInputMisread(w: Weather)
    ensures 20.0 <= w.temperature < 32.0 && !Says(w.condition, "snow") ==> Describe(w) == AggressiveRefrigerator
    ensures w.temperature < 40.0 ==> Describe(w) in {FrozenNinjas, FreezersFreezer, SnowGlobe, AggressiveRefrigerator}
  {
  }

  /** The Fahrenheit reading of a Celsius temperature. */
  function CelsiusToFahrenheit(celsius: real): (f: real)
    ensures (f - 32.0) * 5.0 / 9.0 == celsius
  {
    celsius * 9.0 / 5.0 + 32.0
  }

  /** The caption with the Celsius input converted to the Fahrenheit scale the
      thresholds are written in. */
  function DescribeCelsius(w: Weather): Feeling {
    Describe(w.(temperature := CelsiusToFahrenheit(w.temperature)))
  }

  /** Corrected: 55/3 °C to 215/9 °C (65 °F to 75 °F, about 18.3 °C to 23.9 °C) is the
      pleasant band, so a 22 °C clear day is nature's perfect thermostat; the refrigerator
      needs less than 40 °F (40/9 °C); above 35 °C (95 °F) it is the heat captions. */
  lemma DescribeCelsiusBands(w: Weather)
    ensures 55.0 / 3.0 <= w.temperature <= 215.0 / 9.0 ==>
      DescribeCelsius(w) == (if Says(w.condition, "clear") then PerfectThermostat else PerfectDream)
    ensures DescribeCelsius(w) == AggressiveRefrigerator ==> w.temperature < 40.0 / 9.0
    ensures w.temperature > 35.0 ==> DescribeCelsius(w) in {Sauna, PizzaOven}
  {
    var f := CelsiusToFahrenheit(w.temperature);
    PleasantBand(w.(temperature := f));
    ColdBands(w.(temperature := f));
    HeatBands(w.(temperature := f));
  }
}

=== FILE: location_model.dfy ===
/** The location record and its map form (src/main/kotlin/model/Location.kt). */
module LocationModel {
  import opened Wrappers
  import opened BackendTypes

  /** A named point; `timestamp` is epoch milliseconds. */
  datatype Location = Location(latitude: real, longitude: real, name: string, timestamp: int)

  /** The constructor with the timestamp left out: the current time. */
  function NewLocation(latitude: real, longitude: real, name: string, nowMillis: int): Location {
    Location(latitude, longitude, name, nowMillis)
  }

  const LocationKeys: set<string> := {"latitude", "longitude", "name", "timestamp"}

  /** `toMap`. */
  function ToMap(l: Location): (m: ValueMap)
    ensures m.Keys == LocationKeys
  {
    map["latitude" := Decimal(l.latitude), "longitude" := Decimal(l.longitude),
        "name" := Text(l.name), "timestamp" := Whole(l.timestamp)]
  }

  /** Why `fromMap` throws: a hard cast met a value of another type. */
  datatype CastFailure = CastFailure(key: string)

  /** `fromMap`: the coordinates must be numbers and the name a string; a timestamp that
      is absent or not a number is the current time. */
  function FromMap(m: ValueMap, nowMillis: int): (r: Result<Location, CastFailure>)
    ensures r.Ok? <==> IsNumber(Get(m, "latitude")) && IsNumber(Get(m, "longitude")) && Get(m, "name").Text?
    ensures r.Ok? ==>
      r.value.latitude == ToDouble(Get(m, "latitude")) && r.value.longitude == ToDouble(Get(m, "longitude"))
      && r.value.name == Get(m, "name").s
    ensures r.Ok? ==>
      r.value.timestamp == (if IsNumber(Get(m, "timestamp")) then ToLong(Get(m, "timestamp")) else nowMillis)
  {
    var latitude := Get(m, "latitude");
    var longitude := Get(m, "longitude");
    var name := Get(m, "name");
    var timestamp := Get(m, "timestamp");
    if !IsNumber(latitude) then Err(CastFailure("latitude"))
    else if !IsNumber(longitude) then Err(CastFailure("longitude"))
    else if !name.Text? then Err(CastFailure("name"))
    else Ok(Location(ToDouble(latitude), ToDouble(longitude), name.s,
                     if IsNumber(timestamp) then ToLong(timestamp) else nowMillis))
  }

  /** Every location survives the trip through its map form, whatever the clock says. */
  lemma RoundTrip(l: Location, nowMillis: int)
    ensures FromMap(ToMap(l), nowMillis) == Ok(l)
  {
  }

  /** A map without a timestamp reads with the current time, as the constructor default
      does; any number is accepted for the coordinates. */
  lemma MissingTimestampIsNow(latitude: Value, longitude: Value, name: string, nowMillis: int)
    requires IsNumber(latitude) && IsNumber(longitude)
    ensures FromMap(map["latitude" := latitude, "longitude" := longitude, "name" := Text(name)], nowMillis)
      == Ok(NewLocation(ToDouble(latitude), ToDouble(longitude), name, nowMillis))
  {
    var m := map["latitude" := latitude, "longitude" := longitude, "name" := Text(name)];
    assert "timestamp" !in m;
  }

  /** Any number is accepted as the timestamp and read through `toLong`, so a fractional
      one is truncated; a timestamp that is no number reads as the current time. */
  lemma TimestampReadings(nowMillis: int)
    ensures var m := map["latitude" := Whole(51), "longitude" := Decimal(0.5), "name" := Text("London"),
                         "timestamp" := Decimal(5.7)];
      FromMap(m, nowMillis) == Ok(Location(51.0, 0.5, "London", 5))
    ensures var m := map["latitude" := Whole(51), "longitude" := Decimal(0.5), "name" := Text("London"),
                         "timestamp" := Text("t")];
      FromMap(m, nowMillis) == Ok(Location(51.0, 0.5, "London", nowMillis))
  {
  }
}

=== FILE: location_service.dfy ===
/** The saved-locations store (src/main/kotlin/service/DatabaseLocationService.kt) over an
    in-memory `Locations` table: each user has at most one row flagged as the last
    location, and the other rows are the saved locations. */
module LocationService {
  import opened Wrappers
  import opened LocationModel

  datatype LocationRow = LocationRow(userEmail: string, location: Location, isLastLocation: bool)

  /** No user has two flagged rows. */
  predicate AtMostOneFlagged(rows: seq<LocationRow>) {
    forall i, j :: 0 <= i < j < |rows| && rows[i].isLastLocation && rows[j].isLastLocation ==>
      rows[i].userEmail != rows[j].userEmail
  }

  /** The rows of one user, in table order. */
  function UserRows(rows: seq<LocationRow>, userEmail: string): (r: seq<LocationRow>)
    ensures forall x :: x in r <==> x in rows && x.userEmail == userEmail
  {
    if rows == [] then []
    else (if rows[0].userEmail == userEmail then [rows[0]] else []) + UserRows(rows[1..], userEmail)
  }

  lemma {:induction false} UserRowsAppend(a: seq<LocationRow>, b: seq<LocationRow>, userEmail: string)
    ensures UserRows(a + b, userEmail) == UserRows(a, userEmail) + UserRows(b, userEmail)
  {
    if a == [] {
      assert a + b == b;
    } else {
      assert (a + b)[1..] == a[1..] + b;
      UserRowsAppend(a[1..], b, userEmail);
    }
  }

  /** The `update ... set isLastLocation = false` of one user's rows. */
  function Unflag(rows: seq<LocationRow>, userEmail: string): (r: seq<LocationRow>)
    ensures |r| == |rows|
    ensures forall i :: 0 <= i < |r| ==>
      r[i] == if rows[i].userEmail == userEmail then rows[i].(isLastLocation := false) else rows[i]
  {
    seq(|rows|, i requires 0 <= i < |rows| =>
      if rows[i].userEmail == userEmail then rows[i].(isLastLocation := false) else rows[i])
  }

  /** Unflagging touches no other user's rows. */
  lemma {:induction false} UnflagOtherUsers(rows: seq<LocationRow>, userEmail: string, other: string)
    requires other != userEmail
    ensures UserRows(Unflag(rows, userEmail), other) == UserRows(rows, other)
  {
    if rows != [] {
      assert Unflag(rows, userEmail)[1..] == Unflag(rows[1..], userEmail);
      UnflagOtherUsers(rows[1..], userEmail, other);
    }
  }

  /** The location of the user's first flagged row. */
  function LastLocation(rows: seq<LocationRow>, userEmail: string): (r: Option<Location>)
    ensures r.None? <==> forall i :: 0 <= i < |rows| ==> !(rows[i].userEmail == userEmail && rows[i].isLastLocation)
    ensures r.Some? ==>
      exists i :: 0 <= i < |rows| && rows[i].userEmail == userEmail && rows[i].isLastLocation && rows[i].location == r.value
  {
    if rows == [] then None
    else if rows[0].userEmail == userEmail && rows[0].isLastLocation then Some(rows[0].location)
    else
      var r := LastLocation(rows[1..], userEmail);
      assert forall i :: 1 <= i < |rows| ==> rows[i] == rows[1..][i - 1];
      r
  }

  /** Some row of the user has this name, flagged or not. */
  predicate HasName(rows: seq<LocationRow>, userEmail: string, name: string) {
    exists i :: 0 <= i < |rows| && rows[i].userEmail == userEmail && rows[i].location.name == name
  }

  /** The locations of the user's unflagged rows, in table order. */
  function Unflagged(rows: seq<LocationRow>, userEmail: string): (r: seq<Location>)
    ensures forall l :: l in r <==>
      exists i :: 0 <= i < |rows| && rows[i].userEmail == userEmail && !rows[i].isLastLocation && rows[i].location == l
  {
    if rows == [] then []
    else
      var rest := Unflagged(rows[1..], userEmail);
      assert forall i :: 1 <= i < |rows| ==> rows[i] == rows[1..][i - 1];
      (if rows[0].userEmail == userEmail && !rows[0].isLastLocation then [rows[0].location] else []) + rest
  }

  /** Newest first. */
  predicate NewestFirst(s: seq<Location>) {
    forall i, j :: 0 <= i < j < |s| ==> s[i].timestamp >= s[j].timestamp
  }

  /** `l` placed before the first location that is not newer. */
  function Insert(l: Location, s: seq<Location>): (r: seq<Location>)
    ensures |r| == |s| + 1
    ensures r[0] == l || (s != [] && r[0] == s[0])
  {
    if s == [] || l.timestamp >= s[0].timestamp then [l] + s
    else [s[0]] + Insert(l, s[1..])
  }

  lemma {:induction false} InsertSorted(l: Location, s: seq<Location>)
    requires NewestFirst(s)
    ensures NewestFirst(Insert(l, s))
  {
    if s != [] && l.timestamp < s[0].timestamp {
      var rest := Insert(l, s[1..]);
      InsertSorted(l, s[1..]);
      var r := [s[0]] + rest;
      forall i, j | 0 <= i < j < |r| ensures r[i].timestamp >= r[j].timestamp {
        if i == 0 {
          assert r[j] == rest[j - 1];
          assert rest[0].timestamp <= s[0].timestamp;
        } else {
          assert r[i] == rest[i - 1] && r[j] == rest[j - 1];
        }
      }
    }
  }

  lemma {:induction false} InsertPermutes(l: Location, s: seq<Location>)
    ensures multiset(Insert(l, s)) == multiset(s) + multiset{l}
  {
    if s != [] && l.timestamp < s[0].timestamp {
      InsertPermutes(l, s[1..]);
      assert s == [s[0]] + s[1..];
    }
  }

  /** Insertion sort, newest first. */
  function SortNewestFirst(s: seq<Location>): (r: seq<Location>)
    ensures |r| == |s|
  {
    if s == [] then [] else Insert(s[0], SortNewestFirst(s[1..]))
  }

  /** The sort orders newest first and keeps every location, as `ORDER BY timestamp DESC`
      does; locations with equal timestamps may come in either order. */
  lemma {:induction false} SortNewestFirstSpec(s: seq<Location>)
    ensures NewestFirst(SortNewestFirst(s))
    ensures multiset(SortNewestFirst(s)) == multiset(s)
  {
    if s != [] {
      SortNewestFirstSpec(s[1..]);
      InsertSorted(s[0], SortNewestFirst(s[1..]));
      InsertPermutes(s[0], SortNewestFirst(s[1..]));
      assert s == [s[0]] + s[1..];
    }
  }

  class LocationsTable {
    var rows: seq<LocationRow>

    constructor()
      ensures rows == []
    {
      rows := [];
    }

    /** `saveLastLocation`: the user's rows are unflagged, then the new flagged row added. */
    method SaveLastLocation(userEmail: string, location: Location)
      modifies this
      ensures rows == Unflag(old(rows), userEmail) + [LocationRow(userEmail, location, true)]
      ensures GetLastLocation(userEmail) == Some(location)
      ensures forall i :: 0 <= i < |rows| - 1 ==> !(rows[i].userEmail == userEmail && rows[i].isLastLocation)
      ensures forall u :: u != userEmail ==> UserRows(rows, u) == UserRows(old(rows), u)
      ensures old(AtMostOneFlagged(rows)) ==> AtMostOneFlagged(rows)
    {
      var newRow := LocationRow(userEmail, location, true);
      var updated := Unflag(rows, userEmail);
      forall u | u != userEmail ensures UserRows(updated + [newRow], u) == UserRows(rows, u) {
        UserRowsAppend(updated, [newRow], u);
        UnflagOtherUsers(rows, userEmail, u);
        assert UserRows([newRow], u) == [];
      }
      LastAfterUnflag(rows, userEmail, location);
      rows := updated + [newRow];
    }

    /** `getLastLocation`: None iff the user has no flagged row. While each user has at
        most one flagged row, the answer is that row's location, so the order in which
        the query yields rows does not matter. */
    function GetLastLocation(userEmail: string): (r: Option<Location>)
      reads this
      ensures r.None? <==> forall i :: 0 <= i < |rows| ==> !(rows[i].userEmail == userEmail && rows[i].isLastLocation)
      ensures AtMostOneFlagged(rows) ==>
        forall i :: 0 <= i < |rows| && rows[i].userEmail == userEmail && rows[i].isLastLocation ==>
          r == Some(rows[i].location)
    {
      LastLocation(rows, userEmail)
    }

    /** `addToSavedLocations`: nothing when any row of the user already has the name,
        else one unflagged row appended. */
    method AddToSavedLocations(userEmail: string, location: Location)
      modifies this
      ensures HasName(old(rows), userEmail, location.name) ==> rows == old(rows)
      ensures !HasName(old(rows), userEmail, location.name) ==>
        rows == old(rows) + [LocationRow(userEmail, location, false)]
      ensures HasName(rows, userEmail, location.name)
      ensures forall u :: u != userEmail ==> UserRows(rows, u) == UserRows(old(rows), u)
      ensures GetLastLocation(userEmail) == old(GetLastLocation(userEmail))
      ensures old(AtMostOneFlagged(rows)) ==> AtMostOneFlagged(rows)
    {
      if !HasName(rows, userEmail, location.name) {
        var newRow := LocationRow(userEmail, location, false);
        forall u | u != userEmail ensures UserRows(rows + [newRow], u) == UserRows(rows, u) {
          UserRowsAppend(rows, [newRow], u);
          assert UserRows([newRow], u) == [];
          assert rows + [] == rows;
        }
        assert (rows + [newRow])[|rows|] == newRow;
        LastLocationAppendUnflagged(rows, newRow, userEmail);
        rows := rows + [newRow];
      }
    }

    /** `getSavedLocations`: the user's unflagged rows, newest first. */
    function GetSavedLocations(userEmail: string): (r: seq<Location>)
      reads this
      ensures NewestFirst(r)
      ensures multiset(r) == multiset(Unflagged(rows, userEmail))
    {
      SortNewestFirstSpec(Unflagged(rows, userEmail));
      SortNewestFirst(Unflagged(rows, userEmail))
    }

    /** `removeSavedLocation`: every row of the user with that name goes, the flagged one
        included. */
    method RemoveSavedLocation(userEmail: string, locationName: string)
      modifies this
      ensures rows == WithoutName(old(rows), userEmail, locationName)
      ensures !HasName(rows, userEmail, locationName)
      ensures forall u :: u != userEmail ==> UserRows(rows, u) == UserRows(old(rows), u)
      ensures old(AtMostOneFlagged(rows)) ==> AtMostOneFlagged(rows)
    {
      forall u | u != userEmail ensures UserRows(WithoutName(rows, userEmail, locationName), u) == UserRows(rows, u) {
        WithoutNameOtherUsers(rows, userEmail, locationName, u);
      }
      if AtMostOneFlagged(rows) {
        WithoutNameKeepsInvariant(rows, userEmail, locationName);
      }
      rows := WithoutName(rows, userEmail, locationName);
    }
  }

  /** Once the user's rows are unflagged, the appended flagged row is the user's last location. */
  lemma {:induction false} LastAfterUnflag(rows: seq<LocationRow>, userEmail: string, location: Location)
    ensures LastLocation(Unflag(rows, userEmail) + [LocationRow(userEmail, location, true)], userEmail) == Some(location)
  {
    if rows != [] {
      var u := Unflag(rows, userEmail) + [LocationRow(userEmail, location, true)];
      assert u[1..] == Unflag(rows[1..], userEmail) + [LocationRow(userEmail, location, true)];
      LastAfterUnflag(rows[1..], userEmail, location);
    }
  }

  /** An unflagged row appended leaves every user's last location as it was. */
  lemma LastLocationAppendUnflagged(rows: seq<LocationRow>, row: LocationRow, userEmail: string)
    requires !row.isLastLocation
    ensures LastLocation(rows + [row], userEmail) == LastLocation(rows, userEmail)
  {
    if rows == [] {
    } else {
      assert (rows + [row])[1..] == rows[1..] + [row];
      LastLocationAppendUnflagged(rows[1..], row, userEmail);
    }
  }

  /** The `deleteWhere` of `removeSavedLocation`. */
  function WithoutName(rows: seq<LocationRow>, userEmail: string, name: string): (r: seq<LocationRow>)
    ensures forall x :: x in r <==> x in rows && !(x.userEmail == userEmail && x.location.name == name)
  {
    if rows == [] then []
    else
      var head := if rows[0].userEmail == userEmail && rows[0].location.name == name then [] else [rows[0]];
      head + WithoutName(rows[1..], userEmail, name)
  }

  lemma {:induction false} WithoutNameOtherUsers(rows: seq<LocationRow>, userEmail: string, name: string, other: string)
    requires other != userEmail
    ensures UserRows(WithoutName(rows, userEmail, name), other) == UserRows(rows, other)
  {
    if rows != [] {
      var head: seq<LocationRow> := if rows[0].userEmail == userEmail && rows[0].location.name == name then [] else [rows[0]];
      UserRowsAppend(head, WithoutName(rows[1..], userEmail, name), other);
      WithoutNameOtherUsers(rows[1..], userEmail, name, other);
      if head == [] {
        assert UserRows(head, other) == [];
      } else {
        assert UserRows(head, other) == UserRows([rows[0]], other);
      }
      assert rows == [rows[0]] + rows[1..];
      UserRowsAppend([rows[0]], rows[1..], other);
    }
  }

  lemma {:induction false} WithoutNameKeepsInvariant(rows: seq<LocationRow>, userEmail: string, name: string)
    requires AtMostOneFlagged(rows)
    ensures AtMostOneFlagged(WithoutName(rows, userEmail, name))
  {
    if rows != [] {
      var tail := rows[1..];
      assert AtMostOneFlagged(tail) by {
        forall i, j | 0 <= i < j < |tail| && tail[i].isLastLocation && tail[j].isLastLocation
          ensures tail[i].userEmail != tail[j].userEmail
        {
          assert tail[i] == rows[i + 1] && tail[j] == rows[j + 1];
        }
      }
      WithoutNameKeepsInvariant(tail, userEmail, name);
      var rest := WithoutName(tail, userEmail, name);
      if !(rows[0].userEmail == userEmail && rows[0].location.name == name) {
        var r := [rows[0]] + rest;
        forall i, j | 0 <= i < j < |r| && r[i].isLastLocation && r[j].isLastLocation
          ensures r[i].userEmail != r[j].userEmail
        {
          if i == 0 {
            assert r[j] == rest[j - 1] && r[j] in tail;
            var k :| 0 <= k < |tail| && tail[k] == r[j];
            assert rows[k + 1] == r[j];
          } else {
            assert r[i] == rest[i - 1] && r[j] == rest[j - 1];
          }
        }
      }
    }
  }

  /** After a new last location is saved, the previous one is among the saved locations. */
  lemma PreviousLastBecomesSaved(rows: seq<LocationRow>, userEmail: string, location: Location)
    requires LastLocation(rows, userEmail).Some?
    ensures LastLocation(rows, userEmail).value in
      SortNewestFirst(Unflagged(Unflag(rows, userEmail) + [LocationRow(userEmail, location, true)], userEmail))
  {
    var previous := LastLocation(rows, userEmail).value;
    var i :| 0 <= i < |rows| && rows[i].userEmail == userEmail && rows[i].isLastLocation && rows[i].location == previous;
    var after := Unflag(rows, userEmail) + [LocationRow(userEmail, location, true)];
    assert after[i] == rows[i].(isLastLocation := false);
    var saved := Unflagged(after, userEmail);
    assert previous in saved;
    SortNewestFirstSpec(saved);
    assert previous in multiset(SortNewestFirst(saved));
  }
}

=== FILE: mock_weather.dfy ===
/** The synthetic weather generator of src/lib/mock-weather-service.ts. `Math.sin` is the parameter `sine`, the
    clock is a `Clock`, and every `Math.random()` draw is an input value. */
module MockWeather {
  import opened Numeric
  import opened Text
  import opened Wrappers

  datatype WeatherCodeInfo = WeatherCodeInfo(description: string, icon: string)

  /** `WEATHER_CODES`: the Open-Meteo subset of the WMO weather interpretation codes. */
  const WeatherCodes: map<int, WeatherCodeInfo> := map[
    0 := WeatherCodeInfo("Clear sky", "sun"),
    1 := WeatherCodeInfo("Mainly clear", "sun"),
    2 := WeatherCodeInfo("Partly cloudy", "cloud-sun"),
    3 := WeatherCodeInfo("Overcast", "cloud"),
    45 := WeatherCodeInfo("Foggy", "cloud-fog"),
    48 := WeatherCodeInfo("Depositing rime fog", "cloud-fog"),
    51 := WeatherCodeInfo("Light drizzle", "cloud-drizzle"),
    53 := WeatherCodeInfo("Moderate drizzle", "cloud-drizzle"),
    55 := WeatherCodeInfo("Dense drizzle", "cloud-drizzle"),
    56 := WeatherCodeInfo("Light freezing drizzle", "cloud-drizzle"),
    57 := WeatherCodeInfo("Dense freezing drizzle", "cloud-drizzle"),
    61 := WeatherCodeInfo("Slight rain", "cloud-rain"),
    63 := WeatherCodeInfo("Moderate rain", "cloud-rain"),
    65 := WeatherCodeInfo("Heavy rain", "cloud-rain"),
    66 := WeatherCodeInfo("Light freezing rain", "cloud-rain"),
    67 := WeatherCodeInfo("Heavy freezing rain", "cloud-rain"),
    71 := WeatherCodeInfo("Slight snow", "cloud-snow"),
    73 := WeatherCodeInfo("Moderate snow", "cloud-snow"),
    75 := WeatherCodeInfo("Heavy snow", "cloud-snow"),
    77 := WeatherCodeInfo("Snow grains", "cloud-snow"),
    80 := WeatherCodeInfo("Slight rain showers", "cloud-rain"),
    81 := WeatherCodeInfo("Moderate rain showers", "cloud-rain"),
    82 := WeatherCodeInfo("Violent rain showers", "cloud-rain"),
    85 := WeatherCodeInfo("Slight snow showers", "cloud-snow"),
    86 := WeatherCodeInfo("Heavy snow showers", "cloud-snow"),
    95 := WeatherCodeInfo("Thunderstorm", "cloud-lightning"),
    96 := WeatherCodeInfo("Thunderstorm with slight hail", "cloud-lightning"),
    99 := WeatherCodeInfo("Thunderstorm with heavy hail", "cloud-lightning")
  ]

  function Abs(x: real): (a: real)
    ensures a >= 0.0 && (a == x || a == -x)
  {
    if x < 0.0 then -x else x
  }

  datatype Season = Winter | Spring | Summer | Fall

  /** The season of a month (0 = January) in the northern hemisphere. */
  function NorthernSeason(month: int): Season {
    if month >= 11 || month <= 1 then Winter
    else if 2 <= month <= 4 then Spring
    else if 5 <= month <= 7 then Summer
    else Fall
  }

  /** The season six months away. */
  function Opposite(s: Season): Season {
    match s
    case Winter => Summer
    case Spring => Fall
    case Summer => Winter
    case Fall => Spring
  }

  /** The season rule of `getSeasonalBaseTemp` and `getRealisticWeatherCode`
      (latitude 0 counts as northern): the southern hemisphere has the opposite
      season of the northern one. */
  function SeasonOf(latitude: real, month: int): (s: Season)
    ensures latitude >= 0.0 ==> s == NorthernSeason(month)
    ensures latitude < 0.0 ==> s == Opposite(NorthernSeason(month))
  {
    if latitude >= 0.0 then
      if month >= 11 || month <= 1 then Winter
      else if month >= 2 && month <= 4 then Spring
      else if month >= 5 && month <= 7 then Summer
      else Fall
    else
      if month >= 11 || month <= 1 then Summer
      else if month >= 2 && month <= 4 then Fall
      else if month >= 5 && month <= 7 then Winter
      else Spring
  }

  /** The months of each northern season, as a calendar reads them. */
  lemma NorthernSeasonMonths(month: int)
    requires 0 <= month <= 11
    ensures NorthernSeason(month) == Winter <==> month in {11, 0, 1}
    ensures NorthernSeason(month) == Spring <==> month in {2, 3, 4}
    ensures NorthernSeason(month) == Summer <==> month in {5, 6, 7}
    ensures NorthernSeason(month) == Fall <==> month in {8, 9, 10}
  {
  }

  /** `getSeasonalBaseTemp`: a table value by latitude band and season, adjusted by
      three degrees in November above 35 degrees of latitude. */
  function SeasonalBaseTemp(latitude: real, month: int): (t: int)
    ensures -18 <= t <= 30
  {
    var isNorthern := latitude >= 0.0;
    var absLat := Abs(latitude);
    var season := SeasonOf(latitude, month);
    var baseTemp :=
      if absLat < 23.5 then (if season == Winter then 26 else if season == Summer then 29 else 28)
      else if absLat < 35.0 then
        (match season case Winter => 15 case Spring => 20 case Summer => 30 case Fall => 22)
      else if absLat < 55.0 then
        (match season case Winter => 3 case Spring => 13 case Summer => 24 case Fall => 10)
      else
        (match season case Winter => -15 case Spring => 0 case Summer => 12 case Fall => -5);
    if month == 10 then
      if isNorthern && absLat > 35.0 then baseTemp - 3
      else if !isNorthern && absLat > 35.0 then baseTemp + 3
      else baseTemp
    else baseTemp
  }

  datatype Band = Tropical | Subtropical | Temperate | Polar

  function BandOf(latitude: real): Band {
    var a := Abs(latitude);
    if a < 23.5 then Tropical else if a < 35.0 then Subtropical else if a < 55.0 then Temperate else Polar
  }

  /** The base-temperature table, by band and season. */
  function BandTable(b: Band, s: Season): int {
    match (b, s)
    case (Tropical, Winter) => 26
    case (Tropical, Summer) => 29
    case (Tropical, _) => 28
    case (Subtropical, Winter) => 15
    case (Subtropical, Spring) => 20
    case (Subtropical, Summer) => 30
    case (Subtropical, Fall) => 22
    case (Temperate, Winter) => 3
    case (Temperate, Spring) => 13
    case (Temperate, Summer) => 24
    case (Temperate, Fall) => 10
    case (Polar, Winter) => -15
    case (Polar, Spring) => 0
    case (Polar, Summer) => 12
    case (Polar, Fall) => -5
  }

  /** The base temperature is the table value, and the only adjustment is the
      November one above 35 degrees: -3 in the north, +3 in the south. */
  lemma BaseTempIsTablePlusNovemberAdjustment(latitude: real, month: int)
    ensures var table := BandTable(BandOf(latitude), SeasonOf(latitude, month));
            SeasonalBaseTemp(latitude, month) ==
              if month == 10 && Abs(latitude) > 35.0 then (if latitude >= 0.0 then table - 3 else table + 3)
              else table
  {
  }

  /** Exactly 35 degrees is temperate but not adjusted; just above it is. */
  lemma NovemberBoundaryAt35()
    ensures SeasonalBaseTemp(35.0, 10) == 10
    ensures SeasonalBaseTemp(35.5, 10) == 7
    ensures SeasonalBaseTemp(-35.0, 10) == 13
    ensures SeasonalBaseTemp(-35.5, 10) == 16
  {
  }

  /** The codes the generator can produce. */
  const GeneratedCodes: set<int> := {0, 1, 2, 3, 61, 71, 73, 75, 80, 95}

  /** `getRealisticWeatherCode` with its pseudo-random value `random` given.
      The source's four season flags coincide with `SeasonOf`. */
  function WeatherCode(latitude: real, month: int, random: real): (code: int)
    ensures code in GeneratedCodes
    ensures code in WeatherCodes
  {
    var isNorthern := latitude >= 0.0;
    var absLat := Abs(latitude);
    var season := SeasonOf(latitude, month);
    if absLat < 23.5 then
      if random < 0.35 then 0
      else if random < 0.65 then 2
      else if random < 0.85 then 61
      else 80
    else if absLat < 35.0 then
      if season == Winter then
        if random < 0.5 then 0
        else if random < 0.75 then 2
        else if random < 0.9 then 61
        else 3
      else if season == Summer then
        if random < 0.6 then 0
        else if random < 0.85 then 2
        else 61
      else
        if random < 0.55 then 0
        else if random < 0.8 then 2
        else 61
    else if absLat < 55.0 then
      if month == 10 && isNorthern then
        if random < 0.25 then 0
        else if random < 0.4 then 1
        else if random < 0.6 then 3
        else if random < 0.8 then 61
        else if absLat > 45.0 && random < 0.95 then 71
        else 61
      else if month == 10 && !isNorthern then
        if random < 0.5 then 0
        else if random < 0.75 then 2
        else if random < 0.9 then 61
        else 95
      else if season == Winter then
        if random < 0.25 then 0
        else if random < 0.4 then 3
        else if random < 0.6 then 61
        else if random < 0.8 then 71
        else 73
      else if season == Summer then
        if random < 0.55 then 0
        else if random < 0.75 then 2
        else if random < 0.9 then 61
        else 95
      else if season == Fall then
        if random < 0.35 then 1
        else if random < 0.55 then 2
        else if random < 0.75 then 3
        else 61
      else
        if random < 0.45 then 0
        else if random < 0.7 then 2
        else if random < 0.85 then 61
        else 95
    else
      if season == Winter then
        if random < 0.15 then 0
        else if random < 0.35 then 3
        else if random < 0.55 then 71
        else if random < 0.75 then 73
        else 75
      else if season == Summer then
        if random < 0.4 then 1
        else if random < 0.65 then 2
        else if random < 0.85 then 3
        else 61
      else
        if random < 0.3 then 1
        else if random < 0.5 then 3
        else if random < 0.7 then 71
        else 61
  }

  /** In the tropics the code depends on the random value alone. */
  lemma TropicalCodeIgnoresSeason(lat1: real, month1: int, lat2: real, month2: int, random: real)
    requires Abs(lat1) < 23.5 && Abs(lat2) < 23.5
    ensures WeatherCode(lat1, month1, random) == WeatherCode(lat2, month2, random)
  {
  }

  /** In the temperate November ladders snow (71) appears only above 45 degrees north;
      the southern ladder never gives it. */
  lemma NovemberSnowOnlyAbove45(latitude: real, random: real)
    requires 35.0 <= latitude < 55.0 || -55.0 < latitude <= -35.0
    ensures WeatherCode(latitude, 10, random) == 71 <==> latitude > 45.0 && 0.8 <= random < 0.95
  {
  }

  /** `(Math.sin(dayOffset * 12345 + latitude * 100) + 1) / 2`. */
  function CodeRandom(sine: real -> real, dayOffset: int, latitude: real): real {
    (sine(dayOffset as real * 12345.0 + latitude * 100.0) + 1.0) / 2.0
  }

  /** Math.PI. */
  const Pi: real := 3.141592653589793

  /** The instant `new Date()` of the call, as the generator reads it. */
  datatype Clock = Clock(isoTime: string, month: int, hour: int, dayOfMonth: int)

  /** Day `i` of the forecast (`now` plus i days): its ISO date and its month. */
  datatype CalendarDay = CalendarDay(isoDate: string, month: int)

  /** The `Math.random()` values drawn for the current conditions. */
  datatype CurrentDraws = CurrentDraws(
    humidity: real, wind: real, cloud: real, precipitation: real, rain: real,
    showers: real, snowfall: real, pressureMsl: real, surfacePressure: real, direction: real)

  /** The `Math.random()` values drawn for forecast day i. */
  datatype DayDraws = DayDraws(variation: real, precipitation: real, wind: real)

  datatype CurrentConditions = CurrentConditions(
    time: string, temperature: int, humidity: int, apparentTemperature: int, isDay: int,
    precipitation: int, rain: int, showers: int, snowfall: int, weatherCode: int,
    cloudCover: int, pressureMsl: int, surfacePressure: int, windSpeed: int,
    windDirection: int, windGusts: int)

  /** The daily arrays of the response, one entry per forecast day. */
  datatype DailySeries = DailySeries(
    time: seq<string>, weatherCode: seq<int>, maxTemp: seq<int>, minTemp: seq<int>,
    apparentMax: seq<int>, apparentMin: seq<int>, sunrise: seq<string>, sunset: seq<string>,
    precipitationSum: seq<int>, windSpeedMax: seq<int>, windGustsMax: seq<int>, uvIndexMax: seq<int>)

  datatype MockWeatherData = MockWeatherData(
    longitude: real, latitude: real, timezone: string,
    current: CurrentConditions, daily: DailySeries)

  const ForecastDays: nat := 7

  /** The value forecast day i's high and low are centred on: the seasonal base of
      that day's month plus `sin(i * 0.5) * 3 + (random - 0.5) * 4`. */
  function DayCentre(latitude: real, day: CalendarDay, sine: real -> real, draw: DayDraws, i: int): real {
    SeasonalBaseTemp(latitude, day.month) as real + (sine(i as real * 0.5) * 3.0 + (draw.variation - 0.5) * 4.0)
  }

  /** The code of forecast day i: the realistic code with day offset i. */
  function DayCode(latitude: real, sine: real -> real, calendar: nat -> CalendarDay, i: nat): (code: int)
    ensures code in GeneratedCodes && code in WeatherCodes
  {
    WeatherCode(latitude, calendar(i).month, CodeRandom(sine, i, latitude))
  }

  /** The UV index rule: never negative, whatever the trigonometric texture. */
  function UvIndex(latitude: real, month: int, sine: real -> real): (uv: int)
    ensures uv >= 0
  {
    var baseUV := 11.0 - (Abs(latitude) / 90.0) * 8.0;
    var seasonalUV := sine(month as real / 6.0 * Pi) * 3.0;
    Max(0, Round(baseUV + seasonalUV))
  }

  /** A high and a low five degrees either side of the same centre are always ten apart. */
  lemma {:induction false} HighLowSpread(x: real)
    ensures Round(x + 5.0) - Round(x - 5.0) == 10
  {
    RoundShift(x - 5.0, 10);
    assert x - 5.0 + 10 as real == x + 5.0;
  }

  /** The gated amounts of the current conditions: zero outside their code range. */
  function GatedAmount(code: int, lo: int, hi: int, draw: real, scale: real): (a: int)
    ensures !(lo <= code <= hi) ==> a == 0
  {
    if code >= lo && code <= hi then Round(draw * scale) else 0
  }

  /** The arrays the forecast loop of `generateMockWeatherData` fills. */
  datatype ForecastArrays = ForecastArrays(
    time: seq<string>, weatherCode: seq<int>, maxTemp: seq<int>, minTemp: seq<int>,
    precipitationSum: seq<int>, windSpeedMax: seq<int>, uvIndexMax: seq<int>)

  /** The forecast loop: one entry per day for seven days. */
  method ForecastLoop(latitude: real, month: int, windSpeed: int,
                      sine: real -> real, calendar: nat -> CalendarDay, draws: nat -> DayDraws)
    returns (f: ForecastArrays)
    ensures |f.time| == ForecastDays && |f.weatherCode| == ForecastDays && |f.maxTemp| == ForecastDays
    ensures |f.minTemp| == ForecastDays && |f.precipitationSum| == ForecastDays
    ensures |f.windSpeedMax| == ForecastDays && |f.uvIndexMax| == ForecastDays
    ensures forall i :: 0 <= i < ForecastDays ==> f.time[i] == calendar(i).isoDate
    ensures forall i :: 0 <= i < ForecastDays ==> f.weatherCode[i] == DayCode(latitude, sine, calendar, i)
    ensures forall i :: 0 <= i < ForecastDays ==>
      f.maxTemp[i] == Round(DayCentre(latitude, calendar(i), sine, draws(i), i) + 5.0)
    ensures forall i :: 0 <= i < ForecastDays ==>
      f.minTemp[i] == Round(DayCentre(latitude, calendar(i), sine, draws(i), i) - 5.0)
    ensures forall i :: 0 <= i < ForecastDays ==> f.maxTemp[i] - f.minTemp[i] == 10
    ensures forall i :: 0 <= i < ForecastDays ==> (f.weatherCode[i] < 51 ==> f.precipitationSum[i] == 0)
    ensures forall i :: 0 <= i < ForecastDays ==> f.uvIndexMax[i] >= 0
  {
    var dailyTimes: seq<string> := [];
    var weatherCodes: seq<int> := [];
    var maxTemps: seq<int> := [];
    var minTemps: seq<int> := [];
    var precipSums: seq<int> := [];
    var windSpeedMax: seq<int> := [];
    var uvIndex: seq<int> := [];
    var i: nat := 0;
    while i < ForecastDays
      invariant i <= ForecastDays
      invariant |dailyTimes| == i && |weatherCodes| == i && |maxTemps| == i && |minTemps| == i
      invariant |precipSums| == i && |windSpeedMax| == i && |uvIndex| == i
      invariant forall k :: 0 <= k < i ==> dailyTimes[k] == calendar(k).isoDate
      invariant forall k :: 0 <= k < i ==> weatherCodes[k] == DayCode(latitude, sine, calendar, k)
      invariant forall k :: 0 <= k < i ==>
        maxTemps[k] == Round(DayCentre(latitude, calendar(k), sine, draws(k), k) + 5.0)
      invariant forall k :: 0 <= k < i ==>
        minTemps[k] == Round(DayCentre(latitude, calendar(k), sine, draws(k), k) - 5.0)
      invariant forall k :: 0 <= k < i ==> maxTemps[k] - minTemps[k] == 10
      invariant forall k :: 0 <= k < i ==> (weatherCodes[k] < 51 ==> precipSums[k] == 0)
      invariant forall k :: 0 <= k < i ==> uvIndex[k] >= 0
    {
      var day := calendar(i);
      dailyTimes := dailyTimes + [day.isoDate];
      var dayBaseTemp := SeasonalBaseTemp(latitude, day.month);
      var dayVariation := sine(i as real * 0.5) * 3.0 + (draws(i).variation - 0.5) * 4.0;
      var dayWeatherCode := WeatherCode(latitude, day.month, CodeRandom(sine, i, latitude));
      weatherCodes := weatherCodes + [dayWeatherCode];
      var centre := dayBaseTemp as real + dayVariation;
      assert centre == DayCentre(latitude, day, sine, draws(i), i);
      HighLowSpread(centre);
      maxTemps := maxTemps + [Round(centre + 5.0)];
      minTemps := minTemps + [Round(centre - 5.0)];
      var hasPrecip := dayWeatherCode >= 51;
      var precip := if hasPrecip then Round(draws(i).precipitation * 15.0 + 2.0) else 0;
      precipSums := precipSums + [precip];
      windSpeedMax := windSpeedMax + [Round(windSpeed as real + draws(i).wind * 10.0)];
      uvIndex := uvIndex + [UvIndex(latitude, month, sine)];
      i := i + 1;
    }
    f := ForecastArrays(dailyTimes, weatherCodes, maxTemps, minTemps, precipSums, windSpeedMax, uvIndex);
  }

  /** `generateMockWeatherData`: the current conditions and a seven-day forecast. */
  method GenerateMockWeatherData(
    latitude: real, longitude: real, timezone: string, now: Clock,
    sine: real -> real, calendar: nat -> CalendarDay, cur: CurrentDraws, draws: nat -> DayDraws)
    returns (data: MockWeatherData)
    ensures data.latitude == latitude && data.longitude == longitude && data.timezone == timezone
    ensures data.current.isDay == (if 6 <= now.hour < 19 then 1 else 0)
    ensures data.current.weatherCode == WeatherCode(latitude, now.month, CodeRandom(sine, 0, latitude))
    ensures data.current.apparentTemperature == data.current.temperature - 2
    ensures data.current.weatherCode < 51 ==> data.current.precipitation == 0 && data.current.rain == 0
    ensures !(71 <= data.current.weatherCode <= 77) ==> data.current.snowfall == 0
    ensures !(80 <= data.current.weatherCode <= 82) ==> data.current.showers == 0
    ensures data.current.windGusts == Round(data.current.windSpeed as real * 1.5)
    ensures var d := data.daily;
      |d.time| == ForecastDays && |d.weatherCode| == ForecastDays && |d.maxTemp| == ForecastDays &&
      |d.minTemp| == ForecastDays && |d.apparentMax| == ForecastDays && |d.apparentMin| == ForecastDays &&
      |d.sunrise| == ForecastDays && |d.sunset| == ForecastDays && |d.precipitationSum| == ForecastDays &&
      |d.windSpeedMax| == ForecastDays && |d.windGustsMax| == ForecastDays && |d.uvIndexMax| == ForecastDays
    ensures forall i :: 0 <= i < ForecastDays ==> data.daily.time[i] == calendar(i).isoDate
    ensures forall i :: 0 <= i < ForecastDays ==> data.daily.weatherCode[i] == DayCode(latitude, sine, calendar, i)
    ensures forall i :: 0 <= i < ForecastDays ==> data.daily.weatherCode[i] in WeatherCodes
    ensures forall i :: 0 <= i < ForecastDays ==>
      data.daily.maxTemp[i] == Round(DayCentre(latitude, calendar(i), sine, draws(i), i) + 5.0)
    ensures forall i :: 0 <= i < ForecastDays ==> data.daily.maxTemp[i] - data.daily.minTemp[i] == 10
    ensures forall i :: 0 <= i < ForecastDays ==>
      data.daily.apparentMax[i] == data.daily.maxTemp[i] - 1 && data.daily.apparentMin[i] == data.daily.minTemp[i] - 2
    ensures forall i :: 0 <= i < ForecastDays ==> data.daily.weatherCode[i] < 51 ==> data.daily.precipitationSum[i] == 0
    ensures forall i :: 0 <= i < ForecastDays ==> data.daily.uvIndexMax[i] >= 0
    ensures forall i :: 0 <= i < ForecastDays ==> data.daily.sunrise[i] == "06:30" && data.daily.sunset[i] == "18:30"
  {
    var isDaytime := now.hour >= 6 && now.hour < 19;
    var baseTemp := SeasonalBaseTemp(latitude, now.month);
    var dailyVariation := sine((now.hour - 6) as real / 12.0 * Pi) * 5.0;
    var randomVariation := (sine(latitude + longitude + now.dayOfMonth as real) + 1.0) * 3.0;
    var currentTemp := Round(baseTemp as real + dailyVariation + randomVariation);
    var weatherCode := WeatherCode(latitude, now.month, CodeRandom(sine, 0, latitude));
    var humidity := Round(60.0 + sine(latitude) * 20.0 + cur.humidity * 20.0);
    var windSpeed := Round(5.0 + cur.wind * 15.0);
    var cloudCover :=
      if weatherCode == 0 then Round(cur.cloud * 20.0)
      else if weatherCode <= 2 then Round(30.0 + cur.cloud * 40.0)
      else Round(70.0 + cur.cloud * 30.0);

    var f := ForecastLoop(latitude, now.month, windSpeed, sine, calendar, draws);

    var current := CurrentConditions(
      time := now.isoTime,
      temperature := currentTemp,
      humidity := humidity,
      apparentTemperature := currentTemp - 2,
      isDay := if isDaytime then 1 else 0,
      precipitation := GatedAmount(weatherCode, 51, 67, cur.precipitation, 5.0),
      rain := GatedAmount(weatherCode, 61, 67, cur.rain, 5.0),
      showers := GatedAmount(weatherCode, 80, 82, cur.showers, 8.0),
      snowfall := GatedAmount(weatherCode, 71, 77, cur.snowfall, 10.0),
      weatherCode := weatherCode,
      cloudCover := cloudCover,
      pressureMsl := Round(1013.0 + (cur.pressureMsl - 0.5) * 20.0),
      surfacePressure := Round(1010.0 + (cur.surfacePressure - 0.5) * 20.0),
      windSpeed := windSpeed,
      windDirection := Round(cur.direction * 360.0),
      windGusts := Round(windSpeed as real * 1.5));
    var daily := DailySeries(
      time := f.time,
      weatherCode := f.weatherCode,
      maxTemp := f.maxTemp,
      minTemp := f.minTemp,
      apparentMax := seq(ForecastDays, k requires 0 <= k < ForecastDays => f.maxTemp[k] - 1),
      apparentMin := seq(ForecastDays, k requires 0 <= k < ForecastDays => f.minTemp[k] - 2),
      sunrise := seq(ForecastDays, _ => "06:30"),
      sunset := seq(ForecastDays, _ => "18:30"),
      precipitationSum := f.precipitationSum,
      windSpeedMax := f.windSpeedMax,
      windGustsMax := seq(ForecastDays, k requires 0 <= k < ForecastDays => Round(f.windSpeedMax[k] as real * 1.6)),
      uvIndexMax := f.uvIndexMax);
    data := MockWeatherData(longitude, latitude, timezone, current, daily);
  }

  /** London in November: temperate fall (10) less the November three, so 7. */
  lemma LondonNovemberBase()
    ensures SeasonalBaseTemp(51.5074, 10) == 7
  {
  }
}

=== FILE: nine_band_recommendations.dfy ===
/** The extended recommendation engine of test-recommendations-FIXED.js: safety
    warnings, a nine-band temperature ladder, one condition entry, one wind entry,
    one humidity entry, combination warnings, a fallback, and the first three shown. */
module NineBandRecommendations {
  import opened Text
  import opened Wrappers
  import opened Sequences

  datatype Category = Safety | TemperatureCategory | Condition | WindCategory | HumidityCategory | Combination | General
  datatype Priority = Critical | High | Medium | Low

  /** What is pushed: a title with its category and priority. */
  datatype Recommendation = Recommendation(title: string, category: Category, priority: Priority)

  /** The entries the engine can push, one constructor per distinct record. */
  datatype Advice =
    | ThunderstormWarning | ReducedVisibility
    | FreezingConditions | VeryCold | CoolNovember | MildPleasant | PerfectFall
    | WarmComfortable | WarmDay | HotWeather | VeryHot
    | HeavyRainAlert | RainyDay | HeavySnowWarning | SnowyConditions
    | OvercastSkies | PartlyCloudy | CloudyDay | ClearSkies
    | VeryWindy | WindyConditions
    | VeryHumid | HighHumidity | DryAir
    | HypothermiaRisk | HeatIndexHigh | StormConditions
    | TypicalNovemberDay
  {
    /** The record pushed for this entry. */
    function Record(): Recommendation {
      Recommendation(Title(), CategoryOf(), PriorityOf())
    }

    function Title(): string {
      match this
      case ThunderstormWarning => "⚠️ Thunderstorm Warning"
      case ReducedVisibility => "⚠️ Reduced Visibility"
      case FreezingConditions => "Freezing Conditions"
      case VeryCold => "Very Cold"
      case CoolNovember => "Cool November Weather"
      case MildPleasant => "Mild & Pleasant"
      case PerfectFall => "Perfect Fall Weather"
      case WarmComfortable => "Warm & Comfortable"
      case WarmDay => "Warm Day"
      case HotWeather => "Hot Weather"
      case VeryHot => "Very Hot"
      case HeavyRainAlert => "Heavy Rain Alert"
      case RainyDay => "Rainy Day"
      case HeavySnowWarning => "Heavy Snow Warning"
      case SnowyConditions => "Snowy Conditions"
      case OvercastSkies => "Overcast Skies"
      case PartlyCloudy => "Partly Cloudy"
      case CloudyDay => "Cloudy Day"
      case ClearSkies => "Clear Skies"
      case VeryWindy => "⚠️ Very Windy"
      case WindyConditions => "Windy Conditions"
      case VeryHumid => "Very Humid"
      case HighHumidity => "High Humidity"
      case DryAir => "Dry Air"
      case HypothermiaRisk => "⚠️ Hypothermia Risk"
      case HeatIndexHigh => "⚠️ Heat Index High"
      case StormConditions => "⚠️ Storm Conditions"
      case TypicalNovemberDay => "Typical November Day"
    }

    function CategoryOf(): Category {
      match this
      case ThunderstormWarning | ReducedVisibility => Safety
      case FreezingConditions | VeryCold | CoolNovember | MildPleasant
        | PerfectFall | WarmComfortable | WarmDay | HotWeather | VeryHot => TemperatureCategory
      case HeavyRainAlert | RainyDay | HeavySnowWarning | SnowyConditions
        | OvercastSkies | PartlyCloudy | CloudyDay | ClearSkies => Condition
      case VeryWindy | WindyConditions => WindCategory
      case VeryHumid | HighHumidity | DryAir => HumidityCategory
      case HypothermiaRisk | HeatIndexHigh | StormConditions => Combination
      case TypicalNovemberDay => General
    }

    function PriorityOf(): Priority {
      match this
      case ThunderstormWarning | ReducedVisibility | HypothermiaRisk
        | HeatIndexHigh | StormConditions => Critical
      case FreezingConditions | VeryCold | HotWeather | VeryHot | HeavyRainAlert
        | HeavySnowWarning | VeryWindy => High
      case CoolNovember | MildPleasant | PerfectFall | WarmComfortable | WarmDay
        | RainyDay | SnowyConditions | ClearSkies | WindyConditions
        | VeryHumid => Medium
      case OvercastSkies | PartlyCloudy | CloudyDay | HighHumidity | DryAir
        | TypicalNovemberDay => Low
    }
  }

  datatype Weather = Weather(condition: string, temperature: real, humidity: real, windSpeed: real)

  const MaxShown: nat := 3

  /** `conditionLower.includes(word)`. */
  predicate Mentions(condition: string, word: string) { Contains(Lower(condition), word) }

  /** A word found at a position of the lower-cased condition is mentioned. */
  lemma MentionedAt(condition: string, word: string, k: int)
    requires 0 <= k && k + |word| <= |Lower(condition)| && Lower(condition)[k..k + |word|] == word
    ensures Mentions(condition, word)
  {
    ContainsIff(Lower(condition), word);
    assert OccursAt(Lower(condition), word, k);
  }

  /** A word holding a character the lower-cased condition lacks is not mentioned. */
  lemma NotMentioned(condition: string, word: string, missing: char)
    requires missing in word && missing !in Lower(condition)
    ensures !Mentions(condition, word)
  {
    MissingCharNotContained(Lower(condition), word, missing);
  }

  predicate Thundery(c: string) { Mentions(c, "thunderstorm") || Mentions(c, "thunder") }
  predicate Foggy(c: string) { Mentions(c, "fog") || Mentions(c, "mist") }
  predicate Wet(c: string) { Mentions(c, "rain") || Mentions(c, "drizzle") }
  predicate Heavy(c: string) { Mentions(c, "heavy") || Mentions(c, "moderate") }

  /** The safety warnings: thunder first, then fog or mist; both may apply. */
  function SafetyEntries(c: string): (s: seq<Advice>)
    ensures ThunderstormWarning in s <==> Thundery(c)
    ensures ReducedVisibility in s <==> Foggy(c)
    ensures forall r :: r in s ==> r.CategoryOf() == Safety
    ensures Thundery(c) ==> s[0] == ThunderstormWarning
    ensures |s| <= 2
  {
    (if Thundery(c) then [ThunderstormWarning] else [])
      + (if Foggy(c) then [ReducedVisibility] else [])
  }

  /** The nine temperature bands, tested in order. */
  function TemperatureEntry(t: real): (r: Option<Advice>)
    ensures r == Some(FreezingConditions) <==> t < 0.0
    ensures r == Some(VeryCold) <==> 0.0 <= t < 4.0
    ensures r == Some(CoolNovember) <==> 4.0 <= t < 10.0
    ensures r == Some(MildPleasant) <==> 10.0 <= t < 16.0
    ensures r == Some(PerfectFall) <==> 16.0 <= t < 20.0
    ensures r == Some(WarmComfortable) <==> 20.0 <= t < 25.0
    ensures r == Some(WarmDay) <==> 25.0 <= t <= 27.0
    ensures r == Some(HotWeather) <==> 27.0 < t <= 30.0
    ensures r == Some(VeryHot) <==> t > 30.0
  {
    if t < 0.0 then Some(FreezingConditions)
    else if t >= 0.0 && t < 4.0 then Some(VeryCold)
    else if t >= 4.0 && t < 10.0 then Some(CoolNovember)
    else if t >= 10.0 && t < 16.0 then Some(MildPleasant)
    else if t >= 16.0 && t < 20.0 then Some(PerfectFall)
    else if t >= 20.0 && t < 25.0 then Some(WarmComfortable)
    else if t >= 25.0 && t <= 27.0 then Some(WarmDay)
    else if t > 27.0 && t <= 30.0 then Some(HotWeather)
    else if t > 30.0 then Some(VeryHot)
    else None
  }

  /** The bands cover every real temperature: there is always a temperature entry,
      and it is a temperature-category one. */
  lemma TemperatureBandsCover(t: real)
    ensures TemperatureEntry(t).Some?
    ensures TemperatureEntry(t).value.CategoryOf() == TemperatureCategory
  {
  }

  /** The boundary values the accompanying checks use. */
  lemma TemperatureTestVectors()
    ensures TemperatureEntry(0.0) == Some(VeryCold)
    ensures TemperatureEntry(4.0) == Some(CoolNovember)
    ensures TemperatureEntry(27.0) == Some(WarmDay)
    ensures TemperatureEntry(28.0) == Some(HotWeather)
    ensures TemperatureEntry(30.0) == Some(HotWeather)
    ensures TemperatureEntry(32.0) == Some(VeryHot)
  {
  }

  /** The condition entry, priority rain/drizzle > snow > overcast > partly cloudy >
      cloudy > clear/sun; rain and snow are heavy iff "heavy" or "moderate" is mentioned. */
  function ConditionEntry(c: string): (r: Option<Advice>)
    ensures r.Some? ==> r.value.CategoryOf() == Condition
  {
    if Wet(c) then
      if Heavy(c) then Some(HeavyRainAlert) else Some(RainyDay)
    else if Mentions(c, "snow") then
      if Heavy(c) then Some(HeavySnowWarning) else Some(SnowyConditions)
    else if Mentions(c, "overcast") then Some(OvercastSkies)
    else if Mentions(c, "partly cloudy") || Mentions(c, "partial") then Some(PartlyCloudy)
    else if Mentions(c, "cloudy") then Some(CloudyDay)
    else if Mentions(c, "clear") || Mentions(c, "sun") || Mentions(c, "mainly clear") then Some(ClearSkies)
    else None
  }

  /** Rain or drizzle first, heavy iff "heavy" or "moderate" is mentioned; then snow,
      graded the same way; then overcast. */
  lemma ConditionEntryPrecipitation(c: string)
    ensures ConditionEntry(c) == Some(HeavyRainAlert) <==> Wet(c) && Heavy(c)
    ensures ConditionEntry(c) == Some(RainyDay) <==> Wet(c) && !Heavy(c)
    ensures ConditionEntry(c) == Some(HeavySnowWarning) <==> !Wet(c) && Mentions(c, "snow") && Heavy(c)
    ensures ConditionEntry(c) == Some(SnowyConditions) <==> !Wet(c) && Mentions(c, "snow") && !Heavy(c)
    ensures ConditionEntry(c) == Some(OvercastSkies) <==> !Wet(c) && !Mentions(c, "snow") && Mentions(c, "overcast")
  {
  }

  /** The sky entries: partly cloudy, cloudy and clear, each once rain, snow and
      overcast are ruled out, tested in that order; no entry when no word matches. */
  lemma ConditionEntrySkies(c: string)
    ensures ConditionEntry(c).None? <==> (!Wet(c) && !Mentions(c, "snow") && !Mentions(c, "overcast")
      && !Mentions(c, "partly cloudy") && !Mentions(c, "partial") && !Mentions(c, "cloudy")
      && !Mentions(c, "clear") && !Mentions(c, "sun") && !Mentions(c, "mainly clear"))
    ensures ConditionEntry(c) == Some(PartlyCloudy) <==>
      (!Wet(c) && !Mentions(c, "snow") && !Mentions(c, "overcast")
       && (Mentions(c, "partly cloudy") || Mentions(c, "partial")))
    ensures ConditionEntry(c) == Some(CloudyDay) <==>
      (!Wet(c) && !Mentions(c, "snow") && !Mentions(c, "overcast")
       && !Mentions(c, "partly cloudy") && !Mentions(c, "partial") && Mentions(c, "cloudy"))
    ensures ConditionEntry(c) == Some(ClearSkies) <==>
      (!Wet(c) && !Mentions(c, "snow") && !Mentions(c, "overcast")
       && !Mentions(c, "partly cloudy") && !Mentions(c, "partial") && !Mentions(c, "cloudy")
       && (Mentions(c, "clear") || Mentions(c, "sun") || Mentions(c, "mainly clear")))
  {
  }

  function WindEntry(windSpeed: real): (r: Option<Advice>)
    ensures r == Some(VeryWindy) <==> windSpeed > 30.0
    ensures r == Some(WindyConditions) <==> 20.0 < windSpeed <= 30.0
    ensures r.None? <==> windSpeed <= 20.0
  {
    if windSpeed > 30.0 then Some(VeryWindy)
    else if windSpeed > 20.0 then Some(WindyConditions)
    else None
  }

  function HumidityEntry(humidity: real): (r: Option<Advice>)
    ensures r == Some(VeryHumid) <==> humidity > 85.0
    ensures r == Some(HighHumidity) <==> 70.0 < humidity <= 85.0
    ensures r == Some(DryAir) <==> humidity < 30.0
    ensures r.None? <==> 30.0 <= humidity <= 70.0
  {
    if humidity > 85.0 then Some(VeryHumid)
    else if humidity > 70.0 then Some(HighHumidity)
    else if humidity < 30.0 then Some(DryAir)
    else None
  }

  /** Cold and wet. */
  function HypothermiaEntry(w: Weather): seq<Advice> {
    if w.temperature < 4.0 && Wet(w.condition) then [HypothermiaRisk] else []
  }

  /** Hot and humid. */
  function HeatIndexEntry(w: Weather): seq<Advice> {
    if w.temperature > 27.0 && w.humidity > 70.0 then [HeatIndexHigh] else []
  }

  /** Wind with rain or snow. */
  function StormEntry(w: Weather): seq<Advice> {
    if w.windSpeed > 20.0 && (Mentions(w.condition, "rain") || Mentions(w.condition, "snow")) then [StormConditions] else []
  }

  /** The combination warnings, in their fixed order. */
  function CombinationEntries(w: Weather): (s: seq<Advice>)
    ensures HypothermiaRisk in s <==> w.temperature < 4.0 && Wet(w.condition)
    ensures HeatIndexHigh in s <==> w.temperature > 27.0 && w.humidity > 70.0
    ensures StormConditions in s <==> w.windSpeed > 20.0 && (Mentions(w.condition, "rain") || Mentions(w.condition, "snow"))
    ensures forall r :: r in s ==> r.CategoryOf() == Combination
  {
    HypothermiaEntry(w) + HeatIndexEntry(w) + StormEntry(w)
  }

  /** The single-factor entries, in push order. */
  function SingleFactorEntries(w: Weather): seq<Advice> {
    SafetyEntries(w.condition)
      + OptionSeq(TemperatureEntry(w.temperature))
      + OptionSeq(ConditionEntry(w.condition))
      + OptionSeq(WindEntry(w.windSpeed))
      + OptionSeq(HumidityEntry(w.humidity))
  }

  /** Every entry pushed before the fallback check: the single-factor entries first,
      and every entry after them a combination warning. */
  function Entries(w: Weather): (e: seq<Advice>)
    ensures |SingleFactorEntries(w)| <= |e| && e[..|SingleFactorEntries(w)|] == SingleFactorEntries(w)
    ensures forall i :: |SingleFactorEntries(w)| <= i < |e| ==> e[i].CategoryOf() == Combination
  {
    var single := SingleFactorEntries(w);
    var combination := CombinationEntries(w);
    CombinationsAfter(single, combination);
    single + combination
  }

  /** Appending combination warnings keeps the prefix and adds only combination warnings. */
  lemma CombinationsAfter(single: seq<Advice>, combination: seq<Advice>)
    requires forall r :: r in combination ==> r.CategoryOf() == Combination
    ensures (single + combination)[..|single|] == single
    ensures forall i :: |single| <= i < |single + combination| ==> (single + combination)[i].CategoryOf() == Combination
  {
    var e := single + combination;
    forall i | |single| <= i < |e| ensures e[i].CategoryOf() == Combination {
      assert e[i] == combination[i - |single|];
    }
    assert e[..|single|] == single;
  }

  function Recommendations(w: Weather): seq<Advice> {
    var entries := Entries(w);
    Take(if entries == [] then [TypicalNovemberDay] else entries, MaxShown)
  }

  /** Priority 1 of `getWeatherRecommendations`: the safety warnings. */
  method PushSafety(conditionLower: string, ghost condition: string, recommendations: seq<Advice>)
    returns (pushed: seq<Advice>)
    requires conditionLower == Lower(condition)
    ensures pushed == recommendations + SafetyEntries(condition)
  {
    pushed := recommendations;
    if Contains(conditionLower, "thunderstorm") || Contains(conditionLower, "thunder") {
      pushed := pushed + [ThunderstormWarning];
    }
    if Contains(conditionLower, "fog") || Contains(conditionLower, "mist") {
      pushed := pushed + [ReducedVisibility];
    }
  }

  /** Priority 2: one temperature entry out of nine bands. */
  method PushTemperature(temperature: real, recommendations: seq<Advice>) returns (pushed: seq<Advice>)
    ensures pushed == recommendations + OptionSeq(TemperatureEntry(temperature))
  {
    pushed := recommendations;
    if temperature < 0.0 {
      pushed := pushed + [FreezingConditions];
    } else if temperature >= 0.0 && temperature < 4.0 {
      pushed := pushed + [VeryCold];
    } else if temperature >= 4.0 && temperature < 10.0 {
      pushed := pushed + [CoolNovember];
    } else if temperature >= 10.0 && temperature < 16.0 {
      pushed := pushed + [MildPleasant];
    } else if temperature >= 16.0 && temperature < 20.0 {
      pushed := pushed + [PerfectFall];
    } else if temperature >= 20.0 && temperature < 25.0 {
      pushed := pushed + [WarmComfortable];
    } else if temperature >= 25.0 && temperature <= 27.0 {
      pushed := pushed + [WarmDay];
    } else if temperature > 27.0 && temperature <= 30.0 {
      pushed := pushed + [HotWeather];
    } else if temperature > 30.0 {
      pushed := pushed + [VeryHot];
    }
  }

  /** Priority 3: at most one condition entry. */
  method PushCondition(conditionLower: string, ghost condition: string, recommendations: seq<Advice>)
    returns (pushed: seq<Advice>)
    requires conditionLower == Lower(condition)
    ensures pushed == recommendations + OptionSeq(ConditionEntry(condition))
  {
    pushed := recommendations;
    if Contains(conditionLower, "rain") || Contains(conditionLower, "drizzle") {
      var isHeavy := Contains(conditionLower, "heavy") || Contains(conditionLower, "moderate");
      pushed := pushed + [if isHeavy then HeavyRainAlert else RainyDay];
    } else if Contains(conditionLower, "snow") {
      var isHeavy := Contains(conditionLower, "heavy") || Contains(conditionLower, "moderate");
      pushed := pushed + [if isHeavy then HeavySnowWarning else SnowyConditions];
    } else if Contains(conditionLower, "overcast") {
      pushed := pushed + [OvercastSkies];
    } else if Contains(conditionLower, "partly cloudy") || Contains(conditionLower, "partial") {
      pushed := pushed + [PartlyCloudy];
    } else if Contains(conditionLower, "cloudy") {
      pushed := pushed + [CloudyDay];
    } else if Contains(conditionLower, "clear") || Contains(conditionLower, "sun") || Contains(conditionLower, "mainly clear") {
      pushed := pushed + [ClearSkies];
    }
  }

  /** Priorities 4 and 5: at most one wind and at most one humidity entry. */
  method PushWindAndHumidity(windSpeed: real, humidity: real, recommendations: seq<Advice>)
    returns (pushed: seq<Advice>)
    ensures pushed == recommendations + OptionSeq(WindEntry(windSpeed)) + OptionSeq(HumidityEntry(humidity))
  {
    pushed := recommendations;
    if windSpeed > 30.0 {
      pushed := pushed + [VeryWindy];
    } else if windSpeed > 20.0 {
      pushed := pushed + [WindyConditions];
    }
    assert pushed == recommendations + OptionSeq(WindEntry(windSpeed));
    if humidity > 85.0 {
      pushed := pushed + [VeryHumid];
    } else if humidity > 70.0 {
      pushed := pushed + [HighHumidity];
    } else if humidity < 30.0 {
      pushed := pushed + [DryAir];
    }
  }

  /** Priority 6: the combination warnings. */
  method PushCombinations(conditionLower: string, weather: Weather, recommendations: seq<Advice>)
    returns (pushed: seq<Advice>)
    requires conditionLower == Lower(weather.condition)
    ensures pushed == recommendations + CombinationEntries(weather)
  {
    pushed := recommendations;
    if weather.temperature < 4.0 && (Contains(conditionLower, "rain") || Contains(conditionLower, "drizzle")) {
      pushed := pushed + [HypothermiaRisk];
    }
    assert pushed == recommendations + HypothermiaEntry(weather);
    if weather.temperature > 27.0 && weather.humidity > 70.0 {
      pushed := pushed + [HeatIndexHigh];
    }
    assert pushed == recommendations + HypothermiaEntry(weather) + HeatIndexEntry(weather);
    if weather.windSpeed > 20.0 && (Contains(conditionLower, "rain") || Contains(conditionLower, "snow")) {
      pushed := pushed + [StormConditions];
    }
    assert pushed == recommendations + (HypothermiaEntry(weather) + HeatIndexEntry(weather) + StormEntry(weather));
  }

  /** `getWeatherRecommendations` of the extended engine: the pushes in priority
      order, the fallback when nothing was pushed, then the first three. */
  method GetWeatherRecommendations(weather: Weather) returns (shown: seq<Advice>)
    ensures shown == Recommendations(weather)
  {
    var conditionLower := Lower(weather.condition);
    var recommendations: seq<Advice> := [];
    recommendations := PushSafety(conditionLower, weather.condition, recommendations);
    assert recommendations == SafetyEntries(weather.condition);
    recommendations := PushTemperature(weather.temperature, recommendations);
    recommendations := PushCondition(conditionLower, weather.condition, recommendations);
    recommendations := PushWindAndHumidity(weather.windSpeed, weather.humidity, recommendations);
    assert recommendations == SingleFactorEntries(weather);
    recommendations := PushCombinations(conditionLower, weather, recommendations);
    assert recommendations == Entries(weather);
    if |recommendations| == 0 {
      recommendations := recommendations + [TypicalNovemberDay];
    }
    shown := Take(recommendations, MaxShown);
  }

  /** The pushed entries, piece by piece. */
  lemma {:induction false} EntriesPieces(w: Weather)
    ensures Entries(w) ==
      SafetyEntries(w.condition) + OptionSeq(TemperatureEntry(w.temperature)) + OptionSeq(ConditionEntry(w.condition))
      + OptionSeq(WindEntry(w.windSpeed)) + OptionSeq(HumidityEntry(w.humidity)) + CombinationEntries(w)
  {
  }

  /** No pushed entry is the fallback one. */
  lemma NoFallbackPushed(w: Weather)
    ensures TypicalNovemberDay !in Entries(w)
  {
    EntriesPieces(w);
    var sa := SafetyEntries(w.condition);
    var te := OptionSeq(TemperatureEntry(w.temperature));
    var ce := OptionSeq(ConditionEntry(w.condition));
    var we := OptionSeq(WindEntry(w.windSpeed));
    var he := OptionSeq(HumidityEntry(w.humidity));
    var co := CombinationEntries(w);
    TemperatureBandsCover(w.temperature);
    assert TypicalNovemberDay !in sa;
    assert TypicalNovemberDay !in te;
    assert TypicalNovemberDay !in ce;
    assert TypicalNovemberDay !in we;
    assert TypicalNovemberDay !in he;
    assert TypicalNovemberDay !in co;
  }

  /** The fallback is never shown: the temperature entry always exists. */
  lemma FallbackUnreachable(w: Weather)
    ensures Entries(w) != []
    ensures TypicalNovemberDay !in Recommendations(w)
    ensures 1 <= |Recommendations(w)| <= MaxShown
  {
    TemperatureBandsCover(w.temperature);
    NoFallbackPushed(w);
    assert |SingleFactorEntries(w)| >= 1;
  }

  /** The safety warnings are shown first, in push order, and something follows them. */
  lemma SafetyShownInOrder(w: Weather)
    ensures |SafetyEntries(w.condition)| < |Recommendations(w)|
    ensures forall i :: 0 <= i < |SafetyEntries(w.condition)| ==> Recommendations(w)[i] == SafetyEntries(w.condition)[i]
  {
    var sa := SafetyEntries(w.condition);
    var e := Entries(w);
    SafetyPrefixOfEntries(w);
    TakeKeepsPrefix(e, sa, MaxShown);
    assert Recommendations(w) == Take(e, MaxShown);
    assert forall i :: 0 <= i < |sa| ==> Take(e, MaxShown)[i] == Take(e, MaxShown)[..|sa|][i];
  }

  /** The safety warnings open the pushed entries, and the temperature entry follows them. */
  lemma SafetyPrefixOfEntries(w: Weather)
    ensures |SafetyEntries(w.condition)| < |Entries(w)|
    ensures Entries(w)[..|SafetyEntries(w.condition)|] == SafetyEntries(w.condition)
  {
    TemperatureBandsCover(w.temperature);
    var sa := SafetyEntries(w.condition);
    var single := SingleFactorEntries(w);
    var e := Entries(w);
    assert single[..|sa|] == sa;
    assert e[..|sa|] == single[..|single|][..|sa|];
  }

  /** Safety warnings come first: thunder at the head, fog right after it or at the head. */
  lemma SafetyFirst(w: Weather)
    ensures Thundery(w.condition) ==> Recommendations(w)[0] == ThunderstormWarning
    ensures Foggy(w.condition) && !Thundery(w.condition) ==> Recommendations(w)[0] == ReducedVisibility
    ensures Foggy(w.condition) && Thundery(w.condition) ==> Recommendations(w)[1] == ReducedVisibility
  {
    SafetyShownInOrder(w);
    var sa := SafetyEntries(w.condition);
    if Foggy(w.condition) && !Thundery(w.condition) {
      assert sa == [ReducedVisibility];
    }
    if Foggy(w.condition) && Thundery(w.condition) {
      assert sa == [ThunderstormWarning, ReducedVisibility];
    }
  }

  /** The hypothermia warning is never a single-factor entry. */
  lemma HypothermiaNotSingleFactor(w: Weather)
    ensures HypothermiaRisk !in SingleFactorEntries(w)
  {
    TemperatureBandsCover(w.temperature);
    assert HypothermiaRisk !in SafetyEntries(w.condition);
    assert HypothermiaRisk !in OptionSeq(TemperatureEntry(w.temperature));
    assert HypothermiaRisk !in OptionSeq(ConditionEntry(w.condition));
    assert HypothermiaRisk !in OptionSeq(WindEntry(w.windSpeed));
    assert HypothermiaRisk !in OptionSeq(HumidityEntry(w.humidity));
  }

  /** A shown hypothermia warning was pushed, and at most two entries precede it. */
  lemma ShownHypothermiaWasPushed(w: Weather)
    requires HypothermiaRisk in Recommendations(w)
    ensures HypothermiaEntry(w) != [] && |SingleFactorEntries(w)| <= 2
  {
    FallbackUnreachable(w);
    HypothermiaNotSingleFactor(w);
    assert Recommendations(w) == Take(SingleFactorEntries(w) + CombinationEntries(w), MaxShown);
    TakeAppendMember(SingleFactorEntries(w), CombinationEntries(w), MaxShown, HypothermiaRisk);
  }

  /** A shown hypothermia warning means there was no safety, wind or humidity entry:
      combinations come after every single-factor entry, and only three are shown. */
  lemma HypothermiaShownOnlyAlone(w: Weather)
    ensures HypothermiaRisk in Recommendations(w) ==>
      && SafetyEntries(w.condition) == []
      && WindEntry(w.windSpeed).None? && HumidityEntry(w.humidity).None?
      && Recommendations(w) == [TemperatureEntry(w.temperature).value, ConditionEntry(w.condition).value, HypothermiaRisk]
  {
    if HypothermiaRisk !in Recommendations(w) {
      return;
    }
    ShownHypothermiaWasPushed(w);
    TemperatureBandsCover(w.temperature);
    assert ConditionEntry(w.condition).Some?;
    var s := SingleFactorEntries(w);
    assert |s| == 2;
    assert s == [TemperatureEntry(w.temperature).value, ConditionEntry(w.condition).value];
    assert CombinationEntries(w)[0] == HypothermiaRisk;
    assert Entries(w)[..3] == s + [HypothermiaRisk];
  }

  lemma HeavyRainLower()
    ensures Lower("Heavy rain") == "heavy rain"
  {
  }

  /** "Heavy rain" mentions heavy rain. */
  lemma HeavyRainWords()
    ensures Wet("Heavy rain") && Heavy("Heavy rain")
  {
    HeavyRainLower();
    MentionedAt("Heavy rain", "rain", 6);
    MentionedAt("Heavy rain", "heavy", 0);
  }

  /** "Heavy rain" mentions no thunder. */
  lemma HeavyRainNotThundery()
    ensures !Thundery("Heavy rain")
  {
    HeavyRainLower();
    NotMentioned("Heavy rain", "thunder", 't');
    NotMentioned("Heavy rain", "thunderstorm", 't');
  }

  /** "Heavy rain" mentions no fog and no mist. */
  lemma HeavyRainNotFoggy()
    ensures !Foggy("Heavy rain")
  {
    HeavyRainLower();
    NotMentioned("Heavy rain", "fog", 'f');
    NotMentioned("Heavy rain", "mist", 'm');
  }

  /** What "Heavy rain" mentions. */
  lemma HeavyRainMentions()
    ensures Wet("Heavy rain") && Heavy("Heavy rain") && !Thundery("Heavy rain") && !Foggy("Heavy rain")
  {
    HeavyRainWords();
    HeavyRainNotThundery();
    HeavyRainNotFoggy();
  }

  /** Near freezing, in heavy rain without thunder or fog, humid but calm: four entries
      are pushed, and the hypothermia warning, pushed last, is cut by the limit of three.
      "Heavy rain" at 2 °C, humidity 75 and wind 15 is such a case (`HeavyRainMentions`),
      and the accompanying safety check looks for that warning there. */
  lemma HypothermiaCutOff(w: Weather)
    requires Wet(w.condition) && Heavy(w.condition) && !Thundery(w.condition) && !Foggy(w.condition)
    requires 0.0 <= w.temperature < 4.0 && 70.0 < w.humidity <= 85.0 && w.windSpeed <= 20.0
    ensures Entries(w) == [VeryCold, HeavyRainAlert, HighHumidity, HypothermiaRisk]
    ensures Recommendations(w) == [VeryCold, HeavyRainAlert, HighHumidity]
    ensures HypothermiaRisk !in Recommendations(w)
  {
    CutOffSingleFactors(w);
    assert CombinationEntries(w) == [HypothermiaRisk];
    assert Entries(w) == [VeryCold, HeavyRainAlert, HighHumidity] + [HypothermiaRisk];
  }

  /** The three single-factor entries of such weather. */
  lemma CutOffSingleFactors(w: Weather)
    requires Wet(w.condition) && Heavy(w.condition) && !Thundery(w.condition) && !Foggy(w.condition)
    requires 0.0 <= w.temperature < 4.0 && 70.0 < w.humidity <= 85.0 && w.windSpeed <= 20.0
    ensures SingleFactorEntries(w) == [VeryCold, HeavyRainAlert, HighHumidity]
  {
    assert SafetyEntries(w.condition) == [];
    assert OptionSeq(TemperatureEntry(w.temperature)) == [VeryCold];
    assert OptionSeq(ConditionEntry(w.condition)) == [HeavyRainAlert];
    assert OptionSeq(WindEntry(w.windSpeed)) == [];
    assert OptionSeq(HumidityEntry(w.humidity)) == [HighHumidity];
  }

  lemma PartlyCloudyLower()
    ensures Lower("Partly cloudy") == "partly cloudy"
  {
  }

  /** The words "Partly cloudy" mentions. */
  lemma PartlyCloudyWords()
    ensures Mentions("Partly cloudy", "cloudy") && Mentions("Partly cloudy", "partly cloudy")
  {
    PartlyCloudyLower();
    MentionedAt("Partly cloudy", "cloudy", 7);
    MentionedAt("Partly cloudy", "partly cloudy", 0);
  }

  /** "Partly cloudy" mentions no rain and no drizzle. */
  lemma PartlyCloudyNotWet()
    ensures !Wet("Partly cloudy")
  {
    PartlyCloudyLower();
    NotMentioned("Partly cloudy", "rain", 'i');
    NotMentioned("Partly cloudy", "drizzle", 'z');
  }

  /** "Partly cloudy" mentions no snow and no overcast. */
  lemma PartlyCloudyNotSnowy()
    ensures !Mentions("Partly cloudy", "snow") && !Mentions("Partly cloudy", "overcast")
  {
    PartlyCloudyLower();
    NotMentioned("Partly cloudy", "snow", 'n');
    NotMentioned("Partly cloudy", "overcast", 'v');
  }

  /** "Partly cloudy" also mentions "cloudy", but the partly-cloudy test comes first. */
  lemma PartlyCloudyBeforeCloudy()
    ensures Mentions("Partly cloudy", "cloudy")
    ensures ConditionEntry("Partly cloudy") == Some(PartlyCloudy)
  {
    PartlyCloudyWords();
    PartlyCloudyNotWet();
    PartlyCloudyNotSnowy();
    ConditionEntrySkies("Partly cloudy");
  }

  /** The storm warning is never a single-factor entry. */
  lemma StormNotSingleFactor(w: Weather)
    ensures StormConditions !in SingleFactorEntries(w)
  {
    assert StormConditions !in SafetyEntries(w.condition);
    assert StormConditions !in OptionSeq(TemperatureEntry(w.temperature));
    assert StormConditions !in OptionSeq(ConditionEntry(w.condition));
    assert StormConditions !in OptionSeq(WindEntry(w.windSpeed));
    assert StormConditions !in OptionSeq(HumidityEntry(w.humidity));
  }

  /** As written, the storm warning is never shown: its wind above 20 always pushes a wind
      entry, its rain or snow always pushes a condition entry, and there is always a
      temperature entry, so three entries precede it and the cut to three drops it.
      "Moderate snow" at 5 °C with wind 35, the accompanying safety check's storm case,
      shows Cool November Weather, Heavy Snow Warning and Very Windy. */
  lemma StormNeverShown(w: Weather)
    ensures StormConditions !in Recommendations(w)
  {
    FallbackUnreachable(w);
    StormNotSingleFactor(w);
    var s := SingleFactorEntries(w);
    var c := CombinationEntries(w);
    assert Recommendations(w) == Take(s + c, MaxShown);
    if StormEntry(w) != [] {
      StormHasThreeBefore(w);
      TakeWithinFirst(s, c, MaxShown);
      TakeSubset(s, MaxShown);
    } else {
      assert StormConditions !in c;
      TakeSubset(s + c, MaxShown);
    }
  }

  /** Whenever the storm warning is pushed, a temperature, a condition and a wind
      entry precede it. */
  lemma StormHasThreeBefore(w: Weather)
    requires StormEntry(w) != []
    ensures |SingleFactorEntries(w)| >= 3
  {
    TemperatureBandsCover(w.temperature);
    assert Mentions(w.condition, "rain") ==> Wet(w.condition);
    assert ConditionEntry(w.condition).Some?;
    assert WindEntry(w.windSpeed).Some?;
  }

  // ---------------------------------------------------------------------------
  // The engine with its critical warnings first

  /** The critical warnings: the safety ones, then the combinations. */
  function CriticalEntries(w: Weather): (s: seq<Advice>)
    ensures forall a :: a in s ==> a.PriorityOf() == Critical
    ensures |s| <= 4
  {
    assert |HypothermiaEntry(w) + HeatIndexEntry(w)| <= 1;
    var s := SafetyEntries(w.condition) + CombinationEntries(w);
    forall a | a in s ensures a.PriorityOf() == Critical {
      SafetyAndCombinationAreCritical(a);
    }
    s
  }

  /** Every safety and combination warning has Critical priority. */
  lemma SafetyAndCombinationAreCritical(a: Advice)
    requires a.CategoryOf() == Safety || a.CategoryOf() == Combination
    ensures a.PriorityOf() == Critical
  {
  }

  /** The single-factor entries that are not safety warnings, in push order. */
  function OtherEntries(w: Weather): seq<Advice> {
    OptionSeq(TemperatureEntry(w.temperature)) + OptionSeq(ConditionEntry(w.condition))
      + OptionSeq(WindEntry(w.windSpeed)) + OptionSeq(HumidityEntry(w.humidity))
  }

  /** The evidently intended engine, whose comments call the critical warnings the ones
      that always show first: every critical warning is pushed before the other entries,
      then the first three are shown. */
  function RecommendationsCriticalFirst(w: Weather): (r: seq<Advice>)
    ensures 1 <= |r| <= MaxShown
    ensures |CriticalEntries(w)| <= MaxShown ==> forall a :: a in CriticalEntries(w) ==> a in r
    ensures CriticalEntries(w) != [] ==> r[0].PriorityOf() == Critical
  {
    TemperatureBandsCover(w.temperature);
    var e := CriticalEntries(w) + OtherEntries(w);
    assert |e| >= 1;
    assert forall i :: 0 <= i < |CriticalEntries(w)| ==> e[i] == CriticalEntries(w)[i];
    Take(e, MaxShown)
  }

  /** With critical warnings first, the storm warning is shown whenever it applies, unless
      both the thunder and the fog warnings apply: then a hypothermia or heat-index warning
      pushed between them and the storm warning moves it past the third place. */
  lemma StormShownWhenCriticalFirst(w: Weather)
    ensures StormEntry(w) != [] && !(Thundery(w.condition) && Foggy(w.condition)) ==>
      StormConditions in RecommendationsCriticalFirst(w)
  {
    if StormEntry(w) != [] && !(Thundery(w.condition) && Foggy(w.condition)) {
      assert |SafetyEntries(w.condition)| <= 1;
      assert !(w.temperature < 4.0 && w.temperature > 27.0);
      assert |CombinationEntries(w)| <= 2;
      assert StormConditions in CriticalEntries(w);
    }
  }

}

=== FILE: preferences_service.dfy ===
/** The server-side preferences store (src/main/kotlin/service/PreferencesService.kt) over
    an in-memory `preferences` table keyed by email: an upsert that overwrites every
    column, and a keyed read that decodes the stored enum names. */
module PreferencesService {
  import opened Wrappers
  import opened BackendTypes

  /** A row of `preferences`: the enum columns hold text, the coordinates may be NULL. */
  datatype PreferencesRow = PreferencesRow(
    preferredTempUnit: Option<string>, preferredWindUnit: Option<string>, theme: Option<string>,
    lastSearchedCity: Option<string>, lastSearchedLatitude: Option<real>, lastSearchedLongitude: Option<real>,
    updatedAt: int)

  /** The row `savePreferences` writes: the enum names, the nullable fields as they are,
      and the clock reading. What is written is read back, NULL coordinates included. */
  function Encode(prefs: UserPreferences, nowMillis: int): (row: PreferencesRow)
    ensures Decode(row) == prefs
    ensures row.updatedAt == nowMillis
  {
    ValueOfName(prefs.preferredTempUnit, prefs.preferredWindUnit, prefs.theme);
    PreferencesRow(
      Some(prefs.preferredTempUnit.Name()), Some(prefs.preferredWindUnit.Name()), Some(prefs.theme.Name()),
      prefs.lastSearchedCity, prefs.lastSearchedLatitude, prefs.lastSearchedLongitude, nowMillis)
  }

  /** `valueOf` of a column, or the fallback where it throws (NULL or an unknown name). */
  function TempUnitOr(column: Option<string>): TemperatureUnit {
    if column.Some? then TemperatureUnitValueOf(column.value).GetOr(Celsius) else Celsius
  }

  function WindUnitOr(column: Option<string>): WindSpeedUnit {
    if column.Some? then WindSpeedUnitValueOf(column.value).GetOr(KilometersPerHour) else KilometersPerHour
  }

  function ThemeOr(column: Option<string>): ThemeMode {
    if column.Some? then ThemeModeValueOf(column.value).GetOr(AutoMode) else AutoMode
  }

  /** The preferences `getPreferences` builds from a row. Unrecognised or NULL enum
      columns read back as Celsius, km/h and auto. */
  function Decode(row: PreferencesRow): (prefs: UserPreferences)
    ensures row.preferredTempUnit.None? || TemperatureUnitValueOf(row.preferredTempUnit.value).None?
      ==> prefs.preferredTempUnit == Celsius
    ensures row.preferredWindUnit.None? || WindSpeedUnitValueOf(row.preferredWindUnit.value).None?
      ==> prefs.preferredWindUnit == KilometersPerHour
    ensures row.theme.None? || ThemeModeValueOf(row.theme.value).None? ==> prefs.theme == AutoMode
  {
    UserPreferences(
      TempUnitOr(row.preferredTempUnit), WindUnitOr(row.preferredWindUnit), ThemeOr(row.theme),
      row.lastSearchedCity, row.lastSearchedLatitude, row.lastSearchedLongitude)
  }

  class PreferencesTable {
    /** One row per email: the primary key. */
    var rows: map<string, PreferencesRow>

    constructor()
      ensures rows == map[]
    {
      rows := map[];
    }

    /** `getPreferences`: the decoded row, or None without one. */
    function GetPreferences(userEmail: string): (r: Option<UserPreferences>)
      reads this
      ensures r.None? <==> userEmail !in rows
      ensures r.Some? ==> r.value == Decode(rows[userEmail])
    {
      if userEmail in rows then Some(Decode(rows[userEmail])) else None
    }

    /** `savePreferences`: insert, or on a conflicting email overwrite every column. */
    method SavePreferences(userEmail: string, prefs: UserPreferences, nowMillis: int)
      modifies this
      ensures rows == old(rows)[userEmail := Encode(prefs, nowMillis)]
      ensures GetPreferences(userEmail) == Some(prefs)
      ensures forall e :: e != userEmail ==> GetPreferences(e) == old(GetPreferences(e))
    {
      rows := rows[userEmail := Encode(prefs, nowMillis)];
    }
  }

  /** Two saves for one email: the last one wins, whatever the first wrote. */
  method LastWriteWins(table: PreferencesTable, userEmail: string, first: UserPreferences, second: UserPreferences,
                       firstMillis: int, secondMillis: int)
    modifies table
    ensures table.GetPreferences(userEmail) == Some(second)
    ensures table.rows == old(table.rows)[userEmail := Encode(second, secondMillis)]
  {
    table.SavePreferences(userEmail, first, firstMillis);
    table.SavePreferences(userEmail, second, secondMillis);
  }
}

=== FILE: rating_model.dfy ===
/** The forecast-rating record and its map form (src/main/kotlin/model/Rating.kt). */
module RatingModel {
  import opened Wrappers
  import opened BackendTypes

  /** A rating; `date` is an ISO date and `timestamp` epoch milliseconds. */
  datatype ForecastRating = ForecastRating(
    id: Option<string>, userId: string, city: string, rating: KotlinInt, date: string, timestamp: int)

  const RatingKeys: set<string> := {"userId", "city", "rating", "date", "timestamp"}

  /** `toMap`: every field but the id. */
  function ToMap(r: ForecastRating): (m: ValueMap)
    ensures m.Keys == RatingKeys && "id" !in m
  {
    map["userId" := Text(r.userId), "city" := Text(r.city), "rating" := Whole(r.rating),
        "date" := Text(r.date), "timestamp" := Whole(r.timestamp)]
  }

  datatype CastFailure = CastFailure(key: string)

  /** `fromMap`: the user id and city must be strings and the rating a number, read
      through `toInt`; an absent or non-string date is today and an absent or non-number
      timestamp the current time. The id is not read. */
  function FromMap(m: ValueMap, today: string, nowMillis: int): (r: Result<ForecastRating, CastFailure>)
    ensures r.Ok? <==> Get(m, "userId").Text? && Get(m, "city").Text? && IsNumber(Get(m, "rating"))
    ensures r.Ok? ==> r.value.id.None? && r.value.userId == Get(m, "userId").s && r.value.city == Get(m, "city").s
    ensures r.Ok? ==> r.value.rating == ToInt(Get(m, "rating"))
    ensures r.Ok? ==> r.value.date == (if Get(m, "date").Text? then Get(m, "date").s else today)
    ensures r.Ok? ==>
      r.value.timestamp == (if IsNumber(Get(m, "timestamp")) then ToLong(Get(m, "timestamp")) else nowMillis)
  {
    var userId := Get(m, "userId");
    var city := Get(m, "city");
    var rating := Get(m, "rating");
    if !userId.Text? then Err(CastFailure("userId"))
    else if !city.Text? then Err(CastFailure("city"))
    else if !IsNumber(rating) then Err(CastFailure("rating"))
    else
      var date := Get(m, "date");
      var timestamp := Get(m, "timestamp");
      Ok(ForecastRating(None, userId.s, city.s, ToInt(rating),
                        if date.Text? then date.s else today,
                        if IsNumber(timestamp) then ToLong(timestamp) else nowMillis))
  }

  /** A rating survives the trip through its map form except for its id, which comes
      back null. */
  lemma RoundTrip(r: ForecastRating, today: string, nowMillis: int)
    ensures FromMap(ToMap(r), today, nowMillis) == Ok(r.(id := None))
  {
  }

  /** The rating is not range-checked: a fractional rating is truncated toward zero and
      any whole `Int` is kept, so 4.7 reads as 4 and 0 or 9 are accepted. */
  lemma RatingNotValidated(userId: string, city: string, today: string, nowMillis: int)
    ensures var m := map["userId" := Text(userId), "city" := Text(city), "rating" := Decimal(4.7)];
      FromMap(m, today, nowMillis) == Ok(ForecastRating(None, userId, city, 4, today, nowMillis))
    ensures var m := map["userId" := Text(userId), "city" := Text(city), "rating" := Whole(9)];
      FromMap(m, today, nowMillis).Ok? && FromMap(m, today, nowMillis).value.rating == 9
  {
    var m := map["userId" := Text(userId), "city" := Text(city), "rating" := Decimal(4.7)];
    assert "date" !in m && "timestamp" !in m;
  }
}

=== FILE: rating_service.dfy ===
/** The forecast-rating store (src/main/kotlin/service/RatingService.kt) over an in-memory
    `ratings` table: inserts append a row, and the average is `AVG(rating)` over the rows
    of exactly one city. */
module RatingService {
  import opened Wrappers

  /** The rating request: the date may be omitted. */
  datatype RatingRequest = RatingRequest(city: string, rating: int, date: Option<string>)

  /** A row of `ratings`. */
  datatype RatingRow = RatingRow(city: string, rating: int, userEmail: string, date: string, createdAt: int)

  /** The sum of the ratings of `city`'s rows. */
  function RatingSum(rows: seq<RatingRow>, city: string): int {
    if rows == [] then 0
    else RatingSum(rows[..|rows| - 1], city) + (if rows[|rows| - 1].city == city then rows[|rows| - 1].rating else 0)
  }

  /** The number of `city`'s rows. */
  function RatingCount(rows: seq<RatingRow>, city: string): (n: nat)
    ensures n <= |rows|
  {
    if rows == [] then 0
    else RatingCount(rows[..|rows| - 1], city) + (if rows[|rows| - 1].city == city then 1 else 0)
  }

  /** `AVG(rating) ... WHERE city = ?`: null when no row matches. */
  function Average(rows: seq<RatingRow>, city: string): Option<real> {
    var n := RatingCount(rows, city);
    if n == 0 then None else Some(RatingSum(rows, city) as real / n as real)
  }

  /** There is an average iff some row has exactly that city. */
  lemma {:induction false} AverageExistsIff(rows: seq<RatingRow>, city: string)
    ensures Average(rows, city).Some? <==> exists i :: 0 <= i < |rows| && rows[i].city == city
  {
    if rows != [] {
      var init := rows[..|rows| - 1];
      AverageExistsIff(init, city);
      if exists i :: 0 <= i < |init| && init[i].city == city {
        var i :| 0 <= i < |init| && init[i].city == city;
        assert rows[i] == init[i];
      }
      if exists i :: 0 <= i < |rows| && rows[i].city == city {
        var i :| 0 <= i < |rows| && rows[i].city == city;
        if i < |init| { assert init[i] == rows[i]; }
      }
    }
  }

  /** When every rating of the city lies in [lo, hi], its sum lies between lo and hi
      times its count. */
  lemma {:induction false} SumBounds(rows: seq<RatingRow>, city: string, lo: int, hi: int)
    requires forall i :: 0 <= i < |rows| && rows[i].city == city ==> lo <= rows[i].rating <= hi
    ensures lo * RatingCount(rows, city) <= RatingSum(rows, city) <= hi * RatingCount(rows, city)
  {
    if rows != [] {
      var init := rows[..|rows| - 1];
      var last := rows[|rows| - 1];
      assert forall i :: 0 <= i < |init| ==> init[i] == rows[i];
      SumBounds(init, city, lo, hi);
      var n := RatingCount(init, city);
      if last.city == city {
        assert lo * (n + 1) == lo * n + lo && hi * (n + 1) == hi * n + hi;
      }
    }
  }

  lemma IntProductAsReal(a: int, b: int)
    ensures (a * b) as real == a as real * b as real
  {
  }

  /** Dividing bounds on a sum by a positive count. */
  lemma DivideBounds(s: real, n: real, lo: real, hi: real)
    requires n > 0.0 && lo * n <= s <= hi * n
    ensures lo <= s / n <= hi
  {
    assert s / n * n == s;
  }

  lemma RatioBounds(s: int, n: int, lo: int, hi: int)
    requires n > 0 && lo * n <= s <= hi * n
    ensures lo as real <= s as real / n as real <= hi as real
  {
    IntProductAsReal(lo, n);
    IntProductAsReal(hi, n);
    DivideBounds(s as real, n as real, lo as real, hi as real);
  }

  /** When every rating of the city lies in [lo, hi], so does its average. */
  lemma AverageBounds(rows: seq<RatingRow>, city: string, lo: int, hi: int)
    requires forall i :: 0 <= i < |rows| && rows[i].city == city ==> lo <= rows[i].rating <= hi
    ensures Average(rows, city).Some? ==> lo as real <= Average(rows, city).value <= hi as real
  {
    SumBounds(rows, city, lo, hi);
    var n := RatingCount(rows, city);
    if n > 0 {
      RatioBounds(RatingSum(rows, city), n, lo, hi);
    }
  }

  /** A row for another city leaves a city's average alone; a row for the city adds its
      rating to the sum and one to the count. */
  lemma AppendRow(rows: seq<RatingRow>, row: RatingRow, city: string)
    ensures row.city != city ==> Average(rows + [row], city) == Average(rows, city)
    ensures row.city == city ==>
      RatingSum(rows + [row], city) == RatingSum(rows, city) + row.rating
      && RatingCount(rows + [row], city) == RatingCount(rows, city) + 1
  {
    assert (rows + [row])[..|rows + [row]| - 1] == rows;
  }

  /** The first rating of a city is its average. */
  lemma FirstRatingIsAverage(rows: seq<RatingRow>, row: RatingRow)
    requires Average(rows, row.city).None?
    ensures Average(rows + [row], row.city) == Some(row.rating as real)
  {
    AppendRow(rows, row, row.city);
    SumZero(rows, row.city);
    assert RatingCount(rows + [row], row.city) == 1;
    assert RatingSum(rows + [row], row.city) == row.rating;
  }

  /** A city without rows sums to zero. */
  lemma {:induction false} SumZero(rows: seq<RatingRow>, city: string)
    requires RatingCount(rows, city) == 0
    ensures RatingSum(rows, city) == 0
  {
    if rows != [] {
      SumZero(rows[..|rows| - 1], city);
    }
  }

  class RatingsTable {
    var rows: seq<RatingRow>

    constructor()
      ensures rows == []
    {
      rows := [];
    }

    /** `saveRating`: one row appended, the date defaulting to `today` and the creation
        time the clock reading `nowMillis`. No range check is made on the rating. */
    method SaveRating(userEmail: string, req: RatingRequest, today: string, nowMillis: int)
      modifies this
      ensures rows == old(rows) + [RatingRow(req.city, req.rating, userEmail, req.date.GetOr(today), nowMillis)]
      ensures forall c :: c != req.city ==> Average(rows, c) == Average(old(rows), c)
    {
      var row := RatingRow(req.city, req.rating, userEmail, req.date.GetOr(today), nowMillis);
      forall c | c != req.city ensures Average(rows + [row], c) == Average(rows, c) {
        AppendRow(rows, row, c);
      }
      rows := rows + [row];
    }

    /** `getAverageRating`: one pass over the table. */
    method GetAverageRating(city: string) returns (avg: Option<real>)
      ensures avg == Average(rows, city)
    {
      var sum := 0;
      var count := 0;
      var i := 0;
      while i < |rows|
        invariant 0 <= i <= |rows|
        invariant sum == RatingSum(rows[..i], city)
        invariant count == RatingCount(rows[..i], city)
      {
        assert rows[..i + 1][..i] == rows[..i];
        if rows[i].city == city {
          sum := sum + rows[i].rating;
          count := count + 1;
        }
        i := i + 1;
      }
      assert rows[..i] == rows;
      if count == 0 {
        return None;
      }
      return Some(sum as real / count as real);
    }
  }
}

=== FILE: rating_widget.dfy ===
/** The forecast-rating widget (src/components/rating.tsx): four state fields driven by
    the star buttons, their hover handlers and the submit button. Events reach a handler
    only when the control is rendered and enabled: nothing but the thank-you text is
    rendered once submitted, the stars are disabled while submitting, and the submit
    button while submitting or while no star is chosen. */
module RatingWidget {
  import opened Wrappers

  /** The number of stars. */
  const Stars: int := 5

  /** Star `star` is filled when the hovered or the chosen star is at or beyond it. */
  predicate StarHighlighted(hoverRating: int, rating: int, star: int) {
    hoverRating >= star || rating >= star
  }

  /** The filled stars are always the first `max(hover, rating)` ones. */
  lemma HighlightIsPrefix(hoverRating: int, rating: int, star: int)
    ensures StarHighlighted(hoverRating, rating, star) <==> star <= (if hoverRating >= rating then hoverRating else rating)
  {
  }

  /** What the widget renders. */
  datatype View = ThankYou | Form(highlighted: seq<bool>, submitEnabled: bool, spinner: bool)

  class Rating {
    const city: string
    var rating: int
    var hoverRating: int
    var isSubmitting: bool
    var submitted: bool

    /** The state every handler keeps: ratings in 0..5, a rating is chosen while
        submitting and once submitted, and a submitted widget is no longer submitting. */
    predicate Valid()
      reads this
    {
      0 <= rating <= Stars && 0 <= hoverRating <= Stars
      && (isSubmitting ==> rating != 0)
      && (submitted ==> rating != 0 && !isSubmitting)
    }

    constructor(city: string)
      ensures this.city == city
      ensures rating == 0 && hoverRating == 0 && !isSubmitting && !submitted
      ensures Valid()
    {
      this.city := city;
      rating := 0;
      hoverRating := 0;
      isSubmitting := false;
      submitted := false;
    }

    /** The rendered view. */
    function Render(): (v: View)
      reads this
      ensures submitted <==> v == ThankYou
      ensures v.Form? ==> (|v.highlighted| == Stars
        && (forall k :: 1 <= k <= Stars ==> v.highlighted[k - 1] == StarHighlighted(hoverRating, rating, k))
        && (v.submitEnabled <==> !isSubmitting && rating != 0)
        && (v.spinner <==> isSubmitting))
    {
      if submitted then ThankYou
      else
        var hover, chosen := hoverRating, rating;
        Form(seq(Stars, i => StarHighlighted(hover, chosen, i + 1)), !(isSubmitting || rating == 0), isSubmitting)
    }

    /** A click on star `star` (one of 1..5): chosen, unless the stars are not there or disabled. */
    method ClickStar(star: int)
      requires 1 <= star <= Stars
      modifies this
      ensures if old(submitted) || old(isSubmitting) then rating == old(rating) else rating == star
      ensures hoverRating == old(hoverRating) && isSubmitting == old(isSubmitting) && submitted == old(submitted)
      ensures old(Valid()) ==> Valid()
    {
      if !submitted && !isSubmitting {
        rating := star;
      }
    }

    /** The mouse enters star `star`. */
    method MouseEnter(star: int)
      requires 1 <= star <= Stars
      modifies this
      ensures hoverRating == (if old(submitted) then old(hoverRating) else star)
      ensures rating == old(rating) && isSubmitting == old(isSubmitting) && submitted == old(submitted)
      ensures old(Valid()) ==> Valid()
    {
      if !submitted {
        hoverRating := star;
      }
    }

    /** The mouse leaves a star. */
    method MouseLeave()
      modifies this
      ensures hoverRating == (if old(submitted) then old(hoverRating) else 0)
      ensures rating == old(rating) && isSubmitting == old(isSubmitting) && submitted == old(submitted)
      ensures old(Valid()) ==> Valid()
    {
      if !submitted {
        hoverRating := 0;
      }
    }

    /** The first half of `handleRate`, up to the `await`: with a star chosen and the
        button enabled, the widget starts submitting and sends the rating for its city. */
    method HandleRate() returns (sent: Option<int>)
      modifies this
      ensures var pressed := !old(submitted) && !old(isSubmitting) && old(rating) != 0;
        (pressed ==> sent == Some(old(rating)) && isSubmitting)
        && (!pressed ==> sent == None && isSubmitting == old(isSubmitting))
      ensures rating == old(rating) && hoverRating == old(hoverRating) && submitted == old(submitted)
      ensures old(Valid()) ==> Valid()
    {
      if submitted || isSubmitting {
        return None;
      }
      if rating == 0 {
        return None;
      }
      isSubmitting := true;
      return Some(rating);
    }

    /** The rest of `handleRate`, once the rating was sent: submitting ends and the widget
        is submitted. */
    method RatingSent()
      modifies this
      ensures old(isSubmitting) ==> !isSubmitting && submitted
      ensures !old(isSubmitting) ==> isSubmitting == old(isSubmitting) && submitted == old(submitted)
      ensures rating == old(rating) && hoverRating == old(hoverRating)
      ensures old(Valid()) ==> Valid()
    {
      if isSubmitting {
        isSubmitting := false;
        submitted := true;
      }
    }
  }

  /** Submitting is terminal: once submitted, no handler changes anything and only the
      thank-you text is rendered. */
  method SubmittedIsTerminal(widget: Rating, star: int)
    requires 1 <= star <= Stars
    requires widget.Valid() && widget.submitted
    modifies widget
    ensures widget.rating == old(widget.rating) && widget.hoverRating == old(widget.hoverRating)
    ensures widget.submitted && !widget.isSubmitting && widget.Render() == ThankYou
  {
    widget.ClickStar(star);
    widget.MouseEnter(star);
    widget.MouseLeave();
    var sent := widget.HandleRate();
    assert sent.None?;
    widget.RatingSent();
  }
}

=== FILE: real_weather.dfy ===
/** The OpenWeather-to-WMO code translation of src/lib/real-weather-service.ts
    (`mapOpenWeatherCodeToWMO`). The code is a JavaScript number, so it is a real here. */
module OpenWeatherCodes {
  import MockWeather

  /** `mapOpenWeatherCodeToWMO` as written: range tests in order, with the rain and
      snow sub-cases tested from the top. */
  function ToWmo(owCode: real): (code: int)
    ensures code in MockWeather.WeatherCodes
  {
    if owCode >= 200.0 && owCode < 300.0 then 95
    else if owCode >= 300.0 && owCode < 400.0 then
      if owCode <= 302.0 then 51
      else if owCode <= 311.0 then 53
      else 55
    else if owCode >= 500.0 && owCode < 600.0 then
      if owCode == 500.0 then 61
      else if owCode == 501.0 || owCode == 502.0 then 63
      else if owCode >= 503.0 then 65
      else if owCode == 511.0 then 67
      else 80
    else if owCode >= 600.0 && owCode < 700.0 then
      if owCode == 600.0 then 71
      else if owCode == 601.0 then 73
      else if owCode >= 602.0 then 75
      else if owCode == 611.0 || owCode == 612.0 then 77
      else 85
    else if owCode >= 700.0 && owCode < 800.0 then 45
    else if owCode == 800.0 then 0
    else if owCode == 801.0 then 1
    else if owCode == 802.0 then 2
    else if owCode >= 803.0 then 3
    else 0
  }

  /** The translation of whole-number codes, range by range. */
  lemma WholeCodeRanges(n: int)
    ensures 200 <= n < 300 ==> ToWmo(n as real) == 95
    ensures 300 <= n <= 302 ==> ToWmo(n as real) == 51
    ensures 303 <= n <= 311 ==> ToWmo(n as real) == 53
    ensures 312 <= n < 400 ==> ToWmo(n as real) == 55
    ensures n == 500 ==> ToWmo(n as real) == 61
    ensures 501 <= n <= 502 ==> ToWmo(n as real) == 63
    ensures 503 <= n < 600 ==> ToWmo(n as real) == 65
    ensures n == 600 ==> ToWmo(n as real) == 71
    ensures n == 601 ==> ToWmo(n as real) == 73
    ensures 602 <= n < 700 ==> ToWmo(n as real) == 75
    ensures 700 <= n < 800 ==> ToWmo(n as real) == 45
    ensures n == 800 ==> ToWmo(n as real) == 0
    ensures n == 801 ==> ToWmo(n as real) == 1
    ensures n == 802 ==> ToWmo(n as real) == 2
    ensures n >= 803 ==> ToWmo(n as real) == 3
    ensures n < 200 || 400 <= n < 500 ==> ToWmo(n as real) == 0
  {
  }

  /** For whole-number codes the 67, 77, 80 and 85 branches are never taken. */
  lemma UnreachableBranches(n: int)
    ensures ToWmo(n as real) !in {67, 77, 80, 85}
  {
    WholeCodeRanges(n);
  }

  /** Only a fractional code inside the rain or snow range reaches the last branch. */
  lemma FractionalCodesReachShowers()
    ensures ToWmo(500.5) == 80 && ToWmo(600.5) == 85
  {
  }

  /** As written, freezing rain (511) and sleet (611, 612) are caught by the
      `>= 503` and `>= 602` tests first. */
  lemma FreezingCodesShadowed()
    ensures ToWmo(511.0) == 65
    ensures ToWmo(611.0) == 75 && ToWmo(612.0) == 75
  {
  }

  /** The translation as its branches intend: the `>= 503` and `>= 602` tests meant
      for the heaviest codes alone (503 and 504, 602), so that freezing rain (511) gives
      67, sleet (611, 612) gives 77, and the shower codes left over (520 to 531, 613 to
      622) give the shower codes 80 and 85. Outside the rain and snow ranges nothing
      changes. */
  function ToWmoIntended(owCode: real): (code: int)
    ensures code in MockWeather.WeatherCodes
    ensures !(500.0 <= owCode < 700.0) ==> code == ToWmo(owCode)
    ensures owCode in {500.0, 501.0, 502.0, 503.0, 504.0, 600.0, 601.0, 602.0} ==> code == ToWmo(owCode)
    ensures owCode == 511.0 ==> code == 67
    ensures owCode == 611.0 || owCode == 612.0 ==> code == 77
    ensures owCode in {520.0, 521.0, 522.0, 531.0} ==> code == 80
    ensures owCode in {613.0, 615.0, 616.0, 620.0, 621.0, 622.0} ==> code == 85
  {
    if owCode >= 500.0 && owCode < 600.0 then
      if owCode == 500.0 then 61
      else if owCode == 501.0 || owCode == 502.0 then 63
      else if owCode == 503.0 || owCode == 504.0 then 65
      else if owCode == 511.0 then 67
      else 80
    else if owCode >= 600.0 && owCode < 700.0 then
      if owCode == 600.0 then 71
      else if owCode == 601.0 then 73
      else if owCode == 602.0 then 75
      else if owCode == 611.0 || owCode == 612.0 then 77
      else 85
    else ToWmo(owCode)
  }

  /** The corrected translation sends every whole-number rain code to a rain or rain-shower
      code and every whole-number snow code to a snow, sleet or snow-shower code of WMO
      table 4677, and each of its five rain and five snow results is reached by some
      whole code, the freezing and shower ones included. */
  lemma IntendedFamilies(n: int)
    ensures 500 <= n < 600 ==> ToWmoIntended(n as real) in {61, 63, 65, 67, 80}
    ensures 600 <= n < 700 ==> ToWmoIntended(n as real) in {71, 73, 75, 77, 85}
    ensures n == 511 || n == 520 || n == 611 || n == 620 ==> ToWmoIntended(n as real) != ToWmo(n as real)
  {
    WholeCodeRanges(n);
  }
}

=== FILE: theme_provider.dfy ===
/** The theme provider (src/components/providers/ThemeProvider.tsx): a chosen mode
    (light, dark or auto), the applied theme, and the stored mode, updated by the mount
    effect and by the effect that follows every mode change. The clock hour is a parameter. */
module ThemeProvider {
  import opened Wrappers

  datatype ThemeMode = Light | Dark | Auto {
    function Name(): string {
      match this
      case Light => "light"
      case Dark => "dark"
      case Auto => "auto"
    }
  }

  /** `getThemeFromTime`: light from 7:00 to 18:59, dark otherwise. */
  function ThemeFromTime(hour: int): (theme: string)
    ensures theme == "light" <==> 7 <= hour < 19
    ensures theme == "light" || theme == "dark"
  {
    if hour >= 7 && hour < 19 then "light" else "dark"
  }

  /** The mode a stored text names, if it names one. */
  function ParseMode(saved: string): (m: Option<ThemeMode>)
    ensures m.Some? ==> m.value.Name() == saved
    ensures m.None? ==> saved != "light" && saved != "dark" && saved != "auto"
  {
    if saved == "light" then Some(Light)
    else if saved == "dark" then Some(Dark)
    else if saved == "auto" then Some(Auto)
    else None
  }

  /** Each mode is read back from its name. */
  lemma ParseModeName(m: ThemeMode)
    ensures ParseMode(m.Name()) == Some(m)
  {
  }

  /** The theme a mode resolves to at `hour`. */
  function Resolve(mode: ThemeMode, hour: int): (theme: string)
    ensures mode != Auto ==> theme == mode.Name()
    ensures mode == Auto ==> theme == ThemeFromTime(hour)
    ensures theme == "light" || theme == "dark"
  {
    if mode == Auto then ThemeFromTime(hour) else mode.Name()
  }

  class ThemeState {
    var mode: ThemeMode
    /** The applied theme. The mount effect may copy an unrecognised stored text here. */
    var theme: string
    /** The "theme-mode" entry of local storage. */
    var stored: Option<string>

    /** Dark mode and dark theme until the effects run; `saved` is what storage holds. */
    constructor(saved: Option<string>)
      ensures mode == Dark && theme == "dark" && stored == saved
    {
      mode := Dark;
      theme := "dark";
      stored := saved;
    }

    /** The mount effect: a stored "light", "dark" or "auto" becomes the mode; the theme is
        the time-based one for "auto" or nothing stored, and otherwise the stored text itself. */
    method LoadSaved(hour: int)
      modifies this
      ensures stored == old(stored)
      ensures old(stored).Some? && ParseMode(old(stored).value).Some? ==> mode == ParseMode(old(stored).value).value
      ensures !(old(stored).Some? && ParseMode(old(stored).value).Some?) ==> mode == old(mode)
      ensures old(stored) == Some("auto") || old(stored) == None || old(stored) == Some("") ==> theme == ThemeFromTime(hour)
      ensures old(stored).Some? && old(stored).value != "auto" && old(stored).value != "" ==> theme == old(stored).value
    {
      var saved := stored;
      if saved.Some? {
        var parsed := ParseMode(saved.value);
        if parsed.Some? {
          mode := parsed.value;
        }
      }
      if saved == Some("auto") || saved.None? || saved == Some("") {
        theme := ThemeFromTime(hour);
      } else {
        theme := saved.value;
      }
    }

    /** The mode effect, run with the mode `rendered` of the render that scheduled it:
        that mode is stored and the theme resolved from it. */
    method ModeEffect(rendered: ThemeMode, hour: int)
      modifies this
      ensures mode == old(mode) && stored == Some(rendered.Name()) && theme == Resolve(rendered, hour)
    {
      stored := Some(rendered.Name());
      if rendered == Auto {
        theme := ThemeFromTime(hour);
      } else {
        theme := rendered.Name();
      }
    }

    /** `setMode` followed by the mode effect: the mode is stored and the theme resolved. */
    method SetMode(newMode: ThemeMode, hour: int)
      modifies this
      ensures mode == newMode && stored == Some(newMode.Name()) && theme == Resolve(newMode, hour)
    {
      mode := newMode;
      ModeEffect(mode, hour);
    }

    /** The minute timer that runs in auto mode: the theme follows the clock. */
    method Tick(hour: int)
      modifies this
      ensures mode == old(mode) && stored == old(stored)
      ensures old(mode) == Auto ==> theme == ThemeFromTime(hour)
      ensures old(mode) != Auto ==> theme == old(theme)
    {
      if mode == Auto {
        theme := ThemeFromTime(hour);
      }
    }
  }

  /** The mode a stored text selects at mount: its own mode, or dark, the initial one. */
  function MountedMode(saved: Option<string>): (m: ThemeMode)
    ensures saved.Some? && ParseMode(saved.value).Some? ==> m == ParseMode(saved.value).value
    ensures !(saved.Some? && ParseMode(saved.value).Some?) ==> m == Dark
  {
    if saved.Some? && ParseMode(saved.value).Some? then ParseMode(saved.value).value else Dark
  }

  /** Mounting the provider. The first commit runs the load effect and then the mode
      effect, both with the first render's mode, dark: the mode effect stores "dark" and
      applies the dark theme after the load effect has applied its own. If the load effect
      changed the mode, the next render runs the mode effect again with the new mode.
      So the app settles on a consistent state, and with nothing stored, an empty text or
      an unknown one, it is dark whatever the hour: the load effect's time-based theme
      for a missing entry never survives the mount. */
  method Mount(saved: Option<string>, hour: int) returns (provider: ThemeState)
    ensures provider.mode == MountedMode(saved)
    ensures provider.stored == Some(provider.mode.Name())
    ensures provider.theme == Resolve(provider.mode, hour)
    ensures !(saved.Some? && ParseMode(saved.value).Some?) ==>
      provider.mode == Dark && provider.theme == "dark" && provider.stored == Some("dark")
  {
    provider := new ThemeState(saved);
    var rendered := provider.mode;
    provider.LoadSaved(hour);
    provider.ModeEffect(rendered, hour);
    if provider.mode != rendered {
      provider.ModeEffect(provider.mode, hour);
    }
  }

  /** A chosen mode survives a reload: a fresh provider over what `SetMode` stored
      comes back in the same mode, with that mode's theme at the new hour. */
  method ReloadAfterSetMode(m: ThemeMode, hour: int, laterHour: int) returns (reloaded: ThemeState)
    ensures reloaded.mode == m && reloaded.theme == Resolve(m, laterHour)
  {
    var first := new ThemeState(None);
    first.SetMode(m, hour);
    ParseModeName(m);
    reloaded := Mount(first.stored, laterHour);
  }
}

=== FILE: theme_toggle.dfy ===
/** The theme toggle button (src/components/theme-toggle.tsx): one click moves between
    light and dark; the icon and tooltip show whether the mode is light. */
module ThemeToggle {
  import opened Wrappers
  import opened ThemeProvider

  datatype Icon = Sun | Moon

  /** The mode a click selects: light becomes dark, dark and auto become light. */
  function CycleMode(mode: ThemeMode): (next: ThemeMode)
    ensures next != Auto
    ensures next == Dark <==> mode == Light
  {
    if mode == Light then Dark else Light
  }

  /** Two clicks from light or dark return to the start; from auto they end in dark. */
  lemma CycleTwice(mode: ThemeMode)
    ensures mode != Auto ==> CycleMode(CycleMode(mode)) == mode
    ensures mode == Auto ==> CycleMode(CycleMode(mode)) == Dark
  {
  }

  /** The icon: the sun exactly in light mode. */
  function IconFor(mode: ThemeMode): (icon: Icon)
    ensures icon == Sun <==> mode == Light
  {
    if mode == Light then Sun else Moon
  }

  /** `getLabel`: "Light mode" exactly in light mode, "Dark mode" in dark and auto. */
  function Label(mode: ThemeMode): (title: string)
    ensures title == "Light mode" <==> mode == Light
    ensures title == "Dark mode" <==> mode != Light
  {
    if mode == Light then "Light mode" else "Dark mode"
  }

  /** `cycleMode` on the provider. */
  method Click(state: ThemeState, hour: int)
    modifies state
    ensures state.mode == CycleMode(old(state.mode))
    ensures state.theme == state.mode.Name() && state.stored == Some(state.theme)
  {
    if state.mode == Light {
      state.SetMode(Dark, hour);
    } else {
      state.SetMode(Light, hour);
    }
  }
}

=== FILE: unit_conversions.dfy ===
/** Temperature and wind-speed conversion for display (src/lib/unit-conversions.ts).
    Values are exact reals; `Math.round` is `Numeric.Round`. */
module UnitConversions {
  import opened Numeric

  datatype TemperatureUnit = Celsius | Fahrenheit
  datatype WindSpeedUnit = Kmh | Mph | Ms

  /** Kilometres per hour in one mile per hour. */
  const KmPerMile: real := 1.60934
  /** Kilometres per hour in one metre per second. */
  const KmhPerMs: real := 3.6

  /** The exact physical conversion, the reference the rounded one is measured against. */
  function TemperatureExact(value: real, from: TemperatureUnit, to: TemperatureUnit): real {
    match (from, to)
    case (Celsius, Fahrenheit) => value * 9.0 / 5.0 + 32.0
    case (Fahrenheit, Celsius) => (value - 32.0) * 5.0 / 9.0
    case _ => value
  }

  /** `convertTemperature`: the same unit rounds the value; otherwise C->F or F->C, rounded.
      The final `Math.round(value)` of the source is reached by no pair of units. */
  function ConvertTemperature(value: real, from: TemperatureUnit, to: TemperatureUnit): (r: int)
    ensures r as real - 0.5 <= TemperatureExact(value, from, to) < r as real + 0.5
  {
    if from == to then Round(value)
    else if from == Celsius && to == Fahrenheit then Round(value * 9.0 / 5.0 + 32.0)
    else if from == Fahrenheit && to == Celsius then Round((value - 32.0) * 5.0 / 9.0)
    else Round(value)
  }

  /** Converting a whole number to its own unit gives it back. */
  lemma TemperatureSameUnitIdentity(n: int, u: TemperatureUnit)
    ensures ConvertTemperature(n as real, u, u) == n
  {
    RoundOfInt(n);
  }

  /** Whole Celsius degrees survive the trip to Fahrenheit and back exactly. */
  lemma CelsiusRoundTrip(c: int)
    ensures ConvertTemperature(ConvertTemperature(c as real, Celsius, Fahrenheit) as real, Fahrenheit, Celsius) == c
  {
    var f := ConvertTemperature(c as real, Celsius, Fahrenheit);
    var x := c as real * 9.0 / 5.0 + 32.0;
    assert f as real - 0.5 <= x < f as real + 0.5;
    var y := (f as real - 32.0) * 5.0 / 9.0;
    assert y - c as real == (f as real - x) * 5.0 / 9.0;
    RoundUnique(y, c);
  }

  /** Whole Fahrenheit degrees come back from Celsius within one degree ... */
  lemma FahrenheitRoundTripWithinOne(f: int)
    ensures var back := ConvertTemperature(ConvertTemperature(f as real, Fahrenheit, Celsius) as real, Celsius, Fahrenheit);
            f - 1 <= back <= f + 1
  {
    var c := ConvertTemperature(f as real, Fahrenheit, Celsius);
    var x := (f as real - 32.0) * 5.0 / 9.0;
    assert c as real - 0.5 <= x < c as real + 0.5;
    var y := c as real * 9.0 / 5.0 + 32.0;
    assert y - f as real == (c as real - x) * 9.0 / 5.0;
    var back := ConvertTemperature(c as real, Celsius, Fahrenheit);
    assert back as real - 0.5 <= y < back as real + 0.5;
  }

  /** ... but not exactly: 33 F is 1 C, which is 34 F. */
  lemma FahrenheitRoundTripNotExact()
    ensures ConvertTemperature(33.0, Fahrenheit, Celsius) == 1
    ensures ConvertTemperature(1.0, Celsius, Fahrenheit) == 34
  {
    RoundUnique(5.0 / 9.0, 1);
    RoundUnique(33.8, 34);
  }

  /** The speed in km/h of `value` given in unit `u`. */
  function ToKmh(value: real, u: WindSpeedUnit): real {
    match u
    case Kmh => value
    case Mph => value * KmPerMile
    case Ms => value * KmhPerMs
  }

  /** The exact value in unit `u` of a speed given in km/h. */
  function FromKmh(kmh: real, u: WindSpeedUnit): real {
    match u
    case Kmh => kmh
    case Mph => kmh / KmPerMile
    case Ms => kmh / KmhPerMs
  }

  /** `convertWindSpeed`: the same unit rounds the value; otherwise the value goes
      through km/h and the result is rounded. */
  function ConvertWindSpeed(value: real, from: WindSpeedUnit, to: WindSpeedUnit): (r: int)
    ensures from != to ==> r as real - 0.5 <= FromKmh(ToKmh(value, from), to) < r as real + 0.5
    ensures from == to ==> r as real - 0.5 <= value < r as real + 0.5
  {
    if from == to then Round(value)
    else
      var kmh := match from
        case Kmh => value
        case Mph => value * 1.60934
        case Ms => value * 3.6;
      match to
      case Kmh => Round(kmh)
      case Mph => Round(kmh / 1.60934)
      case Ms => Round(kmh / 3.6)
  }

  /** Going through km/h loses nothing before the rounding: every path rounds the exact value. */
  lemma WindThroughKmhIsExact(value: real, from: WindSpeedUnit, to: WindSpeedUnit)
    ensures ConvertWindSpeed(value, from, to) == Round(FromKmh(ToKmh(value, from), to))
  {
    if from == to {
      assert FromKmh(ToKmh(value, from), to) == value;
    }
  }

  lemma WindSameUnitIdentity(n: int, u: WindSpeedUnit)
    ensures ConvertWindSpeed(n as real, u, u) == n
  {
    RoundOfInt(n);
  }

  /** `getTemperatureSymbol`: "°C" for Celsius, "°F" for anything else. */
  function TemperatureSymbol(u: TemperatureUnit): (s: string)
    ensures s == "°C" <==> u == Celsius
    ensures s == "°F" <==> u != Celsius
  {
    if u == Celsius then "°C" else "°F"
  }

  /** `getWindSpeedSymbol`. */
  function WindSpeedSymbol(u: WindSpeedUnit): (s: string)
    ensures u == Kmh <==> s == "km/h"
    ensures u == Mph <==> s == "mph"
    ensures u == Ms <==> s == "m/s"
  {
    match u
    case Kmh => "km/h"
    case Mph => "mph"
    case Ms => "m/s"
  }
}

=== FILE: user_model.dfy ===
/** The user record and its map form (src/main/kotlin/model/User.kt). */
module UserModel {
  import opened Wrappers
  import opened BackendTypes

  /** The request body; its two units default to Celsius and km/h. */
  datatype UserDto = UserDto(
    lastSearchedCity: Option<string>, lastSearchedLatitude: Option<real>, lastSearchedLongitude: Option<real>,
    preferredTempUnit: TemperatureUnit, preferredWindUnit: WindSpeedUnit)

  /** A `UserDto` built with the unit arguments left out. */
  function NewUserDto(city: Option<string>, latitude: Option<real>, longitude: Option<real>): UserDto {
    UserDto(city, latitude, longitude, Celsius, KilometersPerHour)
  }

  datatype User = User(
    lastSearchedCity: Option<string>, lastSearchedLatitude: Option<real>, lastSearchedLongitude: Option<real>,
    preferredTempUnit: TemperatureUnit, preferredWindUnit: WindSpeedUnit)

  /** `UserDto.toModel`: a field-for-field copy. */
  function ToModel(dto: UserDto): (u: User)
    ensures u.lastSearchedCity == dto.lastSearchedCity
    ensures u.lastSearchedLatitude == dto.lastSearchedLatitude && u.lastSearchedLongitude == dto.lastSearchedLongitude
    ensures u.preferredTempUnit == dto.preferredTempUnit && u.preferredWindUnit == dto.preferredWindUnit
  {
    User(dto.lastSearchedCity, dto.lastSearchedLatitude, dto.lastSearchedLongitude, dto.preferredTempUnit, dto.preferredWindUnit)
  }

  /** Copying loses nothing: different requests give different users. */
  lemma ToModelInjective(a: UserDto, b: UserDto)
    ensures ToModel(a) == ToModel(b) ==> a == b
  {
  }

  const UserKeys: set<string> := {"lastSearchedCity", "lastSearchedLatitude", "lastSearchedLongitude", "preferredTempUnit", "preferredWindUnit"}

  /** `User.toMap`: the five fields, the units by constant name. */
  function ToMap(u: User): (m: ValueMap)
    ensures m.Keys == UserKeys
    ensures m["preferredTempUnit"] == Text(u.preferredTempUnit.Name())
    ensures m["preferredWindUnit"] == Text(u.preferredWindUnit.Name())
  {
    map[
      "lastSearchedCity" := OptionalText(u.lastSearchedCity),
      "lastSearchedLatitude" := OptionalDouble(u.lastSearchedLatitude),
      "lastSearchedLongitude" := OptionalDouble(u.lastSearchedLongitude),
      "preferredTempUnit" := Text(u.preferredTempUnit.Name()),
      "preferredWindUnit" := Text(u.preferredWindUnit.Name())]
  }

  /** Why `fromMap` throws: `valueOf` met a name that is no constant. */
  datatype FromMapError = NoSuchConstant(name: string)

  /** `User.fromMap`: soft casts for the city and coordinates; a unit that is absent or
      not a string reads as the default name, and a name `valueOf` rejects throws.
      So wrongly typed or absent city and coordinates read as null, absent or
      non-string units as the defaults, and an unknown unit name fails. */
  function FromMap(m: ValueMap): (r: Result<User, FromMapError>)
    ensures r.Ok? ==>
      (!Get(m, "lastSearchedCity").Text? ==> r.value.lastSearchedCity.None?)
      && (!IsNumber(Get(m, "lastSearchedLatitude")) ==> r.value.lastSearchedLatitude.None?)
      && (!IsNumber(Get(m, "lastSearchedLongitude")) ==> r.value.lastSearchedLongitude.None?)
      && (!Get(m, "preferredTempUnit").Text? ==> r.value.preferredTempUnit == Celsius)
      && (!Get(m, "preferredWindUnit").Text? ==> r.value.preferredWindUnit == KilometersPerHour)
    ensures r.Ok? ==>
      (Get(m, "lastSearchedCity").Text? ==> r.value.lastSearchedCity == Some(Get(m, "lastSearchedCity").s))
      && (IsNumber(Get(m, "lastSearchedLatitude")) ==>
            r.value.lastSearchedLatitude == Some(ToDouble(Get(m, "lastSearchedLatitude"))))
      && (IsNumber(Get(m, "lastSearchedLongitude")) ==>
            r.value.lastSearchedLongitude == Some(ToDouble(Get(m, "lastSearchedLongitude"))))
    ensures r.Ok? ==>
      (Get(m, "preferredTempUnit").Text? ==> Some(r.value.preferredTempUnit) == TemperatureUnitValueOf(Get(m, "preferredTempUnit").s))
      && (Get(m, "preferredWindUnit").Text? ==> Some(r.value.preferredWindUnit) == WindSpeedUnitValueOf(Get(m, "preferredWindUnit").s))
    ensures Get(m, "preferredTempUnit").Text? && TemperatureUnitValueOf(Get(m, "preferredTempUnit").s).None?
      ==> r == Err(NoSuchConstant(Get(m, "preferredTempUnit").s))
    ensures Get(m, "preferredWindUnit").Text? && WindSpeedUnitValueOf(Get(m, "preferredWindUnit").s).None?
      && (!Get(m, "preferredTempUnit").Text? || TemperatureUnitValueOf(Get(m, "preferredTempUnit").s).Some?)
      ==> r == Err(NoSuchConstant(Get(m, "preferredWindUnit").s))
    ensures !Get(m, "preferredTempUnit").Text? && !Get(m, "preferredWindUnit").Text? ==> r.Ok?
  {
    var tempName := AsString(Get(m, "preferredTempUnit")).GetOr("CELSIUS");
    var windName := AsString(Get(m, "preferredWindUnit")).GetOr("KILOMETERS_PER_HOUR");
    match TemperatureUnitValueOf(tempName)
    case None => Err(NoSuchConstant(tempName))
    case Some(temp) =>
      match WindSpeedUnitValueOf(windName)
      case None => Err(NoSuchConstant(windName))
      case Some(wind) =>
        Ok(User(AsString(Get(m, "lastSearchedCity")), AsDouble(Get(m, "lastSearchedLatitude")),
                AsDouble(Get(m, "lastSearchedLongitude")), temp, wind))
  }

  /** Every user survives the trip through its map form. */
  lemma RoundTrip(u: User)
    ensures FromMap(ToMap(u)) == Ok(u)
  {
    ValueOfName(u.preferredTempUnit, u.preferredWindUnit, AutoMode);
  }

  /** The two places that supply default units agree: a request body without units
      (the constructor defaults) and a stored map without unit entries (the `fromMap`
      fallbacks) give the same user. */
  lemma DefaultUnitsAgree(city: Option<string>, latitude: Option<real>, longitude: Option<real>)
    ensures FromMap(map["lastSearchedCity" := OptionalText(city),
                        "lastSearchedLatitude" := OptionalDouble(latitude),
                        "lastSearchedLongitude" := OptionalDouble(longitude)])
      == Ok(ToModel(NewUserDto(city, latitude, longitude)))
  {
    var m := map["lastSearchedCity" := OptionalText(city),
                 "lastSearchedLatitude" := OptionalDouble(latitude),
                 "lastSearchedLongitude" := OptionalDouble(longitude)];
    assert "preferredTempUnit" !in m && "preferredWindUnit" !in m;
    ValueOfName(Celsius, KilometersPerHour, AutoMode);
  }
}

=== FILE: user_preferences.dfy ===
/** The client's preferences and favourites store (src/contexts/user-preferences-context.tsx):
    two state cells replaced by update, add, remove and clear, a case-insensitive favourite
    query, and the load of saved settings. */
module UserPreferences {
  import opened Wrappers
  import opened Text
  import opened UnitConversions

  datatype Preferences = Preferences(
    temperatureUnit: TemperatureUnit, windSpeedUnit: WindSpeedUnit, pressureUnit: string,
    use24HourTime: bool, showFeelsLike: bool, showRecommendations: bool,
    autoRefresh: bool, refreshInterval: int)

  /** `DEFAULT_PREFERENCES`. */
  const DefaultPreferences := Preferences(Celsius, Kmh, "hpa", false, true, true, false, 30)

  /** A `Partial<UserPreferences>`: the fields present are Some. */
  datatype PreferencesPatch = PreferencesPatch(
    temperatureUnit: Option<TemperatureUnit>, windSpeedUnit: Option<WindSpeedUnit>, pressureUnit: Option<string>,
    use24HourTime: Option<bool>, showFeelsLike: Option<bool>, showRecommendations: Option<bool>,
    autoRefresh: Option<bool>, refreshInterval: Option<int>)

  const NoChange := PreferencesPatch(None, None, None, None, None, None, None, None)

  /** `{ ...prev, ...prefs }`: every field the patch supplies overwrites, every other
      field keeps its value. */
  function Apply(prev: Preferences, patch: PreferencesPatch): (r: Preferences)
    ensures patch.temperatureUnit.Some? ==> r.temperatureUnit == patch.temperatureUnit.value
    ensures patch.temperatureUnit.None? ==> r.temperatureUnit == prev.temperatureUnit
    ensures patch.windSpeedUnit.Some? ==> r.windSpeedUnit == patch.windSpeedUnit.value
    ensures patch.windSpeedUnit.None? ==> r.windSpeedUnit == prev.windSpeedUnit
    ensures patch.pressureUnit.Some? ==> r.pressureUnit == patch.pressureUnit.value
    ensures patch.pressureUnit.None? ==> r.pressureUnit == prev.pressureUnit
    ensures patch.use24HourTime.Some? ==> r.use24HourTime == patch.use24HourTime.value
    ensures patch.use24HourTime.None? ==> r.use24HourTime == prev.use24HourTime
    ensures patch.showFeelsLike.Some? ==> r.showFeelsLike == patch.showFeelsLike.value
    ensures patch.showFeelsLike.None? ==> r.showFeelsLike == prev.showFeelsLike
    ensures patch.showRecommendations.Some? ==> r.showRecommendations == patch.showRecommendations.value
    ensures patch.showRecommendations.None? ==> r.showRecommendations == prev.showRecommendations
    ensures patch.autoRefresh.Some? ==> r.autoRefresh == patch.autoRefresh.value
    ensures patch.autoRefresh.None? ==> r.autoRefresh == prev.autoRefresh
    ensures patch.refreshInterval.Some? ==> r.refreshInterval == patch.refreshInterval.value
    ensures patch.refreshInterval.None? ==> r.refreshInterval == prev.refreshInterval
  {
    Preferences(
      patch.temperatureUnit.GetOr(prev.temperatureUnit),
      patch.windSpeedUnit.GetOr(prev.windSpeedUnit),
      patch.pressureUnit.GetOr(prev.pressureUnit),
      patch.use24HourTime.GetOr(prev.use24HourTime),
      patch.showFeelsLike.GetOr(prev.showFeelsLike),
      patch.showRecommendations.GetOr(prev.showRecommendations),
      patch.autoRefresh.GetOr(prev.autoRefresh),
      patch.refreshInterval.GetOr(prev.refreshInterval))
  }

  /** Spreading `b` over `a` as one patch. */
  function Merge(a: PreferencesPatch, b: PreferencesPatch): PreferencesPatch {
    PreferencesPatch(
      if b.temperatureUnit.Some? then b.temperatureUnit else a.temperatureUnit,
      if b.windSpeedUnit.Some? then b.windSpeedUnit else a.windSpeedUnit,
      if b.pressureUnit.Some? then b.pressureUnit else a.pressureUnit,
      if b.use24HourTime.Some? then b.use24HourTime else a.use24HourTime,
      if b.showFeelsLike.Some? then b.showFeelsLike else a.showFeelsLike,
      if b.showRecommendations.Some? then b.showRecommendations else a.showRecommendations,
      if b.autoRefresh.Some? then b.autoRefresh else a.autoRefresh,
      if b.refreshInterval.Some? then b.refreshInterval else a.refreshInterval)
  }

  /** An empty patch changes nothing, a patch applied twice is applied once, and two
      updates in a row are the update by the merged patch. */
  lemma ApplyLaws(p: Preferences, a: PreferencesPatch, b: PreferencesPatch)
    ensures Apply(p, NoChange) == p
    ensures Apply(Apply(p, a), a) == Apply(p, a)
    ensures Apply(Apply(p, a), b) == Apply(p, Merge(a, b))
  {
  }

  // ---------------------------------------------------------------------------
  // Favourites

  datatype Favorite = Favorite(id: string, city: string, country: Option<string>, addedAt: string)

  /** The case-insensitive city comparison used by every favourite operation. */
  predicate SameCity(a: string, b: string) {
    Lower(a) == Lower(b)
  }

  /** `favorites.some(fav => fav.city.toLowerCase() === city.toLowerCase())`. */
  predicate IsFavoriteIn(favorites: seq<Favorite>, city: string) {
    exists i :: 0 <= i < |favorites| && SameCity(favorites[i].city, city)
  }

  /** No two favourites share a city, ignoring case. */
  predicate UniqueCities(favorites: seq<Favorite>) {
    forall i, j :: 0 <= i < j < |favorites| ==> !SameCity(favorites[i].city, favorites[j].city)
  }

  /** The favourite `addFavorite` builds: id `${city}-${Date.now()}`. */
  function NewFavorite(city: string, country: Option<string>, nowMillis: nat, addedAt: string): (f: Favorite)
    ensures f.city == city && f.country == country && f.addedAt == addedAt
    ensures |city| < |f.id| && f.id[..|city|] == city
  {
    Favorite(city + "-" + NatToString(nowMillis), city, country, addedAt)
  }

  /** The functional update of `addFavorite`: unchanged when the city is already a
      favourite, ignoring case, else the new entry appended. */
  function WithFavorite(favorites: seq<Favorite>, fav: Favorite): (r: seq<Favorite>)
    ensures IsFavoriteIn(favorites, fav.city) ==> r == favorites
    ensures !IsFavoriteIn(favorites, fav.city) ==> r == favorites + [fav]
  {
    if IsFavoriteIn(favorites, fav.city) then favorites else favorites + [fav]
  }

  /** Adding makes the city a favourite and keeps the cities unique. */
  lemma WithFavoriteKeepsInvariant(favorites: seq<Favorite>, fav: Favorite)
    ensures IsFavoriteIn(WithFavorite(favorites, fav), fav.city)
    ensures UniqueCities(favorites) ==> UniqueCities(WithFavorite(favorites, fav))
  {
    var r := WithFavorite(favorites, fav);
    if !IsFavoriteIn(favorites, fav.city) {
      assert SameCity(r[|favorites|].city, fav.city);
      if UniqueCities(favorites) {
        forall i, j | 0 <= i < j < |r|
          ensures !SameCity(r[i].city, r[j].city)
        {
          if j == |favorites| {
            assert r[i] == favorites[i];
          }
        }
      }
    }
  }

  /** `prev.filter(fav => fav.id !== id)`. */
  function WithoutId(favorites: seq<Favorite>, id: string): (r: seq<Favorite>)
    ensures |r| <= |favorites|
    ensures forall f :: f in r ==> f in favorites && f.id != id
    ensures forall f :: f in favorites && f.id != id ==> f in r
  {
    if favorites == [] then []
    else if favorites[0].id == id then WithoutId(favorites[1..], id)
    else [favorites[0]] + WithoutId(favorites[1..], id)
  }

  /** Removing an unknown id changes nothing. */
  lemma {:induction false} WithoutUnknownId(favorites: seq<Favorite>, id: string)
    requires forall f :: f in favorites ==> f.id != id
    ensures WithoutId(favorites, id) == favorites
  {
    if favorites != [] {
      WithoutUnknownId(favorites[1..], id);
    }
  }

  /** Filtering distributes over concatenation. */
  lemma {:induction false} WithoutIdAppend(a: seq<Favorite>, b: seq<Favorite>, id: string)
    ensures WithoutId(a + b, id) == WithoutId(a, id) + WithoutId(b, id)
  {
    if a != [] {
      assert (a + b)[1..] == a[1..] + b;
      WithoutIdAppend(a[1..], b, id);
    } else {
      assert a + b == b;
    }
  }

  /** A favourite whose city differs from every city of a unique list can lead it. */
  lemma ConsKeepsUnique(f: Favorite, rest: seq<Favorite>)
    requires UniqueCities(rest)
    requires forall x :: x in rest ==> !SameCity(f.city, x.city)
    ensures UniqueCities([f] + rest)
  {
    var r := [f] + rest;
    forall i, j | 0 <= i < j < |r| ensures !SameCity(r[i].city, r[j].city) {
      assert r[j] == rest[j - 1];
      if i > 0 {
        assert r[i] == rest[i - 1];
      }
    }
  }

  /** Removing keeps the cities unique. */
  lemma {:induction false} WithoutIdKeepsInvariant(favorites: seq<Favorite>, id: string)
    requires UniqueCities(favorites)
    ensures UniqueCities(WithoutId(favorites, id))
  {
    if favorites != [] {
      var tail := favorites[1..];
      assert UniqueCities(tail) by {
        forall i, j | 0 <= i < j < |tail| ensures !SameCity(tail[i].city, tail[j].city) {
          assert tail[i] == favorites[i + 1] && tail[j] == favorites[j + 1];
        }
      }
      WithoutIdKeepsInvariant(tail, id);
      if favorites[0].id != id {
        var rest := WithoutId(tail, id);
        forall x | x in rest ensures !SameCity(favorites[0].city, x.city) {
          var k :| 0 <= k < |tail| && tail[k] == x;
          assert favorites[k + 1] == x;
        }
        ConsKeepsUnique(favorites[0], rest);
      }
    }
  }

  /** The first favourite whose city matches, ignoring case (`favorites.find`). */
  function FindByCity(favorites: seq<Favorite>, city: string): (r: Option<Favorite>)
    ensures r.None? <==> !IsFavoriteIn(favorites, city)
    ensures r.Some? ==> exists i :: (0 <= i < |favorites| && favorites[i] == r.value && SameCity(r.value.city, city)
      && forall j :: 0 <= j < i ==> !SameCity(favorites[j].city, city))
  {
    if favorites == [] then None
    else if SameCity(favorites[0].city, city) then
      assert SameCity(favorites[0].city, city);
      Some(favorites[0])
    else
      var r := FindByCity(favorites[1..], city);
      if r.None? then
        assert !IsFavoriteIn(favorites, city) by {
          forall i | 0 <= i < |favorites| ensures !SameCity(favorites[i].city, city) {
            if i > 0 { assert favorites[i] == favorites[1..][i - 1]; }
          }
        }
        None
      else
        var k :| 0 <= k < |favorites[1..]| && favorites[1..][k] == r.value && SameCity(r.value.city, city)
          && forall j :: 0 <= j < k ==> !SameCity(favorites[1..][j].city, city);
        assert favorites[k + 1] == r.value;
        assert forall j :: 0 <= j < k + 1 ==> !SameCity(favorites[j].city, city) by {
          forall j | 0 <= j < k + 1 ensures !SameCity(favorites[j].city, city) {
            if j > 0 { assert favorites[j] == favorites[1..][j - 1]; }
          }
        }
        r
  }

  /** What the saved settings read as: nothing stored, text that does not parse, or
      parsed settings whose two fields may be absent. */
  datatype StoredSettings = NothingStored | Unparsable | Parsed(preferences: Option<Preferences>, favorites: Option<seq<Favorite>>)

  /** The two state cells of the provider. */
  class PreferencesStore {
    var preferences: Preferences
    var favorites: seq<Favorite>

    /** The initial state: the defaults and no favourites. */
    constructor()
      ensures preferences == DefaultPreferences && favorites == []
    {
      preferences := DefaultPreferences;
      favorites := [];
    }

    predicate Valid()
      reads this
    {
      UniqueCities(favorites)
    }

    /** The mount effect: parsed settings replace both cells, with the defaults and an
        empty list for absent fields; nothing stored or unparsable text changes nothing. */
    method Load(stored: StoredSettings)
      modifies this
      ensures stored.Parsed? ==>
        preferences == stored.preferences.GetOr(DefaultPreferences) && favorites == stored.favorites.GetOr([])
      ensures !stored.Parsed? ==> preferences == old(preferences) && favorites == old(favorites)
    {
      match stored
      case Parsed(prefs, favs) =>
        preferences := prefs.GetOr(DefaultPreferences);
        favorites := favs.GetOr([]);
      case _ =>
    }

    /** `updatePreferences`. */
    method UpdatePreferences(patch: PreferencesPatch)
      modifies this
      ensures preferences == Apply(old(preferences), patch) && favorites == old(favorites)
    {
      preferences := Apply(preferences, patch);
    }

    /** `addFavorite`, with the clock readings as parameters. */
    method AddFavorite(city: string, country: Option<string>, nowMillis: nat, addedAt: string)
      modifies this
      ensures favorites == WithFavorite(old(favorites), NewFavorite(city, country, nowMillis, addedAt))
      ensures preferences == old(preferences)
      ensures IsFavorite(city)
      ensures old(Valid()) ==> Valid()
    {
      var newFavorite := NewFavorite(city, country, nowMillis, addedAt);
      WithFavoriteKeepsInvariant(favorites, newFavorite);
      favorites := WithFavorite(favorites, newFavorite);
    }

    /** `removeFavorite`. */
    method RemoveFavorite(id: string)
      modifies this
      ensures favorites == WithoutId(old(favorites), id)
      ensures preferences == old(preferences)
      ensures old(Valid()) ==> Valid()
    {
      if Valid() {
        WithoutIdKeepsInvariant(favorites, id);
      }
      favorites := WithoutId(favorites, id);
    }

    /** `isFavorite`. */
    predicate IsFavorite(city: string)
      reads this
    {
      IsFavoriteIn(favorites, city)
    }

    /** `clearAllFavorites`. */
    method ClearAllFavorites()
      modifies this
      ensures favorites == [] && preferences == old(preferences)
      ensures Valid() && forall city :: !IsFavorite(city)
    {
      favorites := [];
    }
  }
}

=== FILE: weather_icon.dfy ===
/** The condition icon (src/components/weather-icon.tsx): a switch on the whole
    lower-cased condition string, with a partly-cloudy icon for anything else. */
module WeatherIcon {
  import opened Text

  datatype Icon = Sun | Cloudy | CloudSun | Cloud | CloudRain | CloudDrizzle | CloudLightning | Snowflake | CloudFog

  /** The names the switch lists. */
  const CaseNames: set<string> :=
    {"clear", "clouds", "few clouds", "scattered clouds", "broken clouds", "shower rain", "rain", "thunderstorm", "snow", "mist"}

  /** `WeatherIcon`: a switch on the whole lower-cased condition (string equality, not
      a substring test), CloudSun by default. */
  function IconFor(condition: string): (icon: Icon)
    ensures icon == CloudSun <==> Lower(condition) !in CaseNames || Lower(condition) == "few clouds"
  {
    var key := Lower(condition);
    if key == "clear" then Sun
    else if key == "clouds" then Cloudy
    else if key == "few clouds" then CloudSun
    else if key == "scattered clouds" then Cloud
    else if key == "broken clouds" then Cloudy
    else if key == "shower rain" then CloudRain
    else if key == "rain" then CloudDrizzle
    else if key == "thunderstorm" then CloudLightning
    else if key == "snow" then Snowflake
    else if key == "mist" then CloudFog
    else CloudSun
  }

  /** Any condition whose lower-cased form is not a listed name gets the default. */
  lemma DefaultIcon(condition: string)
    requires Lower(condition) !in CaseNames
    ensures IconFor(condition) == CloudSun
  {
  }

  /** Conditions equal up to case get the same icon. */
  lemma IconIgnoresCase(s: string, t: string)
    requires Lower(s) == Lower(t)
    ensures IconFor(s) == IconFor(t)
  {
  }

  /** The switch table: each listed lower-case name gets its icon. */
  lemma IconTable(c: string)
    ensures Lower(c) == "clear" ==> IconFor(c) == Sun
    ensures Lower(c) == "clouds" || Lower(c) == "broken clouds" ==> IconFor(c) == Cloudy
    ensures Lower(c) == "few clouds" ==> IconFor(c) == CloudSun
    ensures Lower(c) == "scattered clouds" ==> IconFor(c) == Cloud
    ensures Lower(c) == "shower rain" ==> IconFor(c) == CloudRain
    ensures Lower(c) == "rain" ==> IconFor(c) == CloudDrizzle
    ensures Lower(c) == "thunderstorm" ==> IconFor(c) == CloudLightning
    ensures Lower(c) == "snow" ==> IconFor(c) == Snowflake
    ensures Lower(c) == "mist" ==> IconFor(c) == CloudFog
  {
  }

  /** Matching is whole-string: a condition merely containing "rain" is not "rain". */
  lemma WholeStringOnly()
    ensures IconFor("light rain") == CloudSun
  {
  }

  lemma LowerSingleWordNames()
    ensures Lower("CLEAR") == "clear" && Lower("RAIN") == "rain" && Lower("SNOW") == "snow"
    ensures Lower("THUNDERSTORM") == "thunderstorm" && Lower("MIST") == "mist"
  {
  }

  /** Of the backend's condition names, the single-word ones hit a case ... */
  lemma BackendSingleWordNames()
    ensures IconFor("CLEAR") == Sun
    ensures IconFor("RAIN") == CloudDrizzle
    ensures IconFor("SNOW") == Snowflake
    ensures IconFor("THUNDERSTORM") == CloudLightning
    ensures IconFor("MIST") == CloudFog
  {
    LowerSingleWordNames();
    IconTable("CLEAR");
    IconTable("RAIN");
    IconTable("SNOW");
    IconTable("THUNDERSTORM");
    IconTable("MIST");
  }

  lemma LowerUnderscoredNames()
    ensures Lower("FEW_CLOUDS") == "few_clouds" && Lower("SCATTERED_CLOUDS") == "scattered_clouds"
    ensures Lower("BROKEN_CLOUDS") == "broken_clouds" && Lower("SHOWER_RAIN") == "shower_rain"
    ensures Lower("UNKNOWN") == "unknown"
  {
  }

  /** ... while the underscored ones never equal a case with a space, so they fall to the default. */
  lemma BackendUnderscoredNames()
    ensures IconFor("FEW_CLOUDS") == CloudSun
    ensures IconFor("SCATTERED_CLOUDS") == CloudSun
    ensures IconFor("BROKEN_CLOUDS") == CloudSun
    ensures IconFor("SHOWER_RAIN") == CloudSun
    ensures IconFor("UNKNOWN") == CloudSun
  {
    LowerUnderscoredNames();
    DefaultIcon("FEW_CLOUDS");
    DefaultIcon("SCATTERED_CLOUDS");
    DefaultIcon("BROKEN_CLOUDS");
    DefaultIcon("SHOWER_RAIN");
    DefaultIcon("UNKNOWN");
  }
}

=== FILE: weather_recommendations.dfy ===
/** The recommendation panel shipped with the dashboard
    (src/components/weather-recommendations.tsx): up to one temperature entry,
    up to one condition entry, a wind entry, a humidity entry, a general entry
    when nothing else applied, and at most three of them shown. */
module ShippedRecommendations {
  import opened Text
  import opened Wrappers
  import opened Sequences

  datatype Icon = Sun | Snowflake | Umbrella | Wind | Droplets | Lightbulb

  datatype Recommendation = Recommendation(icon: Icon, title: string, description: string, color: string)

  /** The fields of the current weather the panel reads. */
  datatype CurrentWeather = CurrentWeather(condition: string, temperatureCelsius: real, humidity: real, windSpeedMps: real)

  const StayCool := Recommendation(Sun, "Stay Cool",
    "It's hot outside! Stay hydrated, wear light clothing, and seek shade during peak hours.", "text-orange-500")
  const BundleUp := Recommendation(Snowflake, "Bundle Up",
    "It's cold! Dress in layers, wear a warm coat, and don't forget gloves and a hat.", "text-blue-400")
  const PerfectWeather := Recommendation(Sun, "Perfect Weather",
    "Ideal temperature for outdoor activities! Great day for a walk, jog, or picnic.", "text-green-500")
  const BringUmbrella := Recommendation(Umbrella, "Bring an Umbrella",
    "Rain is expected. Don't forget your umbrella and wear waterproof shoes.", "text-blue-500")
  const SnowDay := Recommendation(Snowflake, "Snow Day",
    "Snowy conditions ahead. Drive carefully, clear walkways, and enjoy winter activities!", "text-cyan-400")
  const SunnyDay := Recommendation(Sun, "Sunny Day",
    "Clear skies! Perfect for outdoor activities, but don't forget sunscreen.", "text-yellow-500")
  const WindyConditions := Recommendation(Wind, "Windy Conditions",
    "Strong winds today. Secure outdoor items and be cautious when driving.", "text-gray-500")
  const HighHumidity := Recommendation(Droplets, "High Humidity",
    "It feels muggy. Stay cool, drink water, and take breaks if exercising outdoors.", "text-teal-500")
  const GeneralAdvice := Recommendation(Lightbulb, "General Advice",
    "Check the weather conditions before heading out and plan your day accordingly.", "text-purple-500")

  /** At most this many entries are shown. */
  const MaxShown: nat := 3

  predicate Rainy(condition: string) {
    Contains(Lower(condition), "rain") || Contains(Lower(condition), "drizzle")
  }

  predicate Snowy(condition: string) { Contains(Lower(condition), "snow") }

  predicate Sunny(condition: string) {
    Contains(Lower(condition), "clear") || Contains(Lower(condition), "sun")
  }

  function WindKmh(windSpeedMps: real): real { windSpeedMps * 3.6 }

  /** The temperature entry: hot above 27, cold below 4, perfect in [15, 24], none in the gaps. */
  function TemperatureEntry(t: real): (r: Option<Recommendation>)
    ensures r == Some(StayCool) <==> t > 27.0
    ensures r == Some(BundleUp) <==> t < 4.0
    ensures r == Some(PerfectWeather) <==> 15.0 <= t <= 24.0
    ensures r.None? <==> (4.0 <= t < 15.0 || 24.0 < t <= 27.0)
  {
    if t > 27.0 then Some(StayCool)
    else if t < 4.0 then Some(BundleUp)
    else if t >= 15.0 && t <= 24.0 then Some(PerfectWeather)
    else None
  }

  /** The condition entry, by case-insensitive substring with priority rain/drizzle > snow > clear/sun. */
  function ConditionEntry(condition: string): (r: Option<Recommendation>)
    ensures r == Some(BringUmbrella) <==> Rainy(condition)
    ensures r == Some(SnowDay) <==> !Rainy(condition) && Snowy(condition)
    ensures r == Some(SunnyDay) <==> !Rainy(condition) && !Snowy(condition) && Sunny(condition)
    ensures r.None? <==> !Rainy(condition) && !Snowy(condition) && !Sunny(condition)
  {
    if Rainy(condition) then Some(BringUmbrella)
    else if Snowy(condition) then Some(SnowDay)
    else if Sunny(condition) then Some(SunnyDay)
    else None
  }

  /** Every entry the panel produces before the cut, in push order. */
  function Entries(w: CurrentWeather): seq<Recommendation> {
    OptionSeq(TemperatureEntry(w.temperatureCelsius))
      + OptionSeq(ConditionEntry(w.condition))
      + (if WindKmh(w.windSpeedMps) > 32.0 then [WindyConditions] else [])
      + (if w.humidity > 70.0 then [HighHumidity] else [])
  }

  /** What the panel shows. */
  function Recommendations(w: CurrentWeather): seq<Recommendation> {
    var entries := Entries(w);
    Take(if entries == [] then [GeneralAdvice] else entries, MaxShown)
  }

  /** `getWeatherRecommendations`: pushes the guarded entries in order, adds the
      general entry when none applied, and keeps the first three. */
  method GetWeatherRecommendations(weather: CurrentWeather) returns (shown: seq<Recommendation>)
    ensures shown == Recommendations(weather)
  {
    var recommendations: seq<Recommendation> := [];
    var windSpeedKmh := weather.windSpeedMps * 3.6;

    if weather.temperatureCelsius > 27.0 {
      recommendations := recommendations + [StayCool];
    } else if weather.temperatureCelsius < 4.0 {
      recommendations := recommendations + [BundleUp];
    } else if weather.temperatureCelsius >= 15.0 && weather.temperatureCelsius <= 24.0 {
      recommendations := recommendations + [PerfectWeather];
    }
    assert recommendations == OptionSeq(TemperatureEntry(weather.temperatureCelsius));
    ghost var afterTemperature := recommendations;

    var conditionLower := Lower(weather.condition);
    if Contains(conditionLower, "rain") || Contains(conditionLower, "drizzle") {
      recommendations := recommendations + [BringUmbrella];
    } else if Contains(conditionLower, "snow") {
      recommendations := recommendations + [SnowDay];
    } else if Contains(conditionLower, "clear") || Contains(conditionLower, "sun") {
      recommendations := recommendations + [SunnyDay];
    }
    assert recommendations == afterTemperature + OptionSeq(ConditionEntry(weather.condition));
    ghost var afterCondition := recommendations;

    if windSpeedKmh > 32.0 {
      recommendations := recommendations + [WindyConditions];
    }
    assert recommendations == afterCondition + (if WindKmh(weather.windSpeedMps) > 32.0 then [WindyConditions] else []);
    ghost var afterWind := recommendations;

    if weather.humidity > 70.0 {
      recommendations := recommendations + [HighHumidity];
    }
    assert recommendations == afterWind + (if weather.humidity > 70.0 then [HighHumidity] else []);
    assert recommendations == Entries(weather);

    if |recommendations| == 0 {
      recommendations := recommendations + [GeneralAdvice];
    }

    shown := Take(recommendations, MaxShown);
  }

  /** One to three entries are shown. */
  lemma ShownCount(w: CurrentWeather)
    ensures 1 <= |Recommendations(w)| <= MaxShown
  {
  }

  /** The general entry is shown iff nothing else applied, and then it is shown alone. */
  lemma GeneralAdviceIffNothingElse(w: CurrentWeather)
    ensures GeneralAdvice in Recommendations(w) <==> Entries(w) == []
    ensures Entries(w) == [] ==> Recommendations(w) == [GeneralAdvice]
  {
    var e := Entries(w);
    if e != [] {
      assert GeneralAdvice !in e;
    }
  }

  /** The temperature entry, when there is one, is shown first. */
  lemma TemperatureShownFirst(w: CurrentWeather)
    requires TemperatureEntry(w.temperatureCelsius).Some?
    ensures Recommendations(w)[0] == TemperatureEntry(w.temperatureCelsius).value
  {
  }

  /** Temperature and condition entries come before the cut, so they are always shown. */
  lemma ConditionAlwaysShown(w: CurrentWeather)
    requires ConditionEntry(w.condition).Some?
    ensures ConditionEntry(w.condition).value in Recommendations(w)
  {
    var e := Entries(w);
    var k := |OptionSeq(TemperatureEntry(w.temperatureCelsius))|;
    assert e[k] == ConditionEntry(w.condition).value;
  }

  /** The wind entry is shown iff the speed in km/h exceeds 32: at most two entries precede it. */
  lemma WindyIff(w: CurrentWeather)
    ensures WindyConditions in Recommendations(w) <==> WindKmh(w.windSpeedMps) > 32.0
  {
    var t := OptionSeq(TemperatureEntry(w.temperatureCelsius));
    var c := OptionSeq(ConditionEntry(w.condition));
    var e := Entries(w);
    if WindKmh(w.windSpeedMps) > 32.0 {
      assert e[|t| + |c|] == WindyConditions;
    } else {
      assert WindyConditions !in e;
    }
  }

  /** The humidity entry is shown iff humidity exceeds 70 and not all three earlier
      kinds of entry applied: when all four fire, the cut drops humidity. */
  lemma HumidityShownIff(w: CurrentWeather)
    ensures HighHumidity in Recommendations(w) <==>
      w.humidity > 70.0 &&
      !(TemperatureEntry(w.temperatureCelsius).Some? && ConditionEntry(w.condition).Some? && WindKmh(w.windSpeedMps) > 32.0)
  {
    var t := OptionSeq(TemperatureEntry(w.temperatureCelsius));
    var c := OptionSeq(ConditionEntry(w.condition));
    var wi: seq<Recommendation> := if WindKmh(w.windSpeedMps) > 32.0 then [WindyConditions] else [];
    var e := Entries(w);
    assert HighHumidity !in t + c + wi;
    if w.humidity > 70.0 {
      assert e == t + c + wi + [HighHumidity];
      assert e[|t| + |c| + |wi|] == HighHumidity;
      if |e| > 3 {
        assert Recommendations(w) == (t + c + wi)[..3];
      }
    } else {
      assert e == t + c + wi;
    }
  }

  /** What is shown is a prefix of the pushed entries (or the general entry alone). */
  lemma ShownIsPrefix(w: CurrentWeather)
    ensures Entries(w) != [] ==> Recommendations(w) == Entries(w)[..|Recommendations(w)|]
  {
  }
}

=== FILE: weather_route.dfy ===
/** The mock weather endpoint (src/app/api/weather/route.ts): query validation with
    early 400 returns, the longitude-based time zone, and the 200 response carrying the
    generated data. */
module WeatherRoute {
  import opened Wrappers
  import opened Numeric
  import MockWeather

  /** Why a request is refused. */
  datatype Rejection = MissingParameters | NotANumber | OutOfRange {
    function Message(): string {
      match this
      case MissingParameters => "Missing required parameters: latitude and longitude"
      case NotANumber => "Invalid latitude or longitude values"
      case OutOfRange => "Latitude must be between -90 and 90, longitude between -180 and 180"
    }
  }

  datatype Coordinates = Coordinates(latitude: real, longitude: real)

  /** A query parameter is missing when it is absent or empty (`!param`). */
  predicate Missing(param: Option<string>) {
    param.None? || param.value == ""
  }

  predicate InRange(c: Coordinates) {
    -90.0 <= c.latitude <= 90.0 && -180.0 <= c.longitude <= 180.0
  }

  /** The three checks of `GET`, in order. `parseFloat` is a parameter: None is NaN. */
  function Validate(latitudeParam: Option<string>, longitudeParam: Option<string>,
                    parseFloat: string -> Option<real>): (r: Result<Coordinates, Rejection>)
    ensures r == Err(MissingParameters) <==> Missing(latitudeParam) || Missing(longitudeParam)
    ensures r == Err(NotANumber) <==>
      !Missing(latitudeParam) && !Missing(longitudeParam) &&
      (parseFloat(latitudeParam.value).None? || parseFloat(longitudeParam.value).None?)
    ensures r.Ok? ==>
      !Missing(latitudeParam) && !Missing(longitudeParam) && InRange(r.value) &&
      parseFloat(latitudeParam.value) == Some(r.value.latitude) &&
      parseFloat(longitudeParam.value) == Some(r.value.longitude)
    ensures r == Err(OutOfRange) <==>
      !Missing(latitudeParam) && !Missing(longitudeParam) &&
      parseFloat(latitudeParam.value).Some? && parseFloat(longitudeParam.value).Some? &&
      !InRange(Coordinates(parseFloat(latitudeParam.value).value, parseFloat(longitudeParam.value).value))
  {
    if Missing(latitudeParam) || Missing(longitudeParam) then Err(MissingParameters)
    else
      var latitude := parseFloat(latitudeParam.value);
      var longitude := parseFloat(longitudeParam.value);
      if latitude.None? || longitude.None? then Err(NotANumber)
      else if latitude.value < -90.0 || latitude.value > 90.0 || longitude.value < -180.0 || longitude.value > 180.0 then
        Err(OutOfRange)
      else Ok(Coordinates(latitude.value, longitude.value))
  }

  /** The bounds themselves are accepted. */
  lemma BoundsAccepted(latitudeParam: string, longitudeParam: string, parseFloat: string -> Option<real>,
                       latitude: real, longitude: real)
    requires latitudeParam != "" && longitudeParam != ""
    requires parseFloat(latitudeParam) == Some(latitude) && parseFloat(longitudeParam) == Some(longitude)
    requires latitude == 90.0 || latitude == -90.0
    requires longitude == 180.0 || longitude == -180.0
    ensures Validate(Some(latitudeParam), Some(longitudeParam), parseFloat) == Ok(Coordinates(latitude, longitude))
  {
  }

  /** The zone name listed for a whole-hour offset, if any. */
  function ZoneName(offset: int): (z: Option<string>)
    ensures z.Some? <==> -12 <= offset <= 12
  {
    match offset
    case -12 => Some("Pacific/Auckland")
    case -11 => Some("Pacific/Midway")
    case -10 => Some("Pacific/Honolulu")
    case -9 => Some("America/Anchorage")
    case -8 => Some("America/Los_Angeles")
    case -7 => Some("America/Denver")
    case -6 => Some("America/Chicago")
    case -5 => Some("America/New_York")
    case -4 => Some("America/Halifax")
    case -3 => Some("America/Sao_Paulo")
    case -2 => Some("Atlantic/South_Georgia")
    case -1 => Some("Atlantic/Azores")
    case 0 => Some("Europe/London")
    case 1 => Some("Europe/Paris")
    case 2 => Some("Europe/Athens")
    case 3 => Some("Africa/Nairobi")
    case 4 => Some("Asia/Dubai")
    case 5 => Some("Asia/Karachi")
    case 6 => Some("Asia/Dhaka")
    case 7 => Some("Asia/Bangkok")
    case 8 => Some("Asia/Shanghai")
    case 9 => Some("Asia/Tokyo")
    case 10 => Some("Australia/Sydney")
    case 11 => Some("Pacific/Noumea")
    case 12 => Some("Pacific/Fiji")
    case _ => None
  }

  /** The whole-hour offset `Math.round(longitude / 15)`. */
  function OffsetHours(longitude: real): (h: int)
    ensures h as real - 0.5 <= longitude / 15.0 < h as real + 0.5
  {
    Round(longitude / 15.0)
  }

  /** `getTimezoneFromCoordinates`: the listed zone for the offset, else "UTC". The
      latitude is not read. */
  function TimezoneFor(latitude: real, longitude: real): (zone: string)
    ensures zone == "UTC" <==> ZoneName(OffsetHours(longitude)).None?
  {
    ZoneName(OffsetHours(longitude)).GetOr("UTC")
  }

  /** Every accepted longitude has an offset in [-12, 12], so "UTC" is never returned
      for an accepted request. */
  lemma AcceptedLongitudeHasZone(latitude: real, longitude: real)
    requires -180.0 <= longitude <= 180.0
    ensures -12 <= OffsetHours(longitude) <= 12
    ensures TimezoneFor(latitude, longitude) != "UTC"
  {
    var h := OffsetHours(longitude);
    assert -12.0 <= longitude / 15.0 <= 12.0;
  }

  /** Offsets round half up: the meridian at 7.5 degrees west is offset 0, at 7.5 east
      offset 1. */
  lemma HalfHourMeridians(latitude: real)
    ensures OffsetHours(-7.5) == 0 && OffsetHours(7.5) == 1
    ensures TimezoneFor(latitude, -7.5) == "Europe/London" && TimezoneFor(latitude, 7.5) == "Europe/Paris"
  {
    RoundUnique(-0.5, 0);
    RoundUnique(0.5, 1);
  }

  datatype Body = Error(error: string) | Weather(data: MockWeather.MockWeatherData)

  datatype Response = Response(status: int, body: Body, cacheControl: Option<string>)

  /** `GET`: validate, then generate the data for the coordinates and their time zone
      and answer 200 with a five-minute public cache header; a refused request is a 400
      with the rejection's message and no cache header. */
  method Get(latitudeParam: Option<string>, longitudeParam: Option<string>,
             parseFloat: string -> Option<real>,
             now: MockWeather.Clock, sine: real -> real, calendar: nat -> MockWeather.CalendarDay,
             cur: MockWeather.CurrentDraws, draws: nat -> MockWeather.DayDraws)
    returns (response: Response)
    ensures var v := Validate(latitudeParam, longitudeParam, parseFloat);
      (v.Err? ==> response == Response(400, Error(v.error.Message()), None))
      && (v.Ok? ==>
            response.status == 200 && response.cacheControl == Some("public, max-age=300")
            && response.body.Weather?
            && response.body.data.latitude == v.value.latitude
            && response.body.data.longitude == v.value.longitude
            && response.body.data.timezone == TimezoneFor(v.value.latitude, v.value.longitude)
            && response.body.data.timezone != "UTC")
  {
    var validated := Validate(latitudeParam, longitudeParam, parseFloat);
    if validated.Err? {
      return Response(400, Error(validated.error.Message()), None);
    }
    var latitude := validated.value.latitude;
    var longitude := validated.value.longitude;
    var timezone := TimezoneFor(latitude, longitude);
    AcceptedLongitudeHasZone(latitude, longitude);
    var weatherData := MockWeather.GenerateMockWeatherData(latitude, longitude, timezone, now, sine, calendar, cur, draws);
    return Response(200, Weather(weatherData), Some("public, max-age=300"));
  }
}

=== FILE: weather_service.dfy ===
/** The back end's weather service (src/main/kotlin/service/WeatherService.kt): the
    WMO code tables, the shaping of an Open-Meteo response into the weather record
    the API returns, and the five-minute cache in front of the city lookup. */
module WeatherService {
  import opened Wrappers
  import opened Text
  import MockWeather

  /** The condition categories of `weatherCodeToCondition`. */
  datatype Condition =
    | Clear | FewClouds | ScatteredClouds | BrokenClouds | Mist
    | Rain | Snow | ShowerRain | Thunderstorm | Unknown
  {
    /** The name the API sends. */
    function Name(): string {
      match this
      case Clear => "CLEAR"
      case FewClouds => "FEW_CLOUDS"
      case ScatteredClouds => "SCATTERED_CLOUDS"
      case BrokenClouds => "BROKEN_CLOUDS"
      case Mist => "MIST"
      case Rain => "RAIN"
      case Snow => "SNOW"
      case ShowerRain => "SHOWER_RAIN"
      case Thunderstorm => "THUNDERSTORM"
      case Unknown => "UNKNOWN"
    }
  }

  const RainCodes: set<int> := {51, 53, 55, 56, 57, 61, 63, 65, 66, 67}
  const SnowCodes: set<int> := {71, 73, 75, 77, 85, 86}
  const ShowerCodes: set<int> := {80, 81, 82}
  const ThunderCodes: set<int> := {95, 96, 99}

  /** `weatherCodeToCondition`: each listed code to its category, every other code to UNKNOWN. */
  function ConditionOf(code: int): (c: Condition)
    ensures c == Clear <==> code == 0
    ensures c == FewClouds <==> code == 1
    ensures c == ScatteredClouds <==> code == 2
    ensures c == BrokenClouds <==> code == 3
    ensures c == Mist <==> code == 45 || code == 48
    ensures c == Rain <==> code in RainCodes
    ensures c == Snow <==> code in SnowCodes
    ensures c == ShowerRain <==> code in ShowerCodes
    ensures c == Thunderstorm <==> code in ThunderCodes
  {
    if code == 0 then Clear
    else if code == 1 then FewClouds
    else if code == 2 then ScatteredClouds
    else if code == 3 then BrokenClouds
    else if code == 45 || code == 48 then Mist
    else if code in RainCodes then Rain
    else if code in SnowCodes then Snow
    else if code in ShowerCodes then ShowerRain
    else if code in ThunderCodes then Thunderstorm
    else Unknown
  }

  /** A code has a category other than UNKNOWN iff it is one of the 28 codes the front
      end's code table lists. */
  lemma KnownIffListed(code: int)
    ensures ConditionOf(code) != Unknown <==> code in MockWeather.WeatherCodes
  {
  }

  /** `weatherCodeToDescription`: "Unknown" exactly for the codes `mapWeatherCondition`
      puts in the UNKNOWN category, so the two back-end tables list the same codes. */
  function Description(code: int): (text: string)
    ensures text == "Unknown" <==> ConditionOf(code) == Unknown
  {
    match code
    case 0 => "Clear sky"
    case 1 => "Mainly clear"
    case 2 => "Partly cloudy"
    case 3 => "Overcast"
    case 45 => "Foggy"
    case 48 => "Depositing rime fog"
    case 51 => "Light drizzle"
    case 53 => "Moderate drizzle"
    case 55 => "Dense drizzle"
    case 56 => "Light freezing drizzle"
    case 57 => "Dense freezing drizzle"
    case 61 => "Slight rain"
    case 63 => "Moderate rain"
    case 65 => "Heavy rain"
    case 66 => "Light freezing rain"
    case 67 => "Heavy freezing rain"
    case 71 => "Slight snow"
    case 73 => "Moderate snow"
    case 75 => "Heavy snow"
    case 77 => "Snow grains"
    case 80 => "Slight rain showers"
    case 81 => "Moderate rain showers"
    case 82 => "Violent rain showers"
    case 85 => "Slight snow showers"
    case 86 => "Heavy snow showers"
    case 95 => "Thunderstorm"
    case 96 => "Thunderstorm with slight hail"
    case 99 => "Thunderstorm with heavy hail"
    case _ => "Unknown"
  }

  // ---------------------------------------------------------------------------
  // The Open-Meteo response and the weather record built from it

  datatype CurrentData = CurrentData(time: string, temperature: real, weatherCode: int, windSpeed10m: real, isDay: int)
  datatype DailyData = DailyData(time: seq<string>, temperatureMax: seq<real>, temperatureMin: seq<real>, weatherCode: seq<int>)
  datatype HourlyData = HourlyData(time: seq<string>, humidity: seq<int>)
  datatype OpenMeteoResponse = OpenMeteoResponse(
    latitude: real, longitude: real,
    current: Option<CurrentData>, daily: Option<DailyData>, hourly: Option<HourlyData>)

  datatype CurrentWeather = CurrentWeather(
    city: string, temperatureCelsius: real, feelsLikeCelsius: real,
    condition: string, conditionDescription: string, humidity: int, windSpeedMps: real,
    date: string, latitude: real, longitude: real, isDay: bool)
  datatype DailyForecast = DailyForecast(date: string, highTempCelsius: real, lowTempCelsius: real,
    condition: string, conditionDescription: string)
  datatype WeatherData = WeatherData(current: CurrentWeather, forecast: seq<DailyForecast>)

  /** What the service takes from its host: today's date, the two date parsers (None
      where the text does not parse), the rendering of a coordinate pair as `"$lat,$lon"`,
      and the apparent-temperature formula. */
  datatype Host = Host(
    today: string,
    parseDay: string -> Option<string>,
    parseDateTime: string -> Option<string>,
    formatCoordinates: (real, real) -> string,
    feelsLike: (real, real, int) -> real)

  /** Open-Meteo reports wind in km/h; the record carries metres per second. */
  const KmhPerMs: real := 3.6

  /** `parseDate`: an ISO date-time, or today when it does not parse. */
  function ParseDate(host: Host, text: string): string {
    host.parseDateTime(text).GetOr(host.today)
  }

  /** The index of the first occurrence of `t` in `times`. */
  predicate FirstOccurrence(times: seq<string>, t: string, i: int) {
    0 <= i < |times| && times[i] == t && forall j :: 0 <= j < i ==> times[j] != t
  }

  /** The humidity lookup: the reading at the first hour whose time is the current time,
      or 0 when there is no hourly block, the time is absent or has no reading. */
  function CurrentHumidity(hourly: Option<HourlyData>, currentTime: string): (h: int)
    ensures hourly.None? ==> h == 0
    ensures hourly.Some? && currentTime !in hourly.value.time ==> h == 0
    ensures forall i :: hourly.Some? && FirstOccurrence(hourly.value.time, currentTime, i) ==>
      h == (if i < |hourly.value.humidity| then hourly.value.humidity[i] else 0)
  {
    match hourly
    case None => 0
    case Some(data) =>
      var index := IndexOf(data.time, currentTime);
      if index != -1 && index < |data.humidity| then data.humidity[index] else 0
  }

  /** `getOrNull(i) ?: 0.0`. */
  function ReadingOrZero(s: seq<real>, i: int): real {
    if 0 <= i < |s| then s[i] else 0.0
  }

  /** The entry built for day `i` of the daily block. */
  function ForecastDay(host: Host, daily: DailyData, i: nat): DailyForecast
    requires i < |daily.time|
  {
    DailyForecast(
      host.parseDay(daily.time[i]).GetOr(host.today),
      ReadingOrZero(daily.temperatureMax, i),
      ReadingOrZero(daily.temperatureMin, i),
      if i < |daily.weatherCode| then ConditionOf(daily.weatherCode[i]).Name() else "UNKNOWN",
      if i < |daily.weatherCode| then Description(daily.weatherCode[i]) else "No data")
  }

  /** The `mapIndexed` over the daily dates: one entry per date, in order. */
  function Forecast(host: Host, daily: DailyData): (f: seq<DailyForecast>)
    ensures |f| == |daily.time|
    ensures forall i :: 0 <= i < |f| ==> f[i] == ForecastDay(host, daily, i)
  {
    seq(|daily.time|, i requires 0 <= i < |daily.time| => ForecastDay(host, daily, i))
  }

  /** `getWeatherByCoordinates` after the request: `fetched` is None when the request
      threw. A failed request gives the placeholder record for the asked coordinates;
      a response without its current or daily block gives what can be read of the current
      block and no forecast; a complete one gives the full record. The forecast is
      non-empty iff the request succeeded, the response is complete and it lists at least
      one day; then it has one entry per listed day. */
  function WeatherByCoordinates(host: Host, lat: real, lon: real, cityName: Option<string>,
                                fetched: Option<OpenMeteoResponse>): (r: WeatherData)
    ensures r.forecast != [] <==> fetched.Some? && Complete(fetched.value) && fetched.value.daily.value.time != []
    ensures fetched.Some? && Complete(fetched.value) ==> |r.forecast| == |fetched.value.daily.value.time|
    ensures fetched.Some? && Complete(fetched.value) ==> r.forecast == Forecast(host, fetched.value.daily.value)
  {
    match fetched
    case None =>
      WeatherData(
        CurrentWeather(cityName.GetOr(host.formatCoordinates(lat, lon)), 0.0, host.feelsLike(0.0, 0.0, 0),
          "UNKNOWN", "No data", 0, 0.0, host.today, lat, lon, true),
        [])
    case Some(response) =>
      if response.current.None? || response.daily.None? then
        var current := response.current;
        WeatherData(
          CurrentWeather(
            cityName.GetOr(host.formatCoordinates(lat, lon)),
            if current.Some? then current.value.temperature else 0.0,
            host.feelsLike(0.0, 0.0, 0),
            if current.Some? then ConditionOf(current.value.weatherCode).Name() else "UNKNOWN",
            if current.Some? then Description(current.value.weatherCode) else "No data",
            0,
            if current.Some? then current.value.windSpeed10m / KmhPerMs else 0.0,
            if current.Some? then ParseDate(host, current.value.time) else host.today,
            response.latitude, response.longitude,
            current.Some? && current.value.isDay == 1),
          [])
      else
        var current := response.current.value;
        var humidity := CurrentHumidity(response.hourly, current.time);
        WeatherData(
          CurrentWeather(
            cityName.GetOr(host.formatCoordinates(response.latitude, response.longitude)),
            current.temperature,
            host.feelsLike(current.temperature, current.windSpeed10m / KmhPerMs, humidity),
            ConditionOf(current.weatherCode).Name(),
            Description(current.weatherCode),
            humidity,
            current.windSpeed10m / KmhPerMs,
            ParseDate(host, current.time),
            response.latitude, response.longitude,
            current.isDay == 1),
          Forecast(host, response.daily.value))
  }

  /** The back end's descriptions are the front end's: for every listed code the two
      tables give the same text, and every other code reads "Unknown". */
  lemma DescriptionsAgree(code: int)
    ensures code in MockWeather.WeatherCodes ==> Description(code) == MockWeather.WeatherCodes[code].description
    ensures code !in MockWeather.WeatherCodes ==> Description(code) == "Unknown"
  {
    if code < 60 {
    } else if code < 80 {
    } else {
    }
  }

  /** A complete response has both its current and its daily block. */
  predicate Complete(response: OpenMeteoResponse) {
    response.current.Some? && response.daily.Some?
  }

  /** A failed request yields the placeholder: the asked coordinates, UNKNOWN / "No data",
      no humidity or wind, daytime, no forecast, and the city name or the coordinates as text. */
  lemma FailedRequestPlaceholder(host: Host, lat: real, lon: real, cityName: Option<string>)
    ensures var c := WeatherByCoordinates(host, lat, lon, cityName, None).current;
      c.condition == "UNKNOWN" && c.conditionDescription == "No data"
      && c.humidity == 0 && c.windSpeedMps == 0.0 && c.temperatureCelsius == 0.0
      && c.isDay && c.latitude == lat && c.longitude == lon
      && c.city == (if cityName.Some? then cityName.value else host.formatCoordinates(lat, lon))
  {
  }

  /** An incomplete response keeps the response's coordinates and reads no humidity;
      without a current block it reports night, where a failed request reports day. */
  lemma IncompleteResponse(host: Host, lat: real, lon: real, cityName: Option<string>, response: OpenMeteoResponse)
    requires !Complete(response)
    ensures var c := WeatherByCoordinates(host, lat, lon, cityName, Some(response)).current;
      c.humidity == 0 && c.latitude == response.latitude && c.longitude == response.longitude
      && (response.current.None? ==> !c.isDay && c.condition == "UNKNOWN" && c.windSpeedMps == 0.0)
      && (response.current.Some? ==> c.condition == ConditionOf(response.current.value.weatherCode).Name())
  {
  }

  /** In a complete response, the temperature is the reported one, the city is the given
      name or the response's coordinates as text, the date is the parsed current time,
      the humidity is the reading at the current hour (so one of the hourly readings or 0),
      the wind converts back to the reported km/h exactly, the condition is UNKNOWN
      exactly for codes outside the code table, and the forecast is built from the daily
      block. */
  lemma CompleteResponse(host: Host, lat: real, lon: real, cityName: Option<string>, response: OpenMeteoResponse)
    requires Complete(response)
    ensures var c := WeatherByCoordinates(host, lat, lon, cityName, Some(response)).current;
      c.temperatureCelsius == response.current.value.temperature
      && c.city == (if cityName.Some? then cityName.value else host.formatCoordinates(response.latitude, response.longitude))
      && c.date == ParseDate(host, response.current.value.time)
      && c.humidity == CurrentHumidity(response.hourly, response.current.value.time)
    ensures WeatherByCoordinates(host, lat, lon, cityName, Some(response)).forecast == Forecast(host, response.daily.value)
    ensures var c := WeatherByCoordinates(host, lat, lon, cityName, Some(response)).current;
      (c.humidity == 0 || (response.hourly.Some? && c.humidity in response.hourly.value.humidity))
      && c.windSpeedMps * KmhPerMs == response.current.value.windSpeed10m
      && (c.condition == "UNKNOWN" <==> response.current.value.weatherCode !in MockWeather.WeatherCodes)
      && (c.isDay <==> response.current.value.isDay == 1)
  {
    var current := response.current.value;
    var h := CurrentHumidity(response.hourly, current.time);
    if response.hourly.Some? && current.time in response.hourly.value.time {
      var i := IndexOf(response.hourly.value.time, current.time);
      assert FirstOccurrence(response.hourly.value.time, current.time, i);
    }
    KnownIffListed(current.weatherCode);
    NamesDistinct(ConditionOf(current.weatherCode));
  }

  /** Only the Unknown category is sent as "UNKNOWN". */
  lemma NamesDistinct(c: Condition)
    ensures c.Name() == "UNKNOWN" <==> c == Unknown
  {
  }

  /** Day `i` of the forecast: its date is the parsed day or today; a present high, low
      or code is read at index i, a missing high or low reads 0.0 and a missing code
      UNKNOWN / "No data". */
  lemma ForecastDefaults(host: Host, daily: DailyData, i: nat)
    requires i < |daily.time|
    ensures var d := Forecast(host, daily)[i];
      d.date == (if host.parseDay(daily.time[i]).Some? then host.parseDay(daily.time[i]).value else host.today)
      && (i < |daily.temperatureMax| ==> d.highTempCelsius == daily.temperatureMax[i])
      && (i < |daily.temperatureMin| ==> d.lowTempCelsius == daily.temperatureMin[i])
      && (i < |daily.weatherCode| ==> d.conditionDescription == Description(daily.weatherCode[i]))
    ensures var d := Forecast(host, daily)[i];
      (i >= |daily.temperatureMax| ==> d.highTempCelsius == 0.0)
      && (i >= |daily.temperatureMin| ==> d.lowTempCelsius == 0.0)
      && (i >= |daily.weatherCode| ==> d.condition == "UNKNOWN" && d.conditionDescription == "No data")
      && (i < |daily.weatherCode| ==> d.condition == ConditionOf(daily.weatherCode[i]).Name())
  {
  }

  // ---------------------------------------------------------------------------
  // The cache in front of the city lookup

  /** `cacheExpiryMs`: five minutes. */
  const CacheExpiryMs: int := 5 * 60 * 1000

  datatype CachedWeather = CachedWeather(data: WeatherData, timestamp: int)

  /** A geocoding result. */
  datatype Place = Place(name: string, latitude: real, longitude: real)

  /** What the geocoding call does when it is made: it throws, or it returns a list. */
  datatype Geocoded = Threw | Results(places: seq<Place>)

  /** The cache key: the city lower-cased and trimmed, so it holds no upper-case letter
      and neither starts nor ends with white space. */
  function CacheKey(city: string): (key: string)
    ensures forall i :: 0 <= i < |key| ==> !IsUpper(key[i])
    ensures key == [] || (!IsSpace(key[0]) && !IsSpace(key[|key| - 1]))
  {
    var lower := Lower(city);
    assert forall c :: c in lower ==> !IsUpper(c);
    var key := Trim(lower);
    assert forall i :: 0 <= i < |key| ==> key[i] in lower;
    key
  }

  /** Cities differing only in case share a key. */
  lemma CacheKeyIgnoresCase(city: string)
    ensures CacheKey(Lower(city)) == CacheKey(city)
  {
    LowerIdempotent(city);
  }

  /** The service's cache, keyed by `CacheKey`. */
  class WeatherCache {
    var cache: map<string, CachedWeather>

    constructor()
      ensures cache == map[]
    {
      cache := map[];
    }

    /** The entry for `key` exists and is younger than five minutes at `now`. */
    predicate Fresh(key: string, now: int)
      reads this
    {
      key in cache && now - cache[key].timestamp < CacheExpiryMs
    }

    /** `getWeatherByCity`. `now` is the clock reading of the freshness test and
        `storedAt` the one taken when a new entry is stored; `geocoded` is what the
        geocoder does if it is called and `fetched` what the forecast request then yields.
        A fresh entry is returned without any lookup; otherwise the first place found is
        fetched, stored under the key and returned; no place, or a throwing geocoder,
        gives None and leaves the cache as it was. */
    method GetWeatherByCity(host: Host, city: string, now: int, storedAt: int,
                            geocoded: Geocoded, fetched: Option<OpenMeteoResponse>)
      returns (r: Option<WeatherData>)
      modifies this
      ensures var key := CacheKey(city);
        if old(Fresh(key, now)) then
          r == Some(old(cache[key].data)) && cache == old(cache)
        else if geocoded.Results? && geocoded.places != [] then
          var place := geocoded.places[0];
          var data := WeatherByCoordinates(host, place.latitude, place.longitude, Some(place.name), fetched);
          r == Some(data) && cache == old(cache)[key := CachedWeather(data, storedAt)]
        else
          r == None && cache == old(cache)
      ensures old(cache).Keys <= cache.Keys
    {
      var cityKey := Trim(Lower(city));
      if cityKey in cache && now - cache[cityKey].timestamp < CacheExpiryMs {
        return Some(cache[cityKey].data);
      }
      match geocoded
      case Threw =>
        return None;
      case Results(results) =>
        if results == [] {
          return None;
        }
        var location := results[0];
        var weatherData := WeatherByCoordinates(host, location.latitude, location.longitude, Some(location.name), fetched);
        cache := cache[cityKey := CachedWeather(weatherData, storedAt)];
        return Some(weatherData);
    }
  }
}
